=== FILE: README.md ===
# Payphone menu engine, decoders and BIOS: a Dafny model

This project models the core of a Raspberry Pi payphone. A caller lifts the handset, hears
menu prompts and presses keypad keys to walk a tree of menus. The model covers:

- the menu node and its three navigators:
  - the live navigator: a non-blocking prompt that a key press interrupts, a queue drain
    after an invalid key, and an inactivity timeout;
  - the older blocking navigator;
  - the legacy navigator, which has its own input queue;
- the extension and hybrid key rules, as far as the unit tests pin them down;
- the hardware input decoders:
  - the GPIO matrix keypad, with its layout, scan and debounce;
  - the hook switch, in one-pin and two-pin mode;
  - the serial line protocol;
- the BIOS:
  - its configuration store;
  - the registry of discovered phone systems;
  - the bootloader's menu, launch, auto-launch, call routing and hang-up logic;
- the pure analysis inside the pin-probing scripts (connectivity, stability, snapshot diffs);
- the DTMF frequency table of ITU-T Recommendation Q.23 and the tone file names;
- the keyboard stand-in for the keypad in the desktop harness.

Everything is a pure function over immutable datatypes. A phone call runs against a finite
script, the `Env` of `environment.dfy`:

- every `hook_status()` call consumes one boolean, and an exhausted hook script means the
  caller hung up;
- every `queue.get` consumes a key or an empty poll, and an empty poll advances the
  integer millisecond clock by the poll timeout;
- `is_playing()` answers and action results come from the script;
- the result is a trace of `Visit`, `Play(file, blocking)`, `Stop` and `Invoke` effects.

Each navigation consumes a hook answer, so the hook script's length bounds the recursion.
The legacy navigator has no hook check, so it spends one unit of `fuel` per `navigate`.

Where Python has unbounded or host-provided behaviour, the model takes it as a parameter:

- the import machinery, a class constructor and `get_metadata()`;
- whether a tone file exists, and a GPIO read;
- the readings of each resistor mode and each pressed button.

The modules follow the program's structure:

- `tree_node`, `environment`, `core_navigator`, `blocking_navigator`, `legacy_navigator`,
  `extension_rules`;
- `keypad`, `hook_switch`, `serial_protocol`;
- `config_store`, `system_registry`, `bootloader`;
- `pin_lists`, `pin_connectivity`, `pin_viewer`, `raw_pin_monitor`, `pin_diagnostic`;
- `dtmf`, `keyboard_simulator`;
- `information_booth` and `scenarios`, which hold concrete trees and calls.

The repository's `payphone/core/phone_tree.py` has no extension or hybrid rules: its
constructor takes none of their parameters. The model follows the unit tests. In
single-digit mode no validation runs (tests/unit/test_phone_tree_extensions.py:333-345).
An extension buffer is complete once its length reaches the fixed length. The hybrid tests
pass the prefix `'*'` and the return key `'0'` explicitly (tests/unit/test_phone_tree_hybrid.py:57, :71).
The model uses them as defaults. Continuous dialling on is the model's own default, and no
test asserts it.

## Model

| member | source | states |
|---|---|---|
| TreeNode.MakeNode | payphone/core/phone_tree.py:10-20 | A missing options dictionary becomes an empty one; the prompt, action and timeout are kept as given. |
| TreeNode.ConstructorDefaults | payphone/phone_system/phone_tree.py:10-19 | A node built with every default is a leaf with no action and a 30 second timeout. |
| Environment.Drain | payphone/core/phone_tree.py:98-105 | Draining discards exactly the keys already queued, leaves the queue empty and changes nothing else in the script. |
| Environment.DrainLeavesNothingQueued | payphone/core/phone_tree.py:98-105 | After a drain no key is queued. |
| Environment.ReadHook | payphone/core/phone_tree.py:29 | A hook check takes the next scripted answer off the hook script and touches nothing else; an exhausted script reads as on hook. |
| Environment.ReadPlaying | payphone/core/phone_tree.py:76 | A playback check takes the next scripted answer and touches nothing else; an exhausted script reads as silent. |
| Environment.ReadResult | payphone/core/phone_tree.py:42 | An action call takes the next scripted result and touches nothing else; an exhausted script reads as falsy. |
| Environment.NextPoll | payphone/core/phone_tree.py:73 | A poll returns the queued key at the head of the input with no time passing, or is empty and advances the clock by the poll timeout; nothing else changes. |
| Environment.QueuedCount | payphone/core/phone_tree.py:98-105 | The number of keys already queued is the length of the leading run of keys, ended by an empty poll or the end of the script. |
| CoreNavigator.AwaitPrompt | payphone/core/phone_tree.py:39-40 | Waiting for a prompt reads only hook and playback answers: the queue, the action results and the clock are untouched. |
| CoreNavigator.Navigate | payphone/core/phone_tree.py:22-46 | On hook at entry the trace is empty; off hook it starts by visiting the node and starting its prompt without blocking. |
| CoreNavigator.ToMain | payphone/core/phone_tree.py:55-57 | With no main menu nothing happens; otherwise the main menu is entered, with its prompt first when the caller is off hook. |
| CoreNavigator.Proceed | payphone/core/phone_tree.py:48-62 | A leaf with no main menu adds nothing; a menu whose caller has hung up adds nothing. |
| CoreNavigator.AwaitKey | payphone/core/phone_tree.py:62-69 | On hook the loop adds nothing; off hook and past the timeout it stops the audio and plays the timeout prompt, blocking, first. |
| CoreNavigator.HangUpOnEntry | payphone/core/phone_tree.py:28-31 | A caller on hook at entry gets an empty trace: no prompt, no action, no visit. |
| CoreNavigator.EntryPrompt | payphone/core/phone_tree.py:33-34 | Off hook, the node first enters and starts its own prompt without blocking, before any action or key. |
| CoreNavigator.FalsyActionGoesToMain | payphone/core/phone_tree.py:36-46 | A falsy action result hands the call to the main menu, or ends it, right after the action; no key is read and no time passes. |
| CoreNavigator.LeafReturnsToMain | payphone/core/phone_tree.py:48-57 | A leaf reads no key: after its prompt the call goes to the main menu, or ends. |
| CoreNavigator.ValidKeyDescends | payphone/core/phone_tree.py:73-85 | A key naming an option descends into that child with the same main menu, after a stop exactly when audio was playing; the keys queued behind it stay queued. |
| CoreNavigator.InvalidKeyReplays | payphone/core/phone_tree.py:75-112 | An unknown key keeps the caller at the node: a stop if audio was playing, else the blocking error prompt; then the queue is drained, the prompt restarts and the timer restarts at the current time. |
| CoreNavigator.InvalidPromptIffSilent | payphone/core/phone_tree.py:86-96 | The error prompt plays if and only if no audio was playing when the unknown key arrived. |
| CoreNavigator.TimeoutReturnsToMain | payphone/core/phone_tree.py:62-69 | Once the elapsed time strictly exceeds the timeout, the node stops its audio, plays the timeout prompt blocking and hands over to the main menu. |
| CoreNavigator.HangUpInLoop | payphone/core/phone_tree.py:62 | Hanging up while a menu waits ends the loop with no further effect. |
| CoreNavigator.QuietMenuTimesOut | payphone/core/phone_tree.py:59-116 | A menu left with no keys and the caller on the line ends in the timeout prompt and the main menu once enough empty polls have passed. |
| CoreNavigator.NavigateStaysInTree | payphone/core/phone_tree.py:22-116 | Every visit, prompt and action of a navigation belongs to the node's tree or the main menu's tree, or is a reserved prompt. |
| CoreNavigator.ProceedStaysInTree | payphone/core/phone_tree.py:48-69 | The part of a navigation after the action gate stays within the two trees. |
| CoreNavigator.AwaitKeyStaysInTree | payphone/core/phone_tree.py:62-116 | The key loop stays within the two trees. |
| CoreNavigator.KeyStaysInTree | payphone/core/phone_tree.py:73-112 | The key branch of the loop, valid or invalid key, stays within the two trees. |
| CoreNavigator.PathPlaysPrompts | payphone/core/phone_tree.py:83-85 | Pressing the keys of a path to a leaf plays exactly the prompts of the nodes on that path, root first, whether or not there is a main menu to return to once the caller hangs up at the leaf. |
| BlockingNavigator.HangUpOnEntry | payphone/phone_system/phone_tree.py:28-31 | A caller on hook at entry gets an empty trace. |
| BlockingNavigator.Navigate | payphone/phone_system/phone_tree.py:22-42 | On hook at entry the trace is empty; off hook it starts by visiting the node and playing its prompt, blocking. |
| BlockingNavigator.Proceed | payphone/phone_system/phone_tree.py:44-54 | A leaf with no main menu changes nothing; a leaf with one enters it, prompt first; a caller on hook gets nothing. |
| BlockingNavigator.AwaitKey | payphone/phone_system/phone_tree.py:54-60 | On hook the loop adds nothing; past the timeout the first effect is the blocking timeout prompt, with no stop before it. |
| BlockingNavigator.EntryPromptBlocks | payphone/phone_system/phone_tree.py:33-34 | Off hook, the node first enters and plays its own prompt to the end. |
| BlockingNavigator.FalsyActionGoesToMain | payphone/phone_system/phone_tree.py:36-42 | A falsy action result goes to the main menu, or ends the call, with no key read and no time passed. |
| BlockingNavigator.LeafReturnsToMain | payphone/phone_system/phone_tree.py:44-49 | A leaf with no action goes straight to the main menu after its prompt, or the call ends. |
| BlockingNavigator.ValidKeyDescends | payphone/phone_system/phone_tree.py:63-67 | A key naming an option descends into that child with the same main menu and stops nothing. |
| BlockingNavigator.InvalidKeyReplays | payphone/phone_system/phone_tree.py:68-71 | An unknown key always plays the error prompt, then the node's prompt, and restarts the timer; nothing is drained. |
| BlockingNavigator.TimeoutReturnsToMain | payphone/phone_system/phone_tree.py:54-60 | On timeout the timeout prompt plays with no stop before it, and the main menu follows. |
| BlockingNavigator.NeverStops | payphone/phone_system/phone_tree.py:22-74 | This navigator never stops audio. |
| BlockingNavigator.ProceedNeverStops | payphone/phone_system/phone_tree.py:44-74 | The part after the action gate never stops audio. |
| BlockingNavigator.AwaitKeyNeverStops | payphone/phone_system/phone_tree.py:54-74 | The key loop never stops audio. |
| BlockingNavigator.AllPlaysBlock | payphone/phone_system/phone_tree.py:34 | Every prompt this navigator plays is blocking. |
| BlockingNavigator.ProceedPlaysBlock | payphone/phone_system/phone_tree.py:44-74 | Every prompt after the action gate is blocking. |
| BlockingNavigator.AwaitKeyPlaysBlock | payphone/phone_system/phone_tree.py:54-74 | Every prompt of the key loop is blocking. |
| BlockingNavigator.PathPlaysPrompts | payphone/phone_system/phone_tree.py:63-67 | Pressing the keys of a path to a leaf plays exactly the path's prompts, one per level. |
| Scenarios.TwoLevelPlaysTwo | tests/unit/test_phone_tree.py:64-90 | A two-level walk of the older navigator plays exactly the parent's and the child's prompt. |
| Scenarios.ThreeLevelPlaysThree | tests/unit/test_phone_tree.py:208-232 | A three-level walk of the older navigator plays exactly three prompts. |
| Scenarios.InvalidKeyDuringPrompt | payphone/core/phone_tree.py:75-112 | An unknown key pressed during a prompt: the live navigator stops and restarts the prompt with no error, while the older one plays the error and then the prompt. |
| InformationBooth.MainMenu | phone_systems/information_booth/system.py:43-51 | The root menu offers exactly the keys 1, 2 and 3. |
| InformationBooth.PlainPaths | phone_systems/information_booth/system.py:28-51 | The paths of at most two keys from the root to a leaf are exactly 1-1, 1-2, 2 and 3. |
| InformationBooth.WeatherCall | phone_systems/information_booth/system.py:29-47 | Pressing 1 then 1 plays the main menu, the information menu and the weather report, in that order. |
| LegacyNavigator.MakeLegacy | payphone/PhoneTree.py:6-10 | The constructor keeps message, options and action, and a node given no queue gets a new one. |
| LegacyNavigator.AddOption | payphone/PhoneTree.py:12-13 | After adding, the key maps to the child and every other key is unchanged. |
| LegacyNavigator.ExecuteAction | payphone/PhoneTree.py:21-24 | The result is the action's result, or true when there is no action. |
| LegacyNavigator.Navigate | payphone/PhoneTree.py:31-47 | With no fuel nothing happens; otherwise the node first announces its message. |
| LegacyNavigator.WaitChoice | payphone/PhoneTree.py:49-58 | An empty queue leaves the node waiting with nothing done; an invalid head choice is rejected first; a valid one announces the child's message first. |
| LegacyNavigator.FalsyActionReentersMain | payphone/PhoneTree.py:31-39 | A falsy action result re-enters the main menu with itself as main menu, or ends the call, reading no queue. |
| LegacyNavigator.LeafReentersMain | payphone/PhoneTree.py:41-47 | A node with no options re-enters the main menu, or the call ends. |
| LegacyNavigator.ValidChoiceHandsQueue | payphone/PhoneTree.py:49-56 | A valid choice gives the child this node's queue before descending with the same main menu. |
| LegacyNavigator.InvalidChoiceDiscarded | payphone/PhoneTree.py:57-58 | An invalid choice is taken off the queue and reported; nothing is replayed and the wait goes on. |
| LegacyNavigator.InvalidChoicesKeepWaiting | payphone/PhoneTree.py:49-58 | A queue of invalid choices is rejected choice by choice, in order, until it is empty, and the node keeps waiting. |
| LegacyNavigator.FirstValidChoiceWins | payphone/PhoneTree.py:49-58 | Choices are consumed in queue order: every invalid choice before the first valid one is rejected in turn, then the child of the first valid choice takes over, with the choices after it still queued. |
| ExtensionRules.ModeOf | tests/unit/test_phone_tree_hybrid.py:32-48 | The mode is hybrid exactly when hybrid mode is requested, and single-digit exactly when neither mode is. |
| ExtensionRules.MakeSettings | tests/unit/test_phone_tree_extensions.py:46-62 | Explicitly given length, terminator and timeout are kept as given. |
| ExtensionRules.SettingsDefaults | tests/unit/test_phone_tree_extensions.py:321-331 | Without arguments: no fixed length, terminator '#', timeout 3 s. |
| ExtensionRules.Validate | tests/unit/test_phone_tree_extensions.py:64-118 | No keys or single-digit mode always pass; each error names the rule broken, its mode and a key that breaks it: mixed lengths and the terminator in extension mode, the prefix and then the return key in hybrid mode, a key of the wrong length in either. Hybrid mode never checks the terminator against the keys. |
| ExtensionRules.Admissible | tests/unit/test_phone_tree_hybrid.py:32-93 | An admissible extension key set has no mixed lengths and no terminator; an admissible hybrid key set has neither the prefix nor the return key as a key. |
| ExtensionRules.ValidateAcceptsAdmissible | tests/unit/test_phone_tree_extensions.py:64-118 | Validation accepts a key set exactly when it is empty or admissible for its mode, the admissible sets being stated key by key. |
| ExtensionRules.ExtensionRejectsMixed | tests/unit/test_phone_tree_extensions.py:64-75 | Extension mode rejects a one-character key beside a longer one. |
| ExtensionRules.ExtensionRejectsWrongLength | tests/unit/test_phone_tree_extensions.py:77-89 | With a fixed length, a key of another length is a length mismatch. |
| ExtensionRules.ExtensionCases | tests/unit/test_phone_tree_extensions.py:64-118 | The tests' key sets: a terminator inside a key, a short key and mixed lengths are rejected with their own errors; uniform three-digit keys are accepted. |
| ExtensionRules.HybridAcceptsOverlap | tests/unit/test_phone_tree_hybrid.py:78-93 | Hybrid mode accepts single-digit keys beside extensions, even one that starts an extension. |
| ExtensionRules.HybridRejectsReserved | tests/unit/test_phone_tree_hybrid.py:50-76 | Hybrid mode rejects a key equal to the prefix, and otherwise one equal to the return key. |
| ExtensionRules.HybridLengthExemptsSingles | tests/unit/test_phone_tree_hybrid.py:32-48 | In hybrid mode, keys that avoid the prefix and the return key are accepted when each is either one character long or of the fixed length: single keys are exempt from the length. |
| ExtensionRules.MakeMenu | tests/unit/test_phone_tree_extensions.py:364-375 | Missing options become an empty dictionary and are never validated; otherwise construction fails exactly with the validation error. |
| ExtensionRules.SingleDigitIgnoresSettings | tests/unit/test_phone_tree_extensions.py:333-345 | Single-digit mode accepts any options whatever the extension settings. |
| ExtensionRules.CompleteAtFixedLength | tests/unit/test_phone_tree_hybrid.py:326-340 | With length 3, a three-digit buffer is complete and a two-digit one is not. |
| ExtensionRules.CompleteAtTerminator | tests/unit/test_phone_tree_hybrid.py:342-356 | Without a fixed length, completion is exactly the terminator being pressed. |
| ExtensionRules.IsExtensionComplete | tests/unit/test_phone_tree_hybrid.py:326-356 | Without a fixed length the terminator alone completes; otherwise a non-terminator completes exactly when the buffer has reached the fixed length. |
| ExtensionRules.CompletionMonotone | tests/unit/test_phone_tree_hybrid.py:326-356 | A buffer at least as long as a complete one is complete too, and an incomplete buffer is shorter than the fixed length. |
| ExtensionRules.FreshContext | tests/unit/test_phone_tree_hybrid.py:242-257 | A fresh context has the menu playing, extension mode off and an empty buffer. |
| ExtensionRules.ClearQueue | tests/unit/test_phone_tree_hybrid.py:358-375 | Clearing takes every queued key, leaving a queue of size 0, and nothing else. |
| ExtensionRules.ClearThreeKeys | tests/unit/test_phone_tree_hybrid.py:358-375 | Three queued keys are all cleared. |
| Keypad.LayoutFor | payphone/hardware/gpio_keypad.py:24-38 | Three or four rows give a layout of that many rows of three keys; any other count is an error naming it. |
| Keypad.ThreeRowsDropTopRow | payphone/hardware/gpio_keypad.py:24-36 | The three-row layout is the four-row one without its top row, so keys 1 and 2 cannot be produced. |
| Keypad.ScanKeypad | payphone/hardware/gpio_keypad.py:59-77 | No low cell gives none; otherwise the key of the last low cell in row-major order; a low cell outside the layout is an error. |
| Keypad.Step | payphone/hardware/gpio_keypad.py:106-119 | A scan queues its key exactly when it is non-empty, differs from the previous scan and comes more than 300 ms after the last queued key; the last key always updates, the last time only on a press. |
| Keypad.Debounce | payphone/hardware/gpio_keypad.py:87-120 | Scanning gives one outcome per scan and remembers the last scan's key. |
| Keypad.PressNeedsChange | payphone/hardware/gpio_keypad.py:106 | A press is a non-empty key that differs from the previous scan's result. |
| Keypad.HeldKeyQuiet | payphone/hardware/gpio_keypad.py:106-119 | A key held over two scans is not queued again on the second. |
| Keypad.FirstPressGap | payphone/hardware/gpio_keypad.py:42-110 | The first press comes more than 300 ms after the last key time the scanner starts from (0 for a fresh scanner). |
| Keypad.PressesSpaced | payphone/hardware/gpio_keypad.py:110-117 | Two successive presses are more than 300 ms apart. |
| Keypad.PressesFromLayout | payphone/hardware/gpio_keypad.py:72-115 | Every queued key is a key of the layout. |
| Keypad.TonesFollowAudio | payphone/hardware/gpio_keypad.py:112-113 | A press sounds its tone exactly when an audio handler is attached. |
| HookSwitch.MakeSwitch | payphone/hardware/gpio_hook.py:18-31 | A single pin selects one-pin mode; a list selects two-pin mode if it has exactly two pins and is an error otherwise. |
| HookSwitch.Setup | payphone/hardware/gpio_hook.py:38-83 | Setup records the pin's level as the last state and changes nothing else. |
| HookSwitch.ModesOpposite | payphone/hardware/gpio_hook.py:87-96 | LOW means off hook in one-pin mode and HIGH means off hook in two-pin mode, so the modes read every level oppositely. |
| HookSwitch.OffHook | payphone/hardware/gpio_hook.py:87-96 | A level means off hook exactly when it is LOW in one-pin mode or HIGH in two-pin mode. |
| HookSwitch.GetState | payphone/hardware/gpio_hook.py:110-117 | Polling reads the level the same way: off hook exactly when LOW in one-pin mode or HIGH in two-pin mode. |
| HookSwitch.HookChanged | payphone/hardware/gpio_hook.py:85-108 | The level always becomes the last state; the callback hears the off-hook verdict exactly when the level changed and a callback is set. |
| HookSwitch.GetStateAgrees | payphone/hardware/gpio_hook.py:110-117 | Polling gives the same verdict the callback hears for the same level. |
| HookSwitch.Edges | payphone/hardware/gpio_hook.py:85-108 | A run of levels reports no more verdicts than levels, keeps the mode and the callback, and ends with the last level as the last state. |
| HookSwitch.NoCallbackNoReports | payphone/hardware/gpio_hook.py:98-103 | With no callback nothing is reported. |
| HookSwitch.ReportsAlternate | payphone/hardware/gpio_hook.py:98-108 | Successive reports alternate between off hook and on hook. |
| SerialProtocol.Split | payphone/hardware/serial_handler.py:67 | Splitting gives at least one piece, and no piece holds the separator. |
| SerialProtocol.JoinSplit | payphone/hardware/serial_handler.py:67 | Joining the pieces with the separator gives back the line. |
| SerialProtocol.SplitJoin | payphone/hardware/serial_handler.py:67 | Splitting the join of separator-free pieces gives back the pieces. |
| SerialProtocol.ProcessData | payphone/hardware/serial_handler.py:64-75 | A KEY line queues its second field; otherwise a HOOK line tells a set callback that the phone is off hook exactly when its second field is ON; every other line is ignored. |
| SerialProtocol.KeyRoundTrip | payphone/hardware/serial_handler.py:66-68 | A KEY line carrying a key with no colon queues exactly that key. |
| SerialProtocol.KeyFieldCases | payphone/hardware/serial_handler.py:67 | Only the field between the first two colons is queued: KEY:1:2 queues 1, and KEY: queues the empty key. |
| SerialProtocol.HookCases | payphone/hardware/serial_handler.py:70-73 | HOOK:ON reports off hook (true), any other status reports on hook (false), and nothing happens without a callback. |
| SerialProtocol.ReadyIgnored | payphone/hardware/serial_handler.py:74-75 | READY changes neither the queue nor the callback. |
| ConfigStore.Defaults | payphone/bios/config_manager.py:19-30 | The defaults have exactly the six configuration keys. |
| ConfigStore.Merge | payphone/bios/config_manager.py:50 | Merging keeps every key of either map and takes the loaded value wherever there is one. |
| ConfigStore.Open | payphone/bios/config_manager.py:42-58 | The opened configuration has every default key; stored keys keep their stored values and the defaults fill the rest; only a missing file writes the store, with the opened configuration. |
| ConfigStore.GetLastSystem | payphone/bios/config_manager.py:86-88 | The stored last system, or none when the key is absent. |
| ConfigStore.SetLastSystem | payphone/bios/config_manager.py:90-92 | The id is stored as the last system, every other key is unchanged, and the new configuration is saved. |
| ConfigStore.GetAutoLaunch | payphone/bios/config_manager.py:94-96 | The stored auto-launch value, or true when the key is absent. |
| ConfigStore.GetScanPaths | payphone/bios/config_manager.py:98-100 | The stored scan paths, or the empty list when the key is absent. |
| ConfigStore.AddScanPath | payphone/bios/config_manager.py:102-107 | The membership test fails exactly when the stored scan paths are none of a list, a string or a dictionary; otherwise only the scan paths may change, a change is saved, and on a list the path is present afterwards. |
| ConfigStore.GetEnterHoldSeconds | payphone/bios/config_manager.py:114-116 | The stored hold time, or 3.0 s when the key is absent. |
| ConfigStore.GetExitLongPressSeconds | payphone/bios/config_manager.py:118-120 | The stored long-press time, or 5.0 s when the key is absent. |
| ConfigStore.OpenCases | payphone/bios/config_manager.py:42-58 | A stored map overrides the defaults key by key; an unreadable file gives exactly the defaults; a missing one gives the defaults and saves them. |
| ConfigStore.Get | payphone/bios/config_manager.py:77-79 | A key's value, or the default when the key is absent. |
| ConfigStore.Set | payphone/bios/config_manager.py:81-84 | Setting saves the whole new configuration to the store. |
| ConfigStore.SetThenGet | payphone/bios/config_manager.py:77-84 | After setting a key, reading it gives the value and every other key reads as before. |
| ConfigStore.LastSystemPersists | payphone/bios/config_manager.py:86-92 | The last system set is read back, also by a new manager opened over the saved store. |
| ConfigStore.FreshDefaults | payphone/bios/config_manager.py:94-120 | A manager over no file reads auto-launch on, holds of 3.0 s and 5.0 s, no last system and the three default scan paths. |
| ConfigStore.AddScanPathAppends | payphone/bios/config_manager.py:102-107 | On a list of scan paths, an absent path is appended at the end and saved, a present one changes nothing, and adding twice is adding once. |
| ConfigStore.UpdateAvailableSystems | payphone/bios/config_manager.py:109-112 | The list of available systems is replaced as a whole and saved; every other key is unchanged. |
| SystemRegistry.MakeInfo | payphone/bios/system_manager.py:24-31 | The constructor keeps all six fields as given. |
| SystemRegistry.ConstructorDefaults | payphone/bios/system_manager.py:24-25 | The description defaults to the empty string and the version to 1.0.0. |
| SystemRegistry.ToDict | payphone/bios/system_manager.py:33-42 | The dictionary has exactly the keys id, name, module_path, class_name, description and version. |
| SystemRegistry.FromDict | payphone/bios/system_manager.py:44-54 | Building succeeds exactly when the four required keys are present; a missing description or version takes its default. |
| SystemRegistry.DictRoundTrip | payphone/bios/system_manager.py:33-54 | Building from the dictionary of a record gives back the record. |
| SystemRegistry.FromDictDefaults | payphone/bios/system_manager.py:52-53 | A dictionary with only the required keys gives the default description and version. |
| SystemRegistry.Strip | payphone/bios/system_manager.py:194 | The result is the substring of the input left after removing whitespace-only runs at both ends: it is no longer than the input and has no whitespace at either end. |
| SystemRegistry.DocSummary | payphone/bios/system_manager.py:194 | The docstring summary is a single line. |
| SystemRegistry.Metadata | payphone/bios/system_manager.py:175-196 | A dictionary from get_metadata is the metadata; with no method, or one that raised, a non-empty docstring gives only a description, and no docstring gives nothing. |
| SystemRegistry.DocSummaryFirstLine | payphone/bios/system_manager.py:193-194 | Leading blank space is skipped and the summary is the first line of the docstring. |
| SystemRegistry.InfoFromClass | payphone/bios/system_manager.py:157-166 | A discovered record takes name, description and version from the metadata, defaulting to the class name, the empty string and 1.0.0. |
| SystemRegistry.Register | payphone/bios/system_manager.py:168 | Registering a record maps its id to it, keeps every other id, and lists a new id last. |
| SystemRegistry.GetSystemInfo | payphone/bios/system_manager.py:232-234 | The lookup is none exactly when the id was not discovered, and otherwise the discovered record. |
| SystemRegistry.ListSystems | payphone/bios/system_manager.py:236-238 | The list holds exactly the discovered records, in discovery order. |
| SystemRegistry.LoadSystem | payphone/bios/system_manager.py:198-230 | An undiscovered id loads nothing; otherwise the class is returned exactly when importing it succeeds and it is a phone system. |
| SystemRegistry.UnknownIdNeverLoads | payphone/bios/system_manager.py:208-210 | An undiscovered id loads nothing whatever the importer would do, since no import is attempted. |
| Bootloader.Initial | payphone/bios/bootloader.py:36-65 | A new bootloader is on hook, outside the menu, with no current system, an empty registry and the configuration its store opens to. |
| Bootloader.DigitKey | payphone/bios/bootloader.py:266 | The key of the i-th system is the single digit i. |
| Bootloader.DigitKeyInjective | payphone/bios/bootloader.py:260-267 | Different positions get different keys. |
| Bootloader.SystemLeaf | payphone/bios/bootloader.py:265-271 | The option of a system is a leaf that plays bios/system_<id>.mp3 and whose action launches that id. |
| Bootloader.InfoValue | payphone/bios/bootloader.py:274 | A system is stored as its dictionary, key for key. |
| Bootloader.MenuOptions | payphone/bios/bootloader.py:258-271 | The options are keyed by exactly the digits 1 to min(n, 9), and digit d is the leaf that launches the d-th system. |
| Bootloader.BiosMenu | payphone/bios/bootloader.py:250-285 | With no systems, the no-systems leaf with the default timeout; otherwise the main menu prompt with a 60 s timeout, no action and the menu options, among them key 1. |
| Bootloader.SetupPhoneTree | payphone/bios/bootloader.py:239-285 | The tree is the menu of the discovered systems; the registry becomes the discovery and nothing else but the configuration changes; with systems the configuration is saved, with none it is untouched. |
| Bootloader.MenuKeys | payphone/bios/bootloader.py:258-285 | With systems, the menu plays bios/main_menu.mp3 with a 60 s timeout and offers exactly the keys 1 to min(n, 9), key i launching the i-th system. |
| Bootloader.NoSystemsMenu | payphone/bios/bootloader.py:250-256 | With no systems, the menu is the single no_systems leaf, and the configuration is not written. |
| Bootloader.TenthSystemDropped | payphone/bios/bootloader.py:260-263 | A system after the ninth has no option that launches it. |
| Bootloader.AvailableSystemsRecorded | payphone/bios/bootloader.py:273-274 | All discovered systems, ninth or not, are saved as available systems in discovery order, and the last system is untouched. |
| Bootloader.EnsureDiscovered | payphone/bios/bootloader.py:140-143 | Discovery runs only when nothing has been discovered yet. |
| Bootloader.LaunchSystem | payphone/bios/bootloader.py:130-169 | A launch first ensures discovery; a failure changes nothing else; a success makes the system current and running, leaves the menu, starts the call and saves the id as last system, leaving the hook flag as it was. |
| Bootloader.LaunchSucceedsIff | payphone/bios/bootloader.py:130-169 | A launch succeeds exactly when the id is discovered, its class loads and its constructor returns. |
| Bootloader.LaunchFailureKeepsState | payphone/bios/bootloader.py:145-169 | A failed launch keeps the last system, the store, the current system, the menu flag and the call count. |
| Bootloader.LaunchSuccessRoutesCall | payphone/bios/bootloader.py:151-166 | A successful launch makes the system current, persists its id as last system, leaves the menu and starts exactly one call, which goes to the system. |
| Bootloader.AutoLaunchEntersMenu | payphone/bios/bootloader.py:112-128 | Auto-launch off or no truthy last system: the menu is entered, routing the call, and exactly one call starts, with the configuration and the current system unchanged; entering the menu from outside happens only then. A string id: that system is launched. A truthy number or boolean: discovery runs and the launch fails. A non-empty list or dictionary: the lookup raises, after discovery. |
| Bootloader.AutoLaunch | payphone/bios/bootloader.py:112-128 | The outcome is an error exactly when auto-launch is on and the last system is a non-empty list or dictionary, which the discovered-id lookup cannot hash; the error carries that value and the state after discovery. |
| Bootloader.FirstBootEntersMenu | payphone/bios/bootloader.py:120-125 | A bootloader over no configuration file enters the menu on pickup. |
| Bootloader.RelaunchAfterRestart | payphone/bios/bootloader.py:120-128 | With auto-launch on, a bootloader restarted over the store a successful launch saved launches the same system again. |
| Bootloader.CallRoute | payphone/bios/bootloader.py:287-306 | A call goes to the menu when the menu is on, else to the current system if there is one, else nowhere. |
| Bootloader.HangUpStopsSystem | payphone/bios/bootloader.py:97-110 | Hanging up sets the phone on hook, forgets the pickup time, ends the call, stops and drops the current system, and never routes the next call to a system. |
| Bootloader.HangUp | payphone/bios/bootloader.py:97-110 | Hanging up sets on hook, forgets the pickup time, ends the call and drops the current system, which is returned stopped exactly when there was one; the last id, the menu flag, the configuration and the registry are untouched. |
| PinLists.Sort | scripts/raw_pin_monitor.py:70 | Sorting keeps the members and, on distinct pins, gives an increasing list. |
| PinLists.SortedWiredPinsSorted | scripts/raw_pin_monitor.py:14 | The listed ascending pin order is increasing and has exactly the wired pins. |
| PinLists.SortedUnique | scripts/raw_pin_monitor.py:70 | Two increasing lists with the same members are equal, so ascending order is unique. |
| PinLists.SortIsSortedOrder | scripts/raw_pin_monitor.py:70 | Sorting distinct pins gives the one increasing list of their members. |
| PinLists.Filter | scripts/raw_pin_monitor.py:70-77 | Selecting keeps exactly the members that pass, and keeps an increasing list increasing. |
| PinLists.FilterKeepsOrder | scripts/raw_pin_monitor.py:159 | Selecting keeps the order of the list it selects from. |
| PinConnectivity.Involved | scripts/pin_connectivity_test.py:276-279 | The involved pins are exactly the driven pins and the pins they reached. |
| PinConnectivity.PinPair | scripts/pin_connectivity_test.py:281-282 | A button gives a sorted pair exactly when its connections involve exactly two pins. |
| PinConnectivity.ButtonPairs | scripts/pin_connectivity_test.py:272-282 | The usable buttons are exactly those involving two pins, each with its sorted pair. |
| PinConnectivity.Common3 | scripts/pin_connectivity_test.py:296-299 | Three pairs give a common pin exactly when they share exactly one, and it is in all three. |
| PinConnectivity.Common2 | scripts/pin_connectivity_test.py:311-314 | Two pairs give a common pin exactly when they share exactly one. |
| PinConnectivity.Present | scripts/pin_connectivity_test.py:325-327 | Dropping undetermined entries is no longer than the input and holds only values present in it; a fully determined list is kept whole and a fully undetermined one empties. |
| PinConnectivity.PresentKeepsEvery | scripts/pin_connectivity_test.py:325-327 | Every present value survives the filter. |
| PinConnectivity.PresentAppend | scripts/pin_connectivity_test.py:325-327 | Filtering distributes over concatenation, so the kept values stay in their original order. |
| PinConnectivity.PresentSingle | scripts/pin_connectivity_test.py:325-327 | A present entry contributes its value and an undetermined one nothing; with `PresentAppend` this fixes the result as the in-order filter. |
| PinConnectivity.DeductionRecovers | scripts/pin_connectivity_test.py:290-318 | On the pairs of a wired matrix, step 1 finds column 1 and rows 0, 2 and 3, and step 2 finds row 1 and columns 0 and 2. |
| PinConnectivity.AnalyzeKeypadMatrix | scripts/pin_connectivity_test.py:283-331 | With no usable button there is no result; otherwise there is a result exactly when a row and a column were deduced, and it is the deduced row pins and column pins in index order with undetermined ones skipped. |
| PinConnectivity.DeduceFindsBoth | scripts/pin_connectivity_test.py:290-321 | Each step fixes rows and columns together, so rows are found exactly when columns are. |
| PinConnectivity.ExpectedPositionsOnGrid | scripts/pin_connectivity_test.py:232-245 | Each expected position names its own button on the grid, and the grid is the keypad driver's four-row layout. |
| PinConnectivity.WiredPairs | scripts/pin_connectivity_test.py:272-282 | On a wired matrix, each pressed button is usable and its pair is its row pin and column pin. |
| PinConnectivity.MatrixRecovered | scripts/pin_connectivity_test.py:256-331 | Pressing buttons 2, 4, 6, 8 and 0 of a wired matrix recovers exactly its row pins and column pins, in index order. |
| PinConnectivity.NewPins | scripts/pin_connectivity_test.py:114 | The new pins are exactly the connections not already present on hook. |
| PinConnectivity.NewConnections | scripts/pin_connectivity_test.py:108-116 | A pin absent on hook keeps all its connections; another keeps only its new ones, and is dropped when it has none. |
| PinConnectivity.OnlyNewConnections | scripts/pin_connectivity_test.py:108-116 | Every reported connection is an off-hook connection that the on-hook scan did not show. |
| PinConnectivity.NothingNewWhenUnchanged | scripts/pin_connectivity_test.py:108-116 | Identical scans report nothing new. |
| PinViewer.Count | scripts/simple_pin_viewer.py:53-54 | A value's count is at most the number of reads and is zero exactly when the value was never read. |
| PinViewer.Classify | scripts/simple_pin_viewer.py:44-58 | A failed or missing first read is an error; reads all equal to the first are stable at that value; otherwise the value is 1 exactly when 1s strictly outnumber 0s, and 0 otherwise. |
| PinViewer.FailedFirstReadIsError | scripts/simple_pin_viewer.py:47 | A failed first read is an error whatever follows. |
| PinViewer.SteadyIsStable | scripts/simple_pin_viewer.py:49-50 | Identical reads are stable at their value. |
| PinViewer.TieIsLow | scripts/simple_pin_viewer.py:51-56 | Mixed reads with as many 1s as 0s are unstable LOW. |
| PinViewer.ReadPins | scripts/simple_pin_viewer.py:28-60 | Every wired pin gets exactly one classification, that of its own reads. |
| PinViewer.ChangedPins | scripts/simple_pin_viewer.py:111-120 | The changed pins, ascending, are the wired pins with a level both times and different levels. |
| PinViewer.SameReadsNoChange | scripts/simple_pin_viewer.py:111-120 | A classification compared with itself shows no change. |
| PinViewer.ErrorNeverChanged | scripts/simple_pin_viewer.py:114-118 | A pin classified as an error on either side is never a change. |
| RawPinMonitor.CompareStates | scripts/raw_pin_monitor.py:65-77 | The changes, ascending, are the wired pins read as integers in both snapshots with different values. |
| RawPinMonitor.ErrorNeverChanges | scripts/raw_pin_monitor.py:72 | A pin whose read failed on either side is never a change. |
| RawPinMonitor.CompareSymmetric | scripts/raw_pin_monitor.py:70-77 | Comparing the other way round gives the same changes. |
| RawPinMonitor.NoChangeWithoutAction | scripts/raw_pin_monitor.py:70-77 | A snapshot compared with itself shows no change. |
| RawPinMonitor.LowHigh | scripts/raw_pin_monitor.py:83-91 | The LOW and HIGH lists are ascending and hold the wired integer-valued pins reading 0 and reading anything else. |
| RawPinMonitor.LowHighPartition | scripts/raw_pin_monitor.py:83-91 | LOW and HIGH are disjoint and together are exactly the wired integer-valued pins. |
| RawPinMonitor.LowPinsWhenPressed | scripts/raw_pin_monitor.py:159 | The held-button list holds exactly the wired pins reading 0, in wiring order. |
| RawPinMonitor.PressedLowMatchesLowList | scripts/raw_pin_monitor.py:159 | The held-button list has the same pins as the LOW list of the same snapshot. |
| PinDiagnostic.CompareStates | scripts/pin_diagnostic.py:63-84 | The changes, ascending, are the pins of the first snapshot present in the second with integer values that differ. |
| PinDiagnostic.MissingPinNeverChanges | scripts/pin_diagnostic.py:71 | A pin missing from the second snapshot is never reported. |
| PinDiagnostic.FirstChange | scripts/pin_diagnostic.py:97-125 | The search reports the first mode with a change, and reports nothing exactly when no mode shows one. |
| PinDiagnostic.HookSwitchTest | scripts/pin_diagnostic.py:86-125 | A result names a mode whose comparison is non-empty, with exactly those changes; there is no result exactly when all three modes show no change. |
| PinDiagnostic.HookModePriority | scripts/pin_diagnostic.py:97-125 | Pull-up wins when it shows a change, pull-down only when pull-up shows none, floating only when both show none, and no change gives nothing. |
| PinDiagnostic.KeypadTest | scripts/pin_diagnostic.py:146-171 | Nothing is reported exactly when holding 5 changes no pin; otherwise buttons 1, 9 and 0 each get their changes from the baseline. |
| Dtmf.TableFollowsGrid | generate_dtmf_tones.py:15-28 | The key at row r and column c of the keypad has the r-th low tone and the c-th high tone, and the table has no other key. |
| Dtmf.TonesInBands | generate_dtmf_tones.py:15-28 | Every key has a row tone below a column tone. |
| Dtmf.TonesTellKeysApart | generate_dtmf_tones.py:15-28 | No two keys share a tone pair. |
| Dtmf.ToneFile | generate_dtmf_tones.py:84-90 | The star key is saved as star.wav, the pound key as pound.wav and any other key as the key followed by .wav. |
| Dtmf.ToneFilesDistinct | generate_dtmf_tones.py:84-90 | No two keys of the table share a file. |
| KeyboardSimulator.PlayerAgreesWithGenerator | test_phone_tree.py:66-70 | The player's file map has exactly the generator's keys, under the generator's file names. |
| KeyboardSimulator.PlayDtmfTone | test_phone_tree.py:64-88 | A tone plays exactly for one of the twelve keys whose file exists and whose playback does not raise. |
| KeyboardSimulator.Classify | test_phone_tree.py:104-116 | A line that lower-cases to q quits; otherwise it is accepted exactly when it occurs inside 0123456789*#. |
| KeyboardSimulator.SingleKeysAccepted | test_phone_tree.py:108 | A one-character line is accepted exactly when it is a key of the tone table. |
| KeyboardSimulator.AcceptExamples | test_phone_tree.py:108 | The lines 12, 9*# and the empty line are accepted as they are. |
| KeyboardSimulator.RejectOutOfOrder | test_phone_tree.py:108-116 | The line 21 is rejected. |
| KeyboardSimulator.RejectForeign | test_phone_tree.py:104-116 | The line x is rejected and Q quits. |
| KeyboardSimulator.ClassifyIntended | test_phone_tree.py:116 | The intended filter accepts exactly the twelve single keys. |
| KeyboardSimulator.IntendedNarrowsFilter | test_phone_tree.py:104-116 | The intended filter quits on the same lines and accepts exactly the one-character lines the written filter accepts. |
| KeyboardSimulator.WrittenFilterAcceptsNonKeys | test_phone_tree.py:108 | The written filter accepts the empty line and 12, which the intended one rejects. |
| KeyboardSimulator.InputLoop | test_phone_tree.py:98-121 | The loop queues no more keys than lines, only accepted lines, and asks the audio player for a tone for each exactly when audio is attached (the request may sound nothing). |
| KeyboardSimulator.NothingAfterQuit | test_phone_tree.py:104-107 | Nothing typed after q reaches the queue. |
| KeyboardSimulator.QuitIff | test_phone_tree.py:104-107 | The loop quits exactly when some line is q or Q. |
| KeyboardSimulator.QueueHoldsAcceptedLines | test_phone_tree.py:108-114 | Without a quit, every accepted line is queued and only typed lines are. |

## Left out

- Audio playback, GPIO and serial I/O, threads and the wall clock are left out. A prompt is
  an effect in the trace; a pin level, a text line or a sample is an input; time is an
  integer millisecond clock.
- The sleeps of the navigators are no-ops: the 2 s pause before a leaf returns to the main
  menu, the 0.5 s pause after the error prompt and the 0.1 s polls while waiting for a prompt.
- CoreNavigator.AwaitPrompt: the clock does not advance while the navigator waits for a
  prompt to end, because the model gives that wait no duration.
- CoreNavigator.QuietMenuTimesOut: requires a hook script long enough for the timeout to
  pass, because the model's clock moves only on empty polls.
- The live navigator's drain sees only the keys already queued when it runs. Keys that
  arrive while the error prompt plays count as queued, because a script has no notion of
  concurrent arrival.
- LegacyNavigator.ValidChoiceHandsQueue: `update_input_queue` (payphone/PhoneTree.py:15, :54)
  rebinds the child's `input_queue` for good, while the model renames the queue for the one
  navigation only. The two differ only when a node is reached again by another route and
  reads its queue there.
- LegacyNavigator.Navigate: one unit of fuel per navigation bounds its otherwise unbounded
  re-entries of the main menu. The Python loop spins forever on an empty queue; the model
  stops there with `AwaitingInput`.
- The extension, hybrid and continuous-dialling navigation loops, their auto-submit timer
  and the last-input timestamp are left out, since the repository's navigator has none of them.
- The unit test at tests/unit/test_phone_tree.py:134-147 expects a prompt after the caller
  hung up, which the navigator it tests does not play. The model follows the navigator.
- Keypad.Debounce: times are integer milliseconds, and the start time of the debounce is
  the scan loop's initial `last_key_time` of 0.
- The hook switch's 100 ms bounce time, its event registration and its callback thread are
  left out. `set_callback` and `cleanup` are left out, since they only store a callback and
  release pins.
- SerialHandler's connection, `start`, `stop` and read loop are left out. The read loop's
  `decode().strip()` happens before the model's parser sees a line.
- ConfigStore.Open: JSON decoding is a `Store` that is missing, unreadable or a map, so a
  file holding JSON that is not an object counts as unreadable. Save errors are left out,
  and every save succeeds.
- ConfigStore.AddScanPath: the defaults' scan path list is shared by reference in Python, so
  appending to it also changes the defaults of later managers in the same process. The model
  uses values and leaves that aliasing out.
- SystemRegistry.Strip: whitespace is space, tab, newline, carriage return, vertical tab and
  form feed; the other Unicode spaces that Python strips are left out.
- SystemRegistry.Metadata: a `get_metadata` result that is not a dictionary is an error, as
  the caller's `.get` on it would raise; a non-dictionary type that offers `.get` is left out.
- Discovery of systems on disk (`discover_systems`, `_scan_phone_systems_dir`,
  `_scan_system_dir`) is an input: a registry of the systems found, in discovery order.
- The loader and a system's constructor are oracles: `load` says what importing a module
  gave, and `construct` whether instantiation returned.
- Bootloader.AutoLaunch: a last system that is a non-empty list or dictionary makes
  `system_id not in self.discovered_systems` (payphone/bios/system_manager.py:208) raise
  `TypeError`, which nothing catches. The model returns that as an error outcome holding the
  state after discovery. How the escaping exception ends the hook callback's thread is left out.
- CoreNavigator.Proceed: its contract says nothing about a leaf whose caller hangs up during
  its prompt. The prompt wait and the main menu each read the hook again, so that case is
  covered by Navigate's contract for the main menu instead.
- Bootloader: the pickup branch of `hook_status_changed` is left out. It sleeps for the hold
  threshold and then compares wall-clock times. The long-press monitor, `shutdown` and the
  end-call path of the base class are left out too, since they race other threads.
- The pin scripts' prompts, prints, colours and `update_env_file` are left out.
  `read_all_pins` is an input snapshot, and an error string is a `Failed` reading.
- The DTMF waveform and WAV generation are left out, since they use floating point.
- The keyboard harness's tone playback is an oracle: whether the file exists and whether
  playback raises. Its `EOFError` and `KeyboardInterrupt` ends are the end of the line list.
- Python dictionaries are maps, except the pin scripts' snapshot dictionaries. Those are
  lists of distinct keys with values, so that `sorted(before.keys())` can be modelled.

## Findings

| source | as written | input that shows it | evidently intended | confidence | as-written member | corrected member |
|---|---|---|---|---|---|---|
| test_phone_tree.py:108 | `key in '0123456789*#'` is a substring test, so a typed line is queued whenever it occurs inside that string | the empty line, and `12`, are queued as keys | a single keypad key, as the warning "use 0-9, *, or #" at line 116 says | medium, not executed | KeyboardSimulator.WrittenFilterAcceptsNonKeys | KeyboardSimulator.IntendedNarrowsFilter |

The input loop follows the code as written, using `KeyboardSimulator.Classify`.
`KeyboardSimulator.ClassifyIntended` is the corrected filter. It agrees with the written one
on every one-character line and on every quit.

=== FILE: blocking_navigator.dfy ===
/**
 * The older navigator of `payphone/phone_system/phone_tree.py`: the same node and the same
 * hang-up check, but every prompt blocks, the action result is read at once, the error
 * prompt always plays, nothing is drained and the timeout does not stop the audio.
 */
module BlockingNavigator {
  import opened Wrappers
  import opened TreeNode
  import opened Environment

  /** `input_queue.get(timeout=0.5)`: each empty poll lasts 500 ms. */
  const PollMs: nat := 500

  function Navigate(n: Node, main: Option<Node>, e: Env): (r: Run)
    ensures !OffHook(e) ==> r.trace == []
    ensures OffHook(e) ==> |r.trace| >= 2 && r.trace[0] == Visit(n) && r.trace[1] == Play(n.audioFile, true)
    decreases |e.hook|, 1
  {
    var (h, e1) := ReadHook(e);
    if !h then Run([], e1)
    else
      var entry := [Visit(n), Play(n.audioFile, true)];
      match n.action
      case Some(tag) =>
        var (ok, e2) := ReadResult(e1);
        if !ok then
          Then(entry + [Invoke(tag)], if main.Some? then Navigate(main.value, main, e2) else Run([], e2))
        else Then(entry + [Invoke(tag)], Proceed(n, main, e2))
      case None => Then(entry, Proceed(n, main, e1))
  }

  /** After the prompt and the action gate: a leaf returns to the main menu, a menu waits for a key. */
  function Proceed(n: Node, main: Option<Node>, e: Env): (r: Run)
    ensures IsLeaf(n) && main.None? ==> r == Run([], e)
    ensures IsLeaf(n) && main.Some? && OffHook(e) ==>
      |r.trace| >= 2 && r.trace[0] == Visit(main.value) && r.trace[1] == Play(main.value.audioFile, true)
    ensures !OffHook(e) ==> r.trace == []
    decreases |e.hook|, 2
  {
    if IsLeaf(n) then
      if main.Some? then Navigate(main.value, main, e) else Run([], e)
    else AwaitKey(n, main, e.now, e)
  }

  function AwaitKey(n: Node, main: Option<Node>, start: int, e: Env): (r: Run)
    ensures !OffHook(e) ==> r.trace == []
    ensures OffHook(e) && e.now - start > n.timeout * 1000 ==>
      |r.trace| >= 1 && r.trace[0] == Play(TimeoutPrompt, true)
    decreases |e.hook|, 0
  {
    var (h, e1) := ReadHook(e);
    if !h then Run([], e1)
    else if e1.now - start > n.timeout * 1000 then
      Then([Play(TimeoutPrompt, true)], if main.Some? then Navigate(main.value, main, e1) else Run([], e1))
    else
      var (p, e2) := NextPoll(e1, PollMs);
      match p
      case Empty => AwaitKey(n, main, start, e2)
      case Key(k) =>
        if k in n.options then Navigate(n.options[k], main, e2)
        else Then([Play(InvalidPrompt, true), Play(n.audioFile, true)], AwaitKey(n, main, e2.now, e2))
  }

  /** A caller already on hook gets nothing, not even the prompt. */
  lemma HangUpOnEntry(n: Node, main: Option<Node>, e: Env)
    requires |e.hook| == 0 || !e.hook[0]
    ensures Navigate(n, main, e).trace == []
  {
  }

  /** Off hook, a node enters and plays its own prompt to the end before anything else. */
  lemma EntryPromptBlocks(n: Node, main: Option<Node>, e: Env)
    requires |e.hook| > 0 && e.hook[0]
    ensures |Navigate(n, main, e).trace| >= 2
    ensures Navigate(n, main, e).trace[..2] == [Visit(n), Play(n.audioFile, true)]
  {
  }

  /** A falsy action result goes to the main menu, or ends the call, reading no key and no time. */
  lemma FalsyActionGoesToMain(n: Node, main: Option<Node>, e: Env)
    requires |e.hook| > 0 && e.hook[0] && n.action.Some?
    requires |e.results| == 0 || !e.results[0]
    ensures exists e': Env :: (e'.input == e.input && e'.now == e.now &&
      Navigate(n, main, e) ==
        Then([Visit(n), Play(n.audioFile, true), Invoke(n.action.value)],
             if main.Some? then Navigate(main.value, main, e') else Run([], e')))
  {
    var e2 := ReadResult(e.(hook := e.hook[1..])).1;
    FalsyActionStep(n, main, e);
    assert e2.input == e.input && e2.now == e.now;
  }

  /** The unfolding behind `FalsyActionGoesToMain`: the environment after the hook and result reads. */
  lemma FalsyActionStep(n: Node, main: Option<Node>, e: Env)
    requires |e.hook| > 0 && e.hook[0] && n.action.Some?
    requires |e.results| == 0 || !e.results[0]
    ensures var e2 := ReadResult(e.(hook := e.hook[1..])).1;
      Navigate(n, main, e) ==
        Then([Visit(n), Play(n.audioFile, true), Invoke(n.action.value)],
             if main.Some? then Navigate(main.value, main, e2) else Run([], e2))
  {
    assert [Visit(n), Play(n.audioFile, true)] + [Invoke(n.action.value)]
        == [Visit(n), Play(n.audioFile, true), Invoke(n.action.value)];
  }

  /** A leaf with no action goes straight to the main menu after its prompt, or the call ends. */
  lemma LeafReturnsToMain(n: Node, main: Option<Node>, e: Env)
    requires |e.hook| > 0 && e.hook[0] && n.action.None? && IsLeaf(n)
    ensures Navigate(n, main, e) ==
      Then([Visit(n), Play(n.audioFile, true)],
           if main.Some? then Navigate(main.value, main, e.(hook := e.hook[1..]))
           else Run([], e.(hook := e.hook[1..])))
  {
  }

  /** A key naming an option descends into that child with the same main menu and stops nothing. */
  lemma ValidKeyDescends(n: Node, main: Option<Node>, start: int, e: Env, k: string)
    requires |e.hook| > 0 && e.hook[0] && e.now - start <= n.timeout * 1000
    requires |e.input| > 0 && e.input[0] == Key(k) && k in n.options
    ensures AwaitKey(n, main, start, e) ==
      Navigate(n.options[k], main, e.(hook := e.hook[1..], input := e.input[1..]))
  {
  }

  /**
   * A key naming no option always plays the error prompt and then the node's prompt, both
   * blocking, and restarts the timer; the keys queued behind it stay queued.
   */
  lemma InvalidKeyReplays(n: Node, main: Option<Node>, start: int, e: Env, k: string)
    requires |e.hook| > 0 && e.hook[0] && e.now - start <= n.timeout * 1000
    requires |e.input| > 0 && e.input[0] == Key(k) && k !in n.options
    ensures AwaitKey(n, main, start, e) ==
      Then([Play(InvalidPrompt, true), Play(n.audioFile, true)],
           AwaitKey(n, main, e.now, e.(hook := e.hook[1..], input := e.input[1..])))
  {
  }

  /** On timeout the timeout prompt plays, with no `Stop` before it, and the main menu follows. */
  lemma TimeoutReturnsToMain(n: Node, main: Option<Node>, start: int, e: Env)
    requires |e.hook| > 0 && e.hook[0] && e.now - start > n.timeout * 1000
    ensures AwaitKey(n, main, start, e) ==
      Then([Play(TimeoutPrompt, true)],
           if main.Some? then Navigate(main.value, main, e.(hook := e.hook[1..]))
           else Run([], e.(hook := e.hook[1..])))
  {
  }

  /** This navigator never stops audio: every prompt has already ended when the next begins. */
  lemma {:induction false} NeverStops(n: Node, main: Option<Node>, e: Env)
    ensures Stop !in Navigate(n, main, e).trace
    decreases |e.hook|, 1
  {
    var (h, e1) := ReadHook(e);
    if h {
      var entry := [Visit(n), Play(n.audioFile, true)];
      match n.action
      case Some(tag) =>
        var (ok, e2) := ReadResult(e1);
        if !ok {
          if main.Some? { NeverStops(main.value, main, e2); }
        } else {
          ProceedNeverStops(n, main, e2);
        }
      case None => ProceedNeverStops(n, main, e1);
    }
  }

  lemma {:induction false} ProceedNeverStops(n: Node, main: Option<Node>, e: Env)
    ensures Stop !in Proceed(n, main, e).trace
    decreases |e.hook|, 2
  {
    if IsLeaf(n) {
      if main.Some? { NeverStops(main.value, main, e); }
    } else {
      AwaitKeyNeverStops(n, main, e.now, e);
    }
  }

  lemma {:induction false} AwaitKeyNeverStops(n: Node, main: Option<Node>, start: int, e: Env)
    ensures Stop !in AwaitKey(n, main, start, e).trace
    decreases |e.hook|, 0
  {
    var (h, e1) := ReadHook(e);
    if h {
      if e1.now - start > n.timeout * 1000 {
        if main.Some? { NeverStops(main.value, main, e1); }
      } else {
        var (p, e2) := NextPoll(e1, PollMs);
        match p
        case Empty => AwaitKeyNeverStops(n, main, start, e2);
        case Key(k) =>
          if k in n.options {
            NeverStops(n.options[k], main, e2);
          } else {
            AwaitKeyNeverStops(n, main, e2.now, e2);
          }
      }
    }
  }

  /** Every play of this navigator blocks. */
  lemma {:induction false} AllPlaysBlock(n: Node, main: Option<Node>, e: Env)
    ensures forall i :: 0 <= i < |Navigate(n, main, e).trace| && Navigate(n, main, e).trace[i].Play? ==>
      Navigate(n, main, e).trace[i].blocking
    decreases |e.hook|, 1
  {
    var (h, e1) := ReadHook(e);
    if h {
      match n.action
      case Some(tag) =>
        var (ok, e2) := ReadResult(e1);
        if !ok {
          if main.Some? { AllPlaysBlock(main.value, main, e2); }
        } else {
          ProceedPlaysBlock(n, main, e2);
        }
      case None => ProceedPlaysBlock(n, main, e1);
    }
  }

  lemma {:induction false} ProceedPlaysBlock(n: Node, main: Option<Node>, e: Env)
    ensures forall i :: 0 <= i < |Proceed(n, main, e).trace| && Proceed(n, main, e).trace[i].Play? ==>
      Proceed(n, main, e).trace[i].blocking
    decreases |e.hook|, 2
  {
    if IsLeaf(n) {
      if main.Some? { AllPlaysBlock(main.value, main, e); }
    } else {
      AwaitKeyPlaysBlock(n, main, e.now, e);
    }
  }

  lemma {:induction false} AwaitKeyPlaysBlock(n: Node, main: Option<Node>, start: int, e: Env)
    ensures forall i :: 0 <= i < |AwaitKey(n, main, start, e).trace| && AwaitKey(n, main, start, e).trace[i].Play? ==>
      AwaitKey(n, main, start, e).trace[i].blocking
    decreases |e.hook|, 0
  {
    var (h, e1) := ReadHook(e);
    if h {
      if e1.now - start > n.timeout * 1000 {
        if main.Some? { AllPlaysBlock(main.value, main, e1); }
      } else {
        var (p, e2) := NextPoll(e1, PollMs);
        match p
        case Empty => AwaitKeyPlaysBlock(n, main, start, e2);
        case Key(k) =>
          if k in n.options {
            AllPlaysBlock(n.options[k], main, e2);
          } else {
            AwaitKeyPlaysBlock(n, main, e2.now, e2);
          }
      }
    }
  }

  /**
   * Along a plain path pressed key by key, a caller off hook hears exactly one prompt per
   * node: a two-level path plays two files, a three-level path three.
   */
  lemma {:induction false} PathPlaysPrompts(n: Node, ks: seq<string>, e: Env)
    requires PlainPath(n, ks)
    requires forall i :: 0 <= i < |e.hook| ==> e.hook[i]
    requires |e.hook| > 2 * |ks|
    requires e.input == Keys(ks)
    ensures Prompts(Navigate(n, None, e).trace) == PathPrompts(n, ks)
    ensures |Prompts(Navigate(n, None, e).trace)| == |ks| + 1
    decreases |ks|
  {
    var e1 := e.(hook := e.hook[1..]);
    var entry := [Visit(n), Play(n.audioFile, true)];
    assert Prompts(entry) == [n.audioFile] by {
      assert entry[1..][1..] == [];
    }
    assert ReadHook(e) == (true, e1);
    assert Navigate(n, None, e) == Then(entry, Proceed(n, None, e1));
    if |ks| == 0 {
      assert Navigate(n, None, e).trace == entry;
    } else {
      var child := n.options[ks[0]];
      var e3 := e1.(hook := e1.hook[1..], input := e1.input[1..]);
      assert e3.input == Keys(ks[1..]);
      assert Proceed(n, None, e1) == AwaitKey(n, None, e1.now, e1);
      assert ReadHook(e1) == (true, e1.(hook := e1.hook[1..]));
      assert NextPoll(e1.(hook := e1.hook[1..]), PollMs) == (Key(ks[0]), e3);
      assert AwaitKey(n, None, e1.now, e1) == Navigate(child, None, e3);
      PathPlaysPrompts(child, ks[1..], e3);
      PromptsAppend(entry, Navigate(child, None, e3).trace);
    }
  }
}

=== FILE: bootloader.dfy ===
/**
 * The BIOS bootloader: it builds the system-selection menu from the discovered systems,
 * launches a system by id, auto-launches the last one on pickup, routes a call either to
 * the menu or to the launched system, and tears the running system down on hang-up.
 *
 * Imported classes are named by a `Class` string, and the import machinery and the
 * system's constructor are oracles: `load` says what importing a module gave, and
 * `construct` says whether instantiating a class returned normally.
 */
module Bootloader {
  import opened Wrappers
  import opened TreeNode
  import opened ConfigStore
  import opened SystemRegistry

  type Class = string

  /** A system instance the bootloader holds; `running` is the flag hang-up clears. */
  datatype Instance = Instance(cls: Class, running: bool)

  /**
   * The bootloader's state. `callsStarted` counts `start_call`, `callAlive` says whether
   * the latest call thread is still running, `monitorActive` whether the long-press
   * monitor has been started.
   */
  datatype Boot = Boot(
    phoneOnHook: bool,
    hookPickupMs: Option<int>,
    inBiosMenu: bool,
    currentSystem: Option<Instance>,
    currentSystemId: Option<string>,
    config: Manager,
    store: Store,
    registry: Registry,
    callsStarted: nat,
    callAlive: bool,
    monitorActive: bool)

  /** The state right after construction over a configuration store. */
  function Initial(store: Store): (b: Boot)
    ensures b.phoneOnHook && !b.inBiosMenu && b.currentSystem.None? && b.currentSystemId.None?
    ensures b.config == Open(store).0 && b.store == Open(store).1
    ensures b.registry == Empty && b.callsStarted == 0
  {
    var (m, s) := Open(store);
    Boot(true, None, false, None, None, m, s, Empty, 0, false, false)
  }

  // ----- Python truthiness of configuration values -----

  /** `bool(v)` on a JSON value: `None`, `False`, zero and empty containers are false. */
  predicate Truthy(v: Value) {
    match v
    case VNone => false
    case VBool(b) => b
    case VNum(x) => x != 0.0
    case VStr(s) => s != ""
    case VList(items) => items != []
    case VDict(entries) => entries != map[]
  }

  // ----- the menu -----

  /** The most systems the menu offers. */
  const MaxSystems: nat := 9

  const NoSystemsPrompt: string := "prompts/no_systems.mp3"
  const MainMenuPrompt: string := "bios/main_menu.mp3"
  const MenuTimeout: int := 60

  /** `str(i)` for a one-digit `i`. */
  function DigitKey(i: nat): (k: string)
    requires 1 <= i <= 9
    ensures |k| == 1 && '1' <= k[0] <= '9'
    ensures (k[0] as int) - ('0' as int) == i
  {
    [(('0' as int) + i) as char]
  }

  /** Distinct digits give distinct keys. */
  lemma DigitKeyInjective(i: nat, j: nat)
    requires 1 <= i <= 9 && 1 <= j <= 9
    ensures DigitKey(i) == DigitKey(j) <==> i == j
  {
    if DigitKey(i) == DigitKey(j) {
      assert DigitKey(i)[0] == DigitKey(j)[0];
    }
  }

  function Min(a: nat, b: nat): nat { if a <= b then a else b }

  /** The prompt that names a system in the menu. */
  function SystemPrompt(id: string): string {
    "bios/system_" + id + ".mp3"
  }

  /** The leaf for one system: it plays the system's prompt, and its action launches that id. */
  function SystemLeaf(s: SystemInfo): (n: Node)
    ensures IsLeaf(n) && n.audioFile == SystemPrompt(s.id) && n.action == Some(s.id)
    ensures n.timeout == DefaultTimeout
  {
    MakeNode(SystemPrompt(s.id), None, Some(s.id))
  }

  /** `k` is a one-digit key from `"1"` to `str(m)`. */
  predicate IsMenuKey(k: string, m: nat) {
    |k| == 1 && '1' <= k[0] && (k[0] as int) - ('0' as int) <= m
  }

  /** The position in the system list that key `k` stands for: `int(k) - 1`. */
  function KeyIndex(k: string): nat
    requires |k| == 1 && '1' <= k[0]
  {
    (k[0] as int) - ('1' as int)
  }

  /** A one-digit key is `str` of its own digit. */
  lemma DigitKeyOfIndex(k: string)
    requires IsMenuKey(k, MaxSystems)
    ensures DigitKey(KeyIndex(k) + 1) == k
  {
    assert DigitKey(KeyIndex(k) + 1)[0] == k[0];
  }

  /**
   * The menu options: key `str(i)` for the i-th system, for the first nine systems. The
   * keys are exactly the digits from 1 to the number offered, and each selects the leaf
   * of the system at its position.
   */
  function MenuOptions(systems: seq<SystemInfo>): (opts: map<string, Node>)
    ensures forall k :: k in opts <==> IsMenuKey(k, Min(|systems|, MaxSystems))
    ensures forall k :: k in opts ==>
      IsMenuKey(k, Min(|systems|, MaxSystems)) && KeyIndex(k) < |systems| && opts[k] == SystemLeaf(systems[KeyIndex(k)])
  {
    var m := Min(|systems|, MaxSystems);
    var opts := map i: nat | 1 <= i <= m :: DigitKey(i) := SystemLeaf(systems[i - 1]);
    assert forall k :: IsMenuKey(k, m) ==> k in opts by {
      forall k | IsMenuKey(k, m)
        ensures k in opts
      {
        DigitKeyOfIndex(k);
      }
    }
    assert forall k :: k in opts ==>
      IsMenuKey(k, m) && KeyIndex(k) < |systems| && opts[k] == SystemLeaf(systems[KeyIndex(k)]) by {
      forall k | k in opts
        ensures IsMenuKey(k, m) && KeyIndex(k) < |systems| && opts[k] == SystemLeaf(systems[KeyIndex(k)])
      {
        var i: nat :| 1 <= i <= m && DigitKey(i) == k;
        assert KeyIndex(k) == i - 1;
      }
    }
    opts
  }

  /** The menu for a list of systems: a lone leaf when there are none. */
  function BiosMenu(systems: seq<SystemInfo>): (n: Node)
    ensures |systems| == 0 ==> IsLeaf(n) && n.audioFile == NoSystemsPrompt && n.action.None?
                               && n.timeout == DefaultTimeout
    ensures |systems| > 0 ==> n.audioFile == MainMenuPrompt && n.action.None? && n.timeout == MenuTimeout
                              && n.options == MenuOptions(systems) && "1" in n.options
  {
    if |systems| == 0 then MakeNode(NoSystemsPrompt)
    else MakeNode(MainMenuPrompt, Some(MenuOptions(systems)), None, MenuTimeout)
  }

  /** A system record as the JSON dictionary stored in the configuration. */
  function InfoValue(s: SystemInfo): (v: Value)
    ensures v.VDict? && v.entries.Keys == ToDict(s).Keys
    ensures forall k :: k in v.entries ==> v.entries[k] == VStr(ToDict(s)[k])
  {
    var d := ToDict(s);
    VDict(map k | k in d :: VStr(d[k]))
  }

  /** The system records, in order, as the JSON dictionaries `available_systems` holds. */
  function InfoValues(systems: seq<SystemInfo>): (vs: seq<Value>)
    ensures |vs| == |systems| && forall i :: 0 <= i < |systems| ==> vs[i] == InfoValue(systems[i])
  {
    seq(|systems|, i requires 0 <= i < |systems| => InfoValue(systems[i]))
  }

  /**
   * `setup_phone_tree()`: the systems are discovered afresh (`discovered` replaces the
   * registry), and the menu is built from them in discovery order. When there are any,
   * the configuration's `available_systems` becomes the list of all of them, ninth or not.
   */
  function SetupPhoneTree(b: Boot, discovered: Registry): (r: (Node, Boot))
    requires Valid(discovered)
    ensures r.0 == BiosMenu(ListSystems(discovered))
    ensures r.1.(config := b.config, store := b.store) == b.(registry := discovered)
    ensures |discovered.order| == 0 ==> r.1.config == b.config && r.1.store == b.store
    ensures |discovered.order| > 0 ==> r.1.store == Stored(r.1.config.config)
  {
    var systems := ListSystems(discovered);
    if |systems| == 0 then (BiosMenu(systems), b.(registry := discovered))
    else
      var (m, s) := UpdateAvailableSystems(b.config, InfoValues(systems));
      (BiosMenu(systems), b.(registry := discovered, config := m, store := s))
  }

  /** Option `str(i)` exists exactly for i from 1 to min(n, 9), and is the i-th system's leaf. */
  lemma MenuKeys(systems: seq<SystemInfo>)
    requires |systems| > 0
    ensures var n := BiosMenu(systems);
      && n.audioFile == MainMenuPrompt && n.timeout == MenuTimeout && n.action.None?
      && (forall i :: 1 <= i <= Min(|systems|, MaxSystems) ==>
            DigitKey(i) in n.options && n.options[DigitKey(i)] == SystemLeaf(systems[i - 1]))
      && (forall k :: k in n.options <==>
            |k| == 1 && '1' <= k[0] && (k[0] as int) - ('0' as int) <= Min(|systems|, MaxSystems))
  {
    var n := BiosMenu(systems);
    forall i | 1 <= i <= Min(|systems|, MaxSystems)
      ensures DigitKey(i) in n.options && n.options[DigitKey(i)] == SystemLeaf(systems[i - 1])
    {
      assert IsMenuKey(DigitKey(i), Min(|systems|, MaxSystems));
      assert KeyIndex(DigitKey(i)) == i - 1;
    }
  }

  /** With no systems the menu is the single `no_systems` leaf, and the configuration is not written. */
  lemma NoSystemsMenu(b: Boot, discovered: Registry)
    requires Valid(discovered) && |discovered.order| == 0
    ensures var (n, b1) := SetupPhoneTree(b, discovered);
      && IsLeaf(n) && n.audioFile == NoSystemsPrompt && n.action.None?
      && b1.config == b.config && b1.store == b.store
  {
  }

  /** A system after the ninth has no option: no option's action launches it. */
  lemma TenthSystemDropped(systems: seq<SystemInfo>, j: nat)
    requires 9 <= j < |systems|
    requires forall a, c :: 0 <= a < c < |systems| ==> systems[a].id != systems[c].id
    ensures forall k :: k in BiosMenu(systems).options ==> BiosMenu(systems).options[k].action != Some(systems[j].id)
  {
    var n := BiosMenu(systems);
    forall k | k in n.options
      ensures n.options[k].action != Some(systems[j].id)
    {
      assert n.options[k] == SystemLeaf(systems[KeyIndex(k)]);
    }
  }

  /** Every discovered system is recorded in `available_systems`, in discovery order, as its dictionary. */
  lemma AvailableSystemsRecorded(b: Boot, discovered: Registry)
    requires Valid(discovered) && |discovered.order| > 0
    ensures var b1 := SetupPhoneTree(b, discovered).1;
      var v := Get(b1.config, "available_systems");
      && v.VList? && |v.items| == |discovered.order|
      && (forall i :: 0 <= i < |v.items| ==>
            v.items[i] == InfoValue(ListSystems(discovered)[i]))
      && b1.store == Stored(b1.config.config)
      && GetLastSystem(b1.config) == GetLastSystem(b.config)
  {
    var systems := ListSystems(discovered);
    var r := UpdateAvailableSystems(b.config, InfoValues(systems));
    assert SetupPhoneTree(b, discovered).1.config == r.0;
  }

  // ----- launching -----

  /** `discovered_systems` after the "discover if empty" step of `launch_system`. */
  function EnsureDiscovered(b: Boot, discovered: Registry): (reg: Registry)
    ensures |b.registry.systems| > 0 ==> reg == b.registry
    ensures |b.registry.systems| == 0 ==> reg == discovered
  {
    if |b.registry.systems| == 0 then discovered else b.registry
  }

  /**
   * `launch_system(id)`: load the class; a failed load or a raising constructor gives
   * `False`. Otherwise the instance becomes the current system, the id is saved as the
   * last system, the BIOS menu is left, the long-press monitor and a call are started.
   */
  function LaunchSystem(b: Boot, id: string, discovered: Registry,
                        load: (string, string) -> LoadOutcome<Class>, construct: Class -> bool): (r: (bool, Boot))
    ensures r.1.registry == EnsureDiscovered(b, discovered)
    ensures r.0 ==> id in r.1.registry.systems
    ensures !r.0 ==> r.1 == b.(registry := EnsureDiscovered(b, discovered))
    ensures r.0 ==> && r.1.currentSystemId == Some(id) && !r.1.inBiosMenu
                    && r.1.currentSystem.Some? && r.1.currentSystem.value.running
                    && r.1.monitorActive && r.1.callAlive && r.1.callsStarted == b.callsStarted + 1
                    && GetLastSystem(r.1.config) == VStr(id) && r.1.store == Stored(r.1.config.config)
                    && r.1.phoneOnHook == b.phoneOnHook
  {
    var reg := EnsureDiscovered(b, discovered);
    var b0 := b.(registry := reg);
    match LoadSystem(reg, id, load)
    case None => (false, b0)
    case Some(cls) =>
      if !construct(cls) then (false, b0)
      else
        var (m, s) := SetLastSystem(b.config, id);
        (true, b0.(currentSystem := Some(Instance(cls, true)), currentSystemId := Some(id),
                   config := m, store := s, inBiosMenu := false, monitorActive := true,
                   callsStarted := b.callsStarted + 1, callAlive := true))
  }

  /** A launch succeeds exactly when the id was discovered, its class loads and its constructor returns. */
  lemma LaunchSucceedsIff(b: Boot, id: string, discovered: Registry,
                          load: (string, string) -> LoadOutcome<Class>, construct: Class -> bool)
    ensures var reg := EnsureDiscovered(b, discovered);
      LaunchSystem(b, id, discovered, load, construct).0 <==>
        && id in reg.systems
        && load(reg.systems[id].modulePath, reg.systems[id].className).Loaded?
        && construct(load(reg.systems[id].modulePath, reg.systems[id].className).cls)
  {
  }

  /** A failed launch changes nothing but the registry: the last system, the route and the calls stay. */
  lemma LaunchFailureKeepsState(b: Boot, id: string, discovered: Registry,
                                load: (string, string) -> LoadOutcome<Class>, construct: Class -> bool)
    requires !LaunchSystem(b, id, discovered, load, construct).0
    ensures var b1 := LaunchSystem(b, id, discovered, load, construct).1;
      && GetLastSystem(b1.config) == GetLastSystem(b.config) && b1.store == b.store
      && b1.currentSystem == b.currentSystem && b1.currentSystemId == b.currentSystemId
      && b1.inBiosMenu == b.inBiosMenu && b1.callsStarted == b.callsStarted
  {
  }

  /**
   * A successful launch routes the next call to the launched system, saves the id so that
   * a manager opened over the store reads it back, and starts exactly one call.
   */
  lemma LaunchSuccessRoutesCall(b: Boot, id: string, discovered: Registry,
                                load: (string, string) -> LoadOutcome<Class>, construct: Class -> bool)
    requires LaunchSystem(b, id, discovered, load, construct).0
    ensures var b1 := LaunchSystem(b, id, discovered, load, construct).1;
      && CallRoute(b1) == DelegateSystem(b1.currentSystem.value.cls)
      && b1.currentSystemId == Some(id)
      && GetLastSystem(b1.config) == VStr(id)
      && GetLastSystem(Open(b1.store).0) == VStr(id)
      && b1.callsStarted == b.callsStarted + 1 && b1.monitorActive
  {
  }

  /**
   * The exception `auto_launch_system()` lets escape: a list or dictionary stored as the
   * last system is unhashable, so the membership test of `load_system` raises `TypeError`.
   * `state` is the bootloader as the exception leaves it, with the discovery already done.
   */
  datatype AutoLaunchError = UnhashableLastSystem(lastSystem: Value, state: Boot)

  /**
   * `auto_launch_system()`: with auto-launch off, or no last system, the BIOS menu is
   * entered and a call started; otherwise the last system is launched. A string is
   * launched as an id. Any other truthy value first has the systems discovered: a number
   * or boolean is then simply not a discovered id and the launch fails, while a list or
   * dictionary makes the id lookup raise.
   */
  function AutoLaunch(b: Boot, discovered: Registry,
                      load: (string, string) -> LoadOutcome<Class>, construct: Class -> bool): (r: Result<Boot, AutoLaunchError>)
    ensures r.Err? <==> Truthy(GetAutoLaunch(b.config)) && Truthy(GetLastSystem(b.config))
                        && (GetLastSystem(b.config).VList? || GetLastSystem(b.config).VDict?)
    ensures r.Err? ==> r.error.lastSystem == GetLastSystem(b.config)
                       && r.error.state == b.(registry := EnsureDiscovered(b, discovered))
  {
    var last := GetLastSystem(b.config);
    if !Truthy(GetAutoLaunch(b.config)) || !Truthy(last) then
      Ok(b.(inBiosMenu := true, callsStarted := b.callsStarted + 1, callAlive := true))
    else if last.VStr? then Ok(LaunchSystem(b, last.s, discovered, load, construct).1)
    else if last.VList? || last.VDict? then Err(UnhashableLastSystem(last, b.(registry := EnsureDiscovered(b, discovered))))
    else Ok(b.(registry := EnsureDiscovered(b, discovered)))
  }

  /**
   * Auto-launch enters the menu exactly when it is off or no last system is set; a
   * non-empty string is launched as an id; a truthy number or boolean leaves everything
   * but the discovered systems as it was; a non-empty list or dictionary raises.
   */
  lemma AutoLaunchEntersMenu(b: Boot, discovered: Registry,
                             load: (string, string) -> LoadOutcome<Class>, construct: Class -> bool)
    ensures var r := AutoLaunch(b, discovered, load, construct);
      (r.Ok? && r.value.inBiosMenu && !b.inBiosMenu) ==>
        !Truthy(GetAutoLaunch(b.config)) || !Truthy(GetLastSystem(b.config))
    ensures var r := AutoLaunch(b, discovered, load, construct);
      (!Truthy(GetAutoLaunch(b.config)) || !Truthy(GetLastSystem(b.config))) ==>
        r.Ok? && r.value.inBiosMenu && CallRoute(r.value) == BiosMenuRoute
        && r.value.callsStarted == b.callsStarted + 1
        && r.value.config == b.config && r.value.currentSystem == b.currentSystem
    ensures Truthy(GetAutoLaunch(b.config)) && GetLastSystem(b.config).VStr? && GetLastSystem(b.config).s != "" ==>
      AutoLaunch(b, discovered, load, construct) == Ok(LaunchSystem(b, GetLastSystem(b.config).s, discovered, load, construct).1)
    ensures var last := GetLastSystem(b.config);
      Truthy(GetAutoLaunch(b.config)) && Truthy(last) && (last.VNum? || last.VBool?) ==>
        AutoLaunch(b, discovered, load, construct) == Ok(b.(registry := EnsureDiscovered(b, discovered)))
    ensures var last := GetLastSystem(b.config);
      Truthy(GetAutoLaunch(b.config)) && Truthy(last) && (last.VList? || last.VDict?) ==>
        AutoLaunch(b, discovered, load, construct) ==
          Err(UnhashableLastSystem(last, b.(registry := EnsureDiscovered(b, discovered))))
  {
  }

  /** A freshly configured bootloader has auto-launch on but no last system, so it enters the menu. */
  lemma FirstBootEntersMenu(discovered: Registry,
                            load: (string, string) -> LoadOutcome<Class>, construct: Class -> bool)
    ensures AutoLaunch(Initial(Missing), discovered, load, construct).Ok?
    ensures AutoLaunch(Initial(Missing), discovered, load, construct).value.inBiosMenu
  {
    FreshDefaults();
  }

  /**
   * After a successful launch, a bootloader restarted over the saved store with auto-launch
   * still on launches the same system again.
   */
  lemma RelaunchAfterRestart(b: Boot, id: string, discovered: Registry, discovered2: Registry,
                             load: (string, string) -> LoadOutcome<Class>, construct: Class -> bool)
    requires id != ""
    requires LaunchSystem(b, id, discovered, load, construct).0
    requires Truthy(GetAutoLaunch(b.config))
    ensures var b2 := Initial(LaunchSystem(b, id, discovered, load, construct).1.store);
      AutoLaunch(b2, discovered2, load, construct) == Ok(LaunchSystem(b2, id, discovered2, load, construct).1)
  {
    var b1 := LaunchSystem(b, id, discovered, load, construct).1;
    var c := b1.config.config;
    assert b1.store == Stored(c);
    var b2 := Initial(b1.store);
    assert b2.config.config == Merge(Defaults(), c);
    assert "last_system" in c && c["last_system"] == VStr(id);
    if "auto_launch" in c {
      assert c["auto_launch"] == b.config.config["auto_launch"];
    }
    assert GetLastSystem(b2.config) == VStr(id);
  }

  // ----- routing a call and hanging up -----

  /** Where `_call_handler` sends a call. */
  datatype CallTarget = BiosMenuRoute | DelegateSystem(cls: Class) | NoRoute

  /** `_call_handler`: the BIOS menu takes precedence over a launched system. */
  function CallRoute(b: Boot): (t: CallTarget)
    ensures t.BiosMenuRoute? <==> b.inBiosMenu
    ensures t.DelegateSystem? <==> !b.inBiosMenu && b.currentSystem.Some?
    ensures t.DelegateSystem? ==> t.cls == b.currentSystem.value.cls
  {
    if b.inBiosMenu then BiosMenuRoute
    else if b.currentSystem.Some? then DelegateSystem(b.currentSystem.value.cls)
    else NoRoute
  }

  /**
   * The hang-up branch of `hook_status_changed`: the phone is on the hook, the pickup time
   * is forgotten, a live call is ended, and the current system is told to stop and dropped.
   * The stopped instance is returned; `current_system_id` and `in_bios_menu` are untouched.
   */
  function HangUp(b: Boot): (r: (Boot, Option<Instance>))
    ensures r.0.phoneOnHook && r.0.hookPickupMs.None? && !r.0.callAlive && r.0.currentSystem.None?
    ensures r.1.Some? <==> b.currentSystem.Some?
    ensures r.1.Some? ==> r.1.value == b.currentSystem.value.(running := false)
    ensures r.0.currentSystemId == b.currentSystemId && r.0.inBiosMenu == b.inBiosMenu
    ensures r.0.config == b.config && r.0.store == b.store && r.0.registry == b.registry
  {
    var b1 := b.(phoneOnHook := true, hookPickupMs := None, callAlive := false);
    match b.currentSystem
    case None => (b1, None)
    case Some(inst) => (b1.(currentSystem := None), Some(inst.(running := false)))
  }

  /**
   * After a hang-up no system runs: the stopped instance is the one that was current, with
   * its running flag cleared, and the next call goes to the menu or nowhere, never to a system.
   */
  lemma HangUpStopsSystem(b: Boot)
    ensures var (b1, stopped) := HangUp(b);
      && b1.phoneOnHook && b1.hookPickupMs.None? && !b1.callAlive && b1.currentSystem.None?
      && (stopped.Some? <==> b.currentSystem.Some?)
      && (stopped.Some? ==> stopped.value.cls == b.currentSystem.value.cls && !stopped.value.running)
      && !CallRoute(b1).DelegateSystem?
      && (CallRoute(b1).BiosMenuRoute? <==> CallRoute(b).BiosMenuRoute?)
      && b1.currentSystemId == b.currentSystemId && b1.config == b.config
  {
  }
}

=== FILE: config_store.dfy ===
/**
 * The BIOS configuration manager: a configuration map merged over the defaults when it is
 * loaded, read with per-key defaults, and written back to its store after every change.
 * The JSON file is a `Store`: missing, present but unreadable as a dictionary, or holding a map.
 */
module ConfigStore {
  import opened Wrappers

  /** A JSON value. */
  datatype Value = VNone | VBool(b: bool) | VNum(x: real) | VStr(s: string) | VList(items: seq<Value>) | VDict(entries: map<string, Value>)

  type Config = map<string, Value>

  datatype Store = Missing | Unreadable | Stored(config: Config)

  datatype Manager = Manager(config: Config)

  datatype ConfigError = NotAList(value: Value)

  /** The default configuration. */
  function Defaults(): (d: Config)
    ensures d.Keys == {"last_system", "auto_launch", "bios_enter_hold_seconds", "bios_exit_long_press_seconds", "scan_paths", "available_systems"}
  {
    map[
      "last_system" := VNone,
      "auto_launch" := VBool(true),
      "bios_enter_hold_seconds" := VNum(3.0),
      "bios_exit_long_press_seconds" := VNum(5.0),
      "scan_paths" := VList([VStr("./phone_systems"), VStr("../TDTM"), VStr("../../TDTM")]),
      "available_systems" := VList([])
    ]
  }

  /** `{**base, **over}`: every key of either, with the value of `over` where it has one. */
  function Merge(base: Config, over: Config): (m: Config)
    ensures m.Keys == base.Keys + over.Keys
    ensures forall k :: k in over ==> m[k] == over[k]
    ensures forall k :: k in base && k !in over ==> m[k] == base[k]
  {
    map k | k in base.Keys + over.Keys :: if k in over then over[k] else base[k]
  }

  /**
   * `_load_config` at construction: a stored map is merged over the defaults; an unreadable
   * file gives the defaults; a missing file gives the defaults, which are saved.
   */
  function Open(store: Store): (r: (Manager, Store))
    ensures Defaults().Keys <= r.0.config.Keys
    ensures store.Stored? ==> forall k :: k in store.config ==> k in r.0.config && r.0.config[k] == store.config[k]
    ensures forall k :: k in Defaults() && (!store.Stored? || k !in store.config) ==> k in r.0.config && r.0.config[k] == Defaults()[k]
    ensures store.Missing? ==> r.1 == Stored(r.0.config)
    ensures !store.Missing? ==> r.1 == store
  {
    match store
    case Stored(c) => (Manager(Merge(Defaults(), c)), store)
    case Unreadable => (Manager(Defaults()), store)
    case Missing => (Manager(Defaults()), Stored(Defaults()))
  }

  /** The three ways a manager can open its store. */
  lemma OpenCases(store: Store)
    ensures store.Stored? ==> forall k :: k in Open(store).0.config <==> k in Defaults() || k in store.config
    ensures store.Stored? ==> forall k :: k in store.config ==> Open(store).0.config[k] == store.config[k]
    ensures store.Stored? ==> forall k :: k in Defaults() && k !in store.config ==> Open(store).0.config[k] == Defaults()[k]
    ensures store.Unreadable? ==> Open(store) == (Manager(Defaults()), Unreadable)
    ensures store.Missing? ==> Open(store) == (Manager(Defaults()), Stored(Defaults()))
  {
  }

  /** `get(key, default)`. */
  function Get(m: Manager, key: string, default: Value := VNone): (v: Value)
    ensures key in m.config ==> v == m.config[key]
    ensures key !in m.config ==> v == default
  {
    if key in m.config then m.config[key] else default
  }

  /** `set(key, value)`: the key takes the value and the whole configuration is saved. */
  function Set(m: Manager, key: string, value: Value): (r: (Manager, Store))
    ensures r.1 == Stored(r.0.config)
  {
    var m1 := Manager(m.config[key := value]);
    (m1, Stored(m1.config))
  }

  /** After `set(k, v)`, `get(k)` is `v` and every other key reads as before. */
  lemma SetThenGet(m: Manager, key: string, value: Value, other: string, default: Value)
    ensures Get(Set(m, key, value).0, key) == value
    ensures other != key ==> Get(Set(m, key, value).0, other, default) == Get(m, other, default)
  {
  }

  /** `get_last_system()`: the stored id, or `None`. */
  function GetLastSystem(m: Manager): (v: Value)
    ensures "last_system" in m.config ==> v == m.config["last_system"]
    ensures "last_system" !in m.config ==> v == VNone
  {
    Get(m, "last_system")
  }

  /** `set_last_system(id)`: the id is stored and saved; no other key changes. */
  function SetLastSystem(m: Manager, id: string): (r: (Manager, Store))
    ensures "last_system" in r.0.config && r.0.config["last_system"] == VStr(id)
    ensures r.0.config - {"last_system"} == m.config - {"last_system"}
    ensures r.1 == Stored(r.0.config)
  {
    Set(m, "last_system", VStr(id))
  }

  /** `get_auto_launch()`: on unless the configuration says otherwise. */
  function GetAutoLaunch(m: Manager): (v: Value)
    ensures "auto_launch" in m.config ==> v == m.config["auto_launch"]
    ensures "auto_launch" !in m.config ==> v == VBool(true)
  {
    Get(m, "auto_launch", VBool(true))
  }

  /** `get_scan_paths()`: the configured paths, or an empty list. */
  function GetScanPaths(m: Manager): (v: Value)
    ensures "scan_paths" in m.config ==> v == m.config["scan_paths"]
    ensures "scan_paths" !in m.config ==> v == VList([])
  {
    Get(m, "scan_paths", VList([]))
  }

  /** `get_enter_hold_seconds()`: 3.0 unless configured. */
  function GetEnterHoldSeconds(m: Manager): (v: Value)
    ensures "bios_enter_hold_seconds" in m.config ==> v == m.config["bios_enter_hold_seconds"]
    ensures "bios_enter_hold_seconds" !in m.config ==> v == VNum(3.0)
  {
    Get(m, "bios_enter_hold_seconds", VNum(3.0))
  }

  /** `get_exit_long_press_seconds()`: 5.0 unless configured. */
  function GetExitLongPressSeconds(m: Manager): (v: Value)
    ensures "bios_exit_long_press_seconds" in m.config ==> v == m.config["bios_exit_long_press_seconds"]
    ensures "bios_exit_long_press_seconds" !in m.config ==> v == VNum(5.0)
  {
    Get(m, "bios_exit_long_press_seconds", VNum(5.0))
  }

  /** The last system set is read back, and so it is by a new manager opened over the saved store. */
  lemma LastSystemPersists(m: Manager, id: string)
    ensures GetLastSystem(SetLastSystem(m, id).0) == VStr(id)
    ensures GetLastSystem(Open(SetLastSystem(m, id).1).0) == VStr(id)
  {
  }

  /** A manager opened over no file reads the defaults: auto launch on, 3.0 s and 5.0 s holds, no last system. */
  lemma FreshDefaults()
    ensures GetAutoLaunch(Open(Missing).0) == VBool(true)
    ensures GetEnterHoldSeconds(Open(Missing).0) == VNum(3.0)
    ensures GetExitLongPressSeconds(Open(Missing).0) == VNum(5.0)
    ensures GetLastSystem(Open(Missing).0) == VNone
    ensures GetScanPaths(Open(Missing).0) == VList([VStr("./phone_systems"), VStr("../TDTM"), VStr("../../TDTM")])
  {
  }

  /** Python's `p in s` on strings: `p` occurs somewhere in `s`. */
  predicate IsSubstring(p: string, s: string) {
    exists i | 0 <= i <= |s| :: OccursAt(p, s, i)
  }

  /** `p` occurs in `s` starting at index `i`. */
  predicate OccursAt(p: string, s: string, i: int) {
    0 <= i && i + |p| <= |s| && s[i..i + |p|] == p
  }

  /**
   * `add_scan_path(path)`: `path not in paths` on whatever the scan paths are. A list that
   * lacks the path gets it appended and saved; a list that has it, a string containing it or
   * a dictionary keyed by it is left alone; every other case raises, as `append` or `in`
   * does on such a value.
   */
  function AddScanPath(m: Manager, store: Store, path: string): (r: Result<(Manager, Store), ConfigError>)
    ensures var v := GetScanPaths(m);
      r.Err? <==> !(v.VList? || (v.VStr? && IsSubstring(path, v.s)) || (v.VDict? && path in v.entries))
    ensures r.Err? ==> r.error == NotAList(GetScanPaths(m))
    ensures r.Ok? ==> r.value.0.config - {"scan_paths"} == m.config - {"scan_paths"}
    ensures r.Ok? && r.value.0 != m ==> r.value.1 == Stored(r.value.0.config)
    ensures r.Ok? && GetScanPaths(m).VList? ==> GetScanPaths(r.value.0).VList? && VStr(path) in GetScanPaths(r.value.0).items
  {
    match GetScanPaths(m)
    case VList(items) =>
      if VStr(path) in items then Ok((m, store))
      else Ok(Set(m, "scan_paths", VList(items + [VStr(path)])))
    case VStr(s) => if IsSubstring(path, s) then Ok((m, store)) else Err(NotAList(VStr(s)))
    case VDict(d) => if path in d then Ok((m, store)) else Err(NotAList(VDict(d)))
    case other => Err(NotAList(other))
  }

  /**
   * On a list of scan paths, adding a path leaves it in the list, appended at the end if it
   * was absent, and adding it a second time changes nothing.
   */
  lemma AddScanPathAppends(m: Manager, store: Store, path: string)
    requires GetScanPaths(m).VList?
    ensures AddScanPath(m, store, path).Ok?
    ensures var (m1, s1) := AddScanPath(m, store, path).value;
      && GetScanPaths(m1).VList? && VStr(path) in GetScanPaths(m1).items
      && (VStr(path) !in GetScanPaths(m).items ==> GetScanPaths(m1).items == GetScanPaths(m).items + [VStr(path)] && s1 == Stored(m1.config))
      && (VStr(path) in GetScanPaths(m).items ==> (m1, s1) == (m, store))
      && AddScanPath(m1, s1, path) == Ok((m1, s1))
  {
  }

  /** `update_available_systems(systems)`: the list is replaced as a whole and saved. */
  function UpdateAvailableSystems(m: Manager, systems: seq<Value>): (r: (Manager, Store))
    ensures Get(r.0, "available_systems") == VList(systems)
    ensures forall k :: k != "available_systems" ==> (k in r.0.config <==> k in m.config)
    ensures forall k :: k != "available_systems" && k in m.config ==> r.0.config[k] == m.config[k]
    ensures r.1 == Stored(r.0.config)
  {
    Set(m, "available_systems", VList(systems))
  }
}

=== FILE: core_navigator.dfy ===
/**
 * The live menu navigator (`PhoneTree.navigate` of the core package): a non-blocking
 * prompt that a key press interrupts, an action gate, a leaf that returns to the main
 * menu, single-key dispatch, an error prompt suppressed while audio was playing, a queue
 * drain with replay and timer reset after an invalid key, and an inactivity timeout.
 */
module CoreNavigator {
  import opened Wrappers
  import opened TreeNode
  import opened Environment

  /** `input_queue.get(timeout=0.1)`: each empty poll lasts 100 ms. */
  const PollMs: nat := 100

  /** `while is_playing() and hook_status(): sleep`: waits for the prompt to end or the caller to hang up. */
  function AwaitPrompt(e: Env): (r: Env)
    ensures |r.hook| <= |e.hook| && |r.playing| <= |e.playing|
    ensures r.input == e.input && r.results == e.results && r.now == e.now
    decreases |e.playing|
  {
    var (playing, e1) := ReadPlaying(e);
    if !playing then e1
    else
      var (h, e2) := ReadHook(e1);
      if !h then e2 else AwaitPrompt(e2)
  }

  /** `navigate(input_queue, hook_status, main_menu)` run on node `n` against the script `e`. */
  function Navigate(n: Node, main: Option<Node>, e: Env): (r: Run)
    ensures !OffHook(e) ==> r.trace == []
    ensures OffHook(e) ==> |r.trace| >= 2 && r.trace[0] == Visit(n) && r.trace[1] == Play(n.audioFile, false)
    decreases |e.hook|, 0
  {
    var (h, e1) := ReadHook(e);
    if !h then Run([], e1)
    else
      var entry := [Visit(n), Play(n.audioFile, false)];
      match n.action
      case Some(tag) =>
        var (ok, e2) := ReadResult(AwaitPrompt(e1));
        if !ok then
          Then(entry + [Invoke(tag)], ToMain(main, e2))
        else Then(entry + [Invoke(tag)], Proceed(n, main, e2))
      case None => Then(entry, Proceed(n, main, e1))
  }

  /** Handing the call over to the main menu, or ending it when there is none. */
  function ToMain(main: Option<Node>, e: Env): (r: Run)
    ensures main.None? ==> r == Run([], e)
    ensures !OffHook(e) ==> r.trace == []
    ensures main.Some? && OffHook(e) ==>
      |r.trace| >= 2 && r.trace[0] == Visit(main.value) && r.trace[1] == Play(main.value.audioFile, false)
    decreases |e.hook|, 1
  {
    if main.Some? then Navigate(main.value, main, e) else Run([], e)
  }

  /** What follows the prompt and the action gate: a leaf returns to the main menu, a menu waits for a key. */
  function Proceed(n: Node, main: Option<Node>, e: Env): (r: Run)
    ensures IsLeaf(n) && main.None? ==> r.trace == []
    ensures !IsLeaf(n) && !OffHook(e) ==> r.trace == []
    decreases |e.hook|, 2
  {
    if IsLeaf(n) then
      var e1 := AwaitPrompt(e);
      ToMain(main, e1)
    else AwaitKey(n, main, e.now, e)
  }

  /** One pass of the `while hook_status()` loop of node `n`, whose timer started at `start`. */
  function AwaitKey(n: Node, main: Option<Node>, start: int, e: Env): (r: Run)
    ensures !OffHook(e) ==> r.trace == []
    ensures OffHook(e) && e.now - start > n.timeout * 1000 ==>
      |r.trace| >= 2 && r.trace[0] == Stop && r.trace[1] == Play(TimeoutPrompt, true)
    decreases |e.hook|, 0
  {
    var (h, e1) := ReadHook(e);
    if !h then Run([], e1)
    else if e1.now - start > n.timeout * 1000 then
      Then([Stop, Play(TimeoutPrompt, true)], ToMain(main, e1))
    else
      var (p, e2) := NextPoll(e1, PollMs);
      match p
      case Empty => AwaitKey(n, main, start, e2)
      case Key(k) =>
        var (wasPlaying, e3) := ReadPlaying(e2);
        var interrupt := if wasPlaying then [Stop] else [];
        if k in n.options then Then(interrupt, Navigate(n.options[k], main, e3))
        else
          var error := if wasPlaying then [] else [Play(InvalidPrompt, true)];
          var e4 := Drain(e3);
          Then(interrupt + error + [Play(n.audioFile, false)], AwaitKey(n, main, e4.now, e4))
  }

  // ----- one call at a time -----

  /** A caller already on hook gets nothing: no prompt, no action, no visit. */
  lemma HangUpOnEntry(n: Node, main: Option<Node>, e: Env)
    requires |e.hook| == 0 || !e.hook[0]
    ensures Navigate(n, main, e).trace == []
  {
  }

  /** Off hook, the first thing a node does is enter and start its own prompt without blocking. */
  lemma EntryPrompt(n: Node, main: Option<Node>, e: Env)
    requires |e.hook| > 0 && e.hook[0]
    ensures |Navigate(n, main, e).trace| >= 2
    ensures Navigate(n, main, e).trace[..2] == [Visit(n), Play(n.audioFile, false)]
  {
  }

  /**
   * A falsy action result hands over to the main menu (or ends the call when there is
   * none) after the action, and the node reads no key: the input and the clock are as
   * they were on entry.
   */
  lemma FalsyActionGoesToMain(n: Node, main: Option<Node>, e: Env)
    requires |e.hook| > 0 && e.hook[0] && n.action.Some?
    requires !ReadResult(AwaitPrompt(e.(hook := e.hook[1..]))).0
    ensures exists e': Env :: (e'.input == e.input && e'.now == e.now &&
      Navigate(n, main, e) ==
        Then([Visit(n), Play(n.audioFile, false), Invoke(n.action.value)],
             ToMain(main, e')))
  {
    var e1 := e.(hook := e.hook[1..]);
    assert ReadHook(e) == (true, e1);
    var tag := n.action.value;
    var e2 := ReadResult(AwaitPrompt(e1)).1;
    assert e2.input == e.input && e2.now == e.now;
    var entry := [Visit(n), Play(n.audioFile, false)];
    assert entry + [Invoke(tag)] == [Visit(n), Play(n.audioFile, false), Invoke(n.action.value)];
    assert Navigate(n, main, e) == Then(entry + [Invoke(tag)], ToMain(main, e2));
  }

  /** A leaf reads no key: after its prompt it goes back to the main menu, or the call ends. */
  lemma LeafReturnsToMain(n: Node, main: Option<Node>, e: Env)
    requires |e.hook| > 0 && e.hook[0] && n.action.None? && IsLeaf(n)
    ensures exists e': Env :: (e'.input == e.input && e'.now == e.now &&
      Navigate(n, main, e) ==
        Then([Visit(n), Play(n.audioFile, false)],
             ToMain(main, e')))
  {
    var e1 := e.(hook := e.hook[1..]);
    assert ReadHook(e) == (true, e1);
    assert Navigate(n, main, e) == Then([Visit(n), Play(n.audioFile, false)], Proceed(n, main, e1));
    var e2 := AwaitPrompt(e1);
    assert e2.input == e.input && e2.now == e.now;
    assert Proceed(n, main, e1) == ToMain(main, e2);
  }

  /**
   * A key naming an option descends into that child with the same main menu; audio still
   * playing is stopped first; nothing is drained, so the keys queued behind it reach the child.
   */
  lemma ValidKeyDescends(n: Node, main: Option<Node>, start: int, e: Env, k: string)
    requires |e.hook| > 0 && e.hook[0] && e.now - start <= n.timeout * 1000
    requires |e.input| > 0 && e.input[0] == Key(k) && k in n.options
    ensures var wasPlaying := |e.playing| > 0 && e.playing[0];
      exists e': Env :: e'.input == e.input[1..] && e'.hook == e.hook[1..] && e'.now == e.now &&
        AwaitKey(n, main, start, e) ==
          Then(if wasPlaying then [Stop] else [], Navigate(n.options[k], main, e'))
  {
    ValidKeyStep(n, main, start, e, k);
  }

  /** The unfolding behind `ValidKeyDescends`: the environment after the key and the playback check. */
  lemma ValidKeyStep(n: Node, main: Option<Node>, start: int, e: Env, k: string)
    requires |e.hook| > 0 && e.hook[0] && e.now - start <= n.timeout * 1000
    requires |e.input| > 0 && e.input[0] == Key(k) && k in n.options
    ensures var wasPlaying := |e.playing| > 0 && e.playing[0];
      var e3 := ReadPlaying(e.(hook := e.hook[1..], input := e.input[1..])).1;
      e3.input == e.input[1..] && e3.hook == e.hook[1..] && e3.now == e.now &&
      AwaitKey(n, main, start, e) == Then(if wasPlaying then [Stop] else [], Navigate(n.options[k], main, e3))
  {
    assert NextPoll(e.(hook := e.hook[1..]), PollMs) == (Key(k), e.(hook := e.hook[1..], input := e.input[1..]));
  }

  /**
   * A key naming no option leaves the caller at the same node: audio still playing is
   * stopped and no error is played, otherwise the error prompt plays (blocking); either
   * way the keys already queued are discarded, the node's prompt restarts and the timer
   * restarts from the current time.
   */
  lemma InvalidKeyReplays(n: Node, main: Option<Node>, start: int, e: Env, k: string)
    requires |e.hook| > 0 && e.hook[0] && e.now - start <= n.timeout * 1000
    requires |e.input| > 0 && e.input[0] == Key(k) && k !in n.options
    ensures var wasPlaying := |e.playing| > 0 && e.playing[0];
      exists e': Env :: e'.input == e.input[1 + QueuedCount(e.input[1..])..] && e'.hook == e.hook[1..] && e'.now == e.now &&
        AwaitKey(n, main, start, e) ==
          Then((if wasPlaying then [Stop] else [Play(InvalidPrompt, true)]) + [Play(n.audioFile, false)],
               AwaitKey(n, main, e.now, e'))
  {
    var e4 := Drain(ReadPlaying(e.(hook := e.hook[1..], input := e.input[1..])).1);
    InvalidKeyStep(n, main, start, e, k);
    assert e4.input == e.input[1 + QueuedCount(e.input[1..])..];
    assert e4.hook == e.hook[1..];
  }

  /** The unfolding behind `InvalidKeyReplays`: the environment after the key, the playback check and the drain. */
  lemma InvalidKeyStep(n: Node, main: Option<Node>, start: int, e: Env, k: string)
    requires |e.hook| > 0 && e.hook[0] && e.now - start <= n.timeout * 1000
    requires |e.input| > 0 && e.input[0] == Key(k) && k !in n.options
    ensures var wasPlaying := |e.playing| > 0 && e.playing[0];
      var e4 := Drain(ReadPlaying(e.(hook := e.hook[1..], input := e.input[1..])).1);
      e4.now == e.now &&
      AwaitKey(n, main, start, e) ==
        Then((if wasPlaying then [Stop] else [Play(InvalidPrompt, true)]) + [Play(n.audioFile, false)],
             AwaitKey(n, main, e.now, e4))
  {
    var e1 := e.(hook := e.hook[1..]);
    assert ReadHook(e) == (true, e1);
    var e2 := e1.(input := e1.input[1..]);
    assert NextPoll(e1, PollMs) == (Key(k), e2);
    var wasPlaying := |e.playing| > 0 && e.playing[0];
    assert ReadPlaying(e2).0 == wasPlaying;
    var e4 := Drain(ReadPlaying(e2).1);
    assert e4.now == e.now;
    var interrupt: seq<Effect> := if wasPlaying then [Stop] else [];
    var error: seq<Effect> := if wasPlaying then [] else [Play(InvalidPrompt, true)];
    assert AwaitKey(n, main, start, e) == Then(interrupt + error + [Play(n.audioFile, false)], AwaitKey(n, main, e4.now, e4));
    assert interrupt + error == if wasPlaying then [Stop] else [Play(InvalidPrompt, true)];
  }

  /** The error prompt of an invalid key plays exactly when no audio was playing as the key arrived. */
  lemma InvalidPromptIffSilent(n: Node, main: Option<Node>, start: int, e: Env, k: string)
    requires |e.hook| > 0 && e.hook[0] && e.now - start <= n.timeout * 1000
    requires |e.input| > 0 && e.input[0] == Key(k) && k !in n.options
    ensures var t := AwaitKey(n, main, start, e).trace;
      |t| >= 1 && (t[0] == Play(InvalidPrompt, true) <==> !(|e.playing| > 0 && e.playing[0]))
  {
    InvalidKeyReplays(n, main, start, e, k);
  }

  /**
   * Once more than the node's timeout has passed since the timer started, the node stops
   * its audio, plays the timeout prompt (blocking) and goes back to the main menu.
   */
  lemma TimeoutReturnsToMain(n: Node, main: Option<Node>, start: int, e: Env)
    requires |e.hook| > 0 && e.hook[0] && e.now - start > n.timeout * 1000
    ensures AwaitKey(n, main, start, e) ==
      Then([Stop, Play(TimeoutPrompt, true)],
           ToMain(main, e.(hook := e.hook[1..])))
  {
  }

  /** Hanging up while a menu waits ends the loop with no further prompt. */
  lemma HangUpInLoop(n: Node, main: Option<Node>, start: int, e: Env)
    requires |e.hook| == 0 || !e.hook[0]
    ensures AwaitKey(n, main, start, e).trace == []
  {
  }

  // ----- whole runs -----

  /**
   * A menu left alone times out: with the caller off hook and no key pressed, the empty
   * polls move the clock on until the timeout passes, and the node then stops its audio,
   * plays the timeout prompt and hands over to the main menu.
   */
  lemma {:induction false} QuietMenuTimesOut(n: Node, main: Option<Node>, start: int, e: Env)
    requires |e.hook| > 0 && forall i :: 0 <= i < |e.hook| ==> e.hook[i]
    requires |e.input| == 0
    requires e.now - start + PollMs * (|e.hook| - 1) > n.timeout * 1000
    ensures exists e': Env :: (e'.input == [] &&
      AwaitKey(n, main, start, e) ==
        Then([Stop, Play(TimeoutPrompt, true)],
             ToMain(main, e')))
    decreases |e.hook|
  {
    var e1 := e.(hook := e.hook[1..]);
    if e1.now - start > n.timeout * 1000 {
      assert AwaitKey(n, main, start, e) ==
        Then([Stop, Play(TimeoutPrompt, true)],
             ToMain(main, e1));
    } else {
      var e2 := e1.(now := e1.now + PollMs);
      assert AwaitKey(n, main, start, e) == AwaitKey(n, main, start, e2);
      QuietMenuTimesOut(n, main, start, e2);
    }
  }

  /**
   * Every effect of a navigation stays within the trees at hand: it visits their nodes,
   * plays their prompts or a reserved prompt, and calls their actions.
   */
  lemma {:induction false} NavigateStaysInTree(n: Node, main: Option<Node>, e: Env)
    ensures TraceIn(Navigate(n, main, e).trace, Universe(n, main))
    decreases |e.hook|, 0
  {
    var (h, e1) := ReadHook(e);
    if h {
      EntryEffectsIn(n, main, false);
      UniverseNesting(n, main);
      var entry := [Visit(n), Play(n.audioFile, false)];
      match n.action
      case Some(tag) =>
        var (ok, e2) := ReadResult(AwaitPrompt(e1));
        var pre := entry + [Invoke(tag)];
        if !ok {
          if main.Some? {
            NavigateStaysInTree(main.value, main, e2);
            TraceInWiden(Navigate(main.value, main, e2).trace, Universe(main.value, main), Universe(n, main));
            TraceInAppend(pre, Navigate(main.value, main, e2).trace, Universe(n, main));
          } else {
            TraceInAppend(pre, [], Universe(n, main));
          }
        } else {
          ProceedStaysInTree(n, main, e2);
          TraceInAppend(pre, Proceed(n, main, e2).trace, Universe(n, main));
        }
      case None =>
        ProceedStaysInTree(n, main, e1);
        TraceInAppend(entry, Proceed(n, main, e1).trace, Universe(n, main));
    }
  }

  lemma {:induction false} ProceedStaysInTree(n: Node, main: Option<Node>, e: Env)
    ensures TraceIn(Proceed(n, main, e).trace, Universe(n, main))
    decreases |e.hook|, 2
  {
    if IsLeaf(n) {
      var e1 := AwaitPrompt(e);
      if main.Some? {
        UniverseNesting(n, main);
        NavigateStaysInTree(main.value, main, e1);
        TraceInWiden(Navigate(main.value, main, e1).trace, Universe(main.value, main), Universe(n, main));
      }
    } else {
      AwaitKeyStaysInTree(n, main, e.now, e);
    }
  }

  lemma {:induction false} AwaitKeyStaysInTree(n: Node, main: Option<Node>, start: int, e: Env)
    ensures TraceIn(AwaitKey(n, main, start, e).trace, Universe(n, main))
    decreases |e.hook|, 1
  {
    var (h, e1) := ReadHook(e);
    var u := Universe(n, main);
    assert n in u;
    UniverseNesting(n, main);
    if !h {
    } else if e1.now - start > n.timeout * 1000 {
      var pre := [Stop, Play(TimeoutPrompt, true)];
      assert TraceIn(pre, u);
      if main.Some? {
        NavigateStaysInTree(main.value, main, e1);
        TraceInWiden(Navigate(main.value, main, e1).trace, Universe(main.value, main), u);
        TraceInAppend(pre, Navigate(main.value, main, e1).trace, u);
      } else {
        TraceInAppend(pre, [], u);
      }
    } else {
      var (p, e2) := NextPoll(e1, PollMs);
      match p
      case Empty =>
        assert AwaitKey(n, main, start, e) == AwaitKey(n, main, start, e2);
        AwaitKeyStaysInTree(n, main, start, e2);
      case Key(k) =>
        KeyStaysInTree(n, main, start, e, k);
    }
  }

  /** The key branch of `AwaitKeyStaysInTree`: a valid key descends, an invalid one replays the node. */
  lemma {:induction false} KeyStaysInTree(n: Node, main: Option<Node>, start: int, e: Env, k: string)
    requires |e.hook| > 0 && e.hook[0] && e.now - start <= n.timeout * 1000
    requires |e.input| > 0 && e.input[0] == Key(k)
    ensures TraceIn(AwaitKey(n, main, start, e).trace, Universe(n, main))
    decreases |e.hook|, 0
  {
    var e3 := ReadPlaying(e.(hook := e.hook[1..], input := e.input[1..])).1;
    var interrupt := StopIfPlaying(e);
    if k in n.options {
      ValidKeyStep(n, main, start, e, k);
      var next := Navigate(n.options[k], main, e3);
      NavigateStaysInTree(n.options[k], main, e3);
      UniverseNesting(n, main);
      TraceInWiden(next.trace, Universe(n.options[k], main), Universe(n, main));
      TraceInAppend(interrupt, next.trace, Universe(n, main));
    } else {
      InvalidKeyStep(n, main, start, e, k);
      var e4 := Drain(e3);
      assert e4.hook == e.hook[1..];
      var pre := ReplayPrefix(n, e);
      ReplayPrefixIn(n, main, e);
      AwaitKeyStaysInTree(n, main, e.now, e4);
      TraceInAppend(pre, AwaitKey(n, main, e.now, e4).trace, Universe(n, main));
    }
  }

  /** The interruption of a key: `Stop` exactly when the prompt was still playing. */
  function StopIfPlaying(e: Env): (r: seq<Effect>)
    ensures r == [] || r == [Stop]
    ensures forall u :: TraceIn(r, u)
  {
    if |e.playing| > 0 && e.playing[0] then [Stop] else []
  }

  /** What an invalid key plays before the node's loop restarts. */
  function ReplayPrefix(n: Node, e: Env): seq<Effect> {
    (if |e.playing| > 0 && e.playing[0] then [Stop] else [Play(InvalidPrompt, true)]) + [Play(n.audioFile, false)]
  }

  lemma ReplayPrefixIn(n: Node, main: Option<Node>, e: Env)
    ensures TraceIn(ReplayPrefix(n, e), Universe(n, main))
  {
    assert n in Universe(n, main);
  }

  /**
   * A caller who stays off hook and presses, one by one, the keys of a plain path from the
   * root to a leaf hears exactly the prompts of the nodes along it. The call ends there
   * when there is no main menu, or when the caller hangs up just as the leaf hands over
   * to the main menu.
   */
  lemma {:induction false} PathPlaysPrompts(n: Node, main: Option<Node>, ks: seq<string>, e: Env)
    requires PlainPath(n, ks)
    requires forall i :: 0 <= i < |e.hook| ==> e.hook[i]
    requires |e.hook| > 2 * |ks|
    requires main.None? || |e.hook| == 2 * |ks| + 1
    requires e.input == Keys(ks) && e.playing == []
    ensures Prompts(Navigate(n, main, e).trace) == PathPrompts(n, ks)
    decreases |ks|
  {
    var entry := [Visit(n), Play(n.audioFile, false)];
    assert Prompts(entry) == [n.audioFile] by {
      assert entry[1..][1..] == [];
    }
    if |ks| == 0 {
      LeafPathStep(n, main, e);
    } else {
      var child := n.options[ks[0]];
      var e3 := e.(hook := e.hook[2..], input := e.input[1..]);
      KeyPathStep(n, main, ks[0], e);
      assert e3.input == Keys(ks[1..]);
      PathPlaysPrompts(child, main, ks[1..], e3);
      PromptsAppend(entry, Navigate(child, main, e3).trace);
    }
  }

  /** The last step of a path: a plain leaf plays its prompt, then the call ends or the caller is gone. */
  lemma LeafPathStep(n: Node, main: Option<Node>, e: Env)
    requires n.action.None? && IsLeaf(n) && OffHook(e)
    requires e.playing == [] && (main.None? || |e.hook| == 1)
    ensures Navigate(n, main, e).trace == [Visit(n), Play(n.audioFile, false)]
  {
    var e1 := e.(hook := e.hook[1..]);
    assert ReadHook(e) == (true, e1);
    assert Navigate(n, main, e) == Then([Visit(n), Play(n.audioFile, false)], Proceed(n, main, e1));
    assert AwaitPrompt(e1) == e1;
    assert Proceed(n, main, e1) == ToMain(main, e1);
  }

  /** One step along a path: a plain menu plays its prompt and, on its key, enters the child at once. */
  lemma KeyPathStep(n: Node, main: Option<Node>, k: string, e: Env)
    requires n.action.None? && !IsLeaf(n) && k in n.options && n.timeout >= 0
    requires |e.hook| >= 2 && e.hook[0] && e.hook[1]
    requires |e.input| > 0 && e.input[0] == Key(k) && e.playing == []
    ensures Navigate(n, main, e).trace ==
      [Visit(n), Play(n.audioFile, false)] + Navigate(n.options[k], main, e.(hook := e.hook[2..], input := e.input[1..])).trace
  {
    var e1 := e.(hook := e.hook[1..]);
    var e3 := e1.(hook := e1.hook[1..], input := e1.input[1..]);
    assert e3 == e.(hook := e.hook[2..], input := e.input[1..]);
    assert ReadHook(e) == (true, e1);
    assert Navigate(n, main, e) == Then([Visit(n), Play(n.audioFile, false)], Proceed(n, main, e1));
    assert Proceed(n, main, e1) == AwaitKey(n, main, e1.now, e1);
    assert ReadHook(e1) == (true, e1.(hook := e1.hook[1..]));
    assert NextPoll(e1.(hook := e1.hook[1..]), PollMs) == (Key(k), e3);
    assert ReadPlaying(e3) == (false, e3);
    assert AwaitKey(n, main, e1.now, e1) == Then([], Navigate(n.options[k], main, e3));
  }
}

=== FILE: dtmf.dfy ===
/**
 * The DTMF tone table the tone generator uses: each keypad key sounds a low tone fixed by
 * its row and a high tone fixed by its column (the frequency allocation of ITU-T
 * Recommendation Q.23), and each key's tone is saved under a file name of its own.
 */
module Dtmf {
  import Keypad

  /** The low tones, one per keypad row, in Hz. */
  const RowFreqs: seq<int> := [697, 770, 852, 941]

  /** The high tones, one per keypad column, in Hz. */
  const ColFreqs: seq<int> := [1209, 1336, 1477]

  /** `DTMF_FREQUENCIES`: key to (low, high) frequency. */
  const Frequencies: map<string, (int, int)> := map[
    "1" := (697, 1209), "2" := (697, 1336), "3" := (697, 1477),
    "4" := (770, 1209), "5" := (770, 1336), "6" := (770, 1477),
    "7" := (852, 1209), "8" := (852, 1336), "9" := (852, 1477),
    "*" := (941, 1209), "0" := (941, 1336), "#" := (941, 1477)
  ]

  /**
   * The table is the keypad grid: the key at row r and column c has the r-th low tone and
   * the c-th high tone, and the table has no other key.
   */
  lemma TableFollowsGrid()
    ensures forall r, c :: 0 <= r < 4 && 0 <= c < 3 ==>
      Keypad.FourRows[r][c] in Frequencies && Frequencies[Keypad.FourRows[r][c]] == (RowFreqs[r], ColFreqs[c])
    ensures forall k :: k in Frequencies ==> exists r, c :: 0 <= r < 4 && 0 <= c < 3 && Keypad.FourRows[r][c] == k
  {
    forall k | k in Frequencies
      ensures exists r, c :: 0 <= r < 4 && 0 <= c < 3 && Keypad.FourRows[r][c] == k
    {
      if k == "1" { assert Keypad.FourRows[0][0] == k; }
      else if k == "2" { assert Keypad.FourRows[0][1] == k; }
      else if k == "3" { assert Keypad.FourRows[0][2] == k; }
      else if k == "4" { assert Keypad.FourRows[1][0] == k; }
      else if k == "5" { assert Keypad.FourRows[1][1] == k; }
      else if k == "6" { assert Keypad.FourRows[1][2] == k; }
      else if k == "7" { assert Keypad.FourRows[2][0] == k; }
      else if k == "8" { assert Keypad.FourRows[2][1] == k; }
      else if k == "9" { assert Keypad.FourRows[2][2] == k; }
      else if k == "*" { assert Keypad.FourRows[3][0] == k; }
      else if k == "0" { assert Keypad.FourRows[3][1] == k; }
      else { assert Keypad.FourRows[3][2] == k; }
    }
  }

  /** Every key has one of the low tones below one of the high tones. */
  lemma TonesInBands()
    ensures forall k :: k in Frequencies ==> Frequencies[k].0 in RowFreqs && Frequencies[k].1 in ColFreqs
    ensures forall k :: k in Frequencies ==> Frequencies[k].0 < Frequencies[k].1
  {
  }

  /** No two keys share a tone pair. */
  lemma TonesTellKeysApart()
    ensures forall k1, k2 :: k1 in Frequencies && k2 in Frequencies && k1 != k2 ==> Frequencies[k1] != Frequencies[k2]
  {
  }

  /** The file a key's tone is saved in: `star.wav`, `pound.wav`, or the key followed by `.wav`. */
  function ToneFile(key: string): (name: string)
    ensures key == "*" ==> name == "star.wav"
    ensures key == "#" ==> name == "pound.wav"
    ensures key != "*" && key != "#" ==> name == key + ".wav"
  {
    if key == "*" then "star.wav"
    else if key == "#" then "pound.wav"
    else key + ".wav"
  }

  /** No two keys of the table write the same file. */
  lemma ToneFilesDistinct()
    ensures forall k1, k2 :: k1 in Frequencies && k2 in Frequencies && k1 != k2 ==> ToneFile(k1) != ToneFile(k2)
  {
    forall k1, k2 | k1 in Frequencies && k2 in Frequencies && k1 != k2
      ensures ToneFile(k1) != ToneFile(k2)
    {
      assert |k1| == 1 && |k2| == 1;
      assert ToneFile(k1)[0] != ToneFile(k2)[0];
    }
  }
}

=== FILE: environment.dfy ===
/**
 * The finite environment script a navigator runs against, standing in for the hook
 * predicate, the shared key queue, the audio device's `is_playing()` and the clock.
 *
 * - every `hook_status()` call consumes one answer; an exhausted script reads as "hung up";
 * - every `input_queue.get(timeout=...)` consumes one poll, a key or `Empty`; an exhausted
 *   script reads as `Empty`; an `Empty` poll lasts the get's timeout on the clock, a key
 *   arrives at once;
 * - every `is_playing()` call consumes one answer; an exhausted script reads as "silent";
 * - every action call consumes one result; an exhausted script reads as a falsy result;
 * - `now` is the integer millisecond clock that `time.time()` reads. Sleeps are no-ops.
 */
module Environment {
  import opened Wrappers
  import opened TreeNode

  datatype Poll = Key(key: string) | Empty

  datatype Env = Env(hook: seq<bool>, input: seq<Poll>, playing: seq<bool>, results: seq<bool>, now: int)

  /** What a navigator does that can be observed: entering a node, playing, stopping, calling an action. */
  datatype Effect = Visit(node: Node) | Play(file: string, blocking: bool) | Stop | Invoke(tag: ActionTag)

  /** The trace of a navigation and the environment left after it. */
  datatype Run = Run(trace: seq<Effect>, env: Env)

  /** The reserved prompt played when a menu times out. */
  const TimeoutPrompt := "prompts/timeout.mp3"
  /** The reserved prompt played for a key that names no option. */
  const InvalidPrompt := "prompts/invalid_option.mp3"

  /** Runs `r` after the effects `prefix`. */
  function Then(prefix: seq<Effect>, r: Run): Run {
    Run(prefix + r.trace, r.env)
  }

  /** The next `hook_status()` answers that the caller is off hook. */
  predicate OffHook(e: Env) {
    |e.hook| > 0 && e.hook[0]
  }

  /** `hook_status()`: the next scripted answer, which is used up; off hook is `true`. */
  function ReadHook(e: Env): (r: (bool, Env))
    ensures |e.hook| > 0 ==> e.hook == [r.0] + r.1.hook
    ensures |e.hook| == 0 ==> !r.0 && r.1 == e
    ensures r.1.(hook := e.hook) == e
  {
    if |e.hook| == 0 then (false, e) else (e.hook[0], e.(hook := e.hook[1..]))
  }

  /** `is_playing()`: the next scripted answer, which is used up. */
  function ReadPlaying(e: Env): (r: (bool, Env))
    ensures |e.playing| > 0 ==> e.playing == [r.0] + r.1.playing
    ensures |e.playing| == 0 ==> !r.0 && r.1 == e
    ensures r.1.(playing := e.playing) == e
  {
    if |e.playing| == 0 then (false, e) else (e.playing[0], e.(playing := e.playing[1..]))
  }

  /** An action call: the next scripted result, which is used up. */
  function ReadResult(e: Env): (r: (bool, Env))
    ensures |e.results| > 0 ==> e.results == [r.0] + r.1.results
    ensures |e.results| == 0 ==> !r.0 && r.1 == e
    ensures r.1.(results := e.results) == e
  {
    if |e.results| == 0 then (false, e) else (e.results[0], e.(results := e.results[1..]))
  }

  /** `input_queue.get(timeout=waitMs)`: a queued key at once, or `Empty` after `waitMs`. */
  function NextPoll(e: Env, waitMs: nat): (r: (Poll, Env))
    ensures r.1.(input := e.input, now := e.now) == e
    ensures r.0.Key? ==> |e.input| > 0 && e.input == [r.0] + r.1.input && r.1.now == e.now
    ensures r.0.Empty? ==> r.1.now == e.now + waitMs
    ensures r.0.Empty? ==> (r.1.input == e.input == []) || e.input == [Empty] + r.1.input
  {
    if |e.input| == 0 then (Empty, e.(now := e.now + waitMs))
    else match e.input[0]
      case Key(k) => (Key(k), e.(input := e.input[1..]))
      case Empty => (Empty, e.(input := e.input[1..], now := e.now + waitMs))
  }

  /** A script in which the keys `ks` are pressed one after another, with no pause. */
  function Keys(ks: seq<string>): (polls: seq<Poll>)
    ensures |polls| == |ks|
    ensures forall i :: 0 <= i < |ks| ==> polls[i] == Key(ks[i])
  {
    seq(|ks|, i requires 0 <= i < |ks| => Key(ks[i]))
  }

  /** `input_queue.empty()`: no key is waiting at the head of the script. */
  predicate QueueEmpty(e: Env) {
    |e.input| == 0 || e.input[0].Empty?
  }

  /** How many keys are already queued: the length of the leading run of keys. */
  function QueuedCount(s: seq<Poll>): (n: nat)
    ensures n <= |s|
    ensures forall i :: 0 <= i < n ==> s[i].Key?
    ensures n == |s| || s[n].Empty?
  {
    if |s| == 0 || s[0].Empty? then 0 else 1 + QueuedCount(s[1..])
  }

  /**
   * The loop `while not input_queue.empty(): input_queue.get_nowait()`: discards every
   * queued key and nothing else.
   */
  function Drain(e: Env): (r: Env)
    ensures QueueEmpty(r)
    ensures exists n :: 0 <= n <= |e.input| && r.input == e.input[n..] && forall i :: 0 <= i < n ==> e.input[i].Key?
    ensures r.hook == e.hook && r.playing == e.playing && r.results == e.results && r.now == e.now
  {
    var n := QueuedCount(e.input);
    e.(input := e.input[n..])
  }

  /** After draining, nothing is left queued (the queue's size is 0). */
  lemma DrainLeavesNothingQueued(e: Env)
    ensures QueuedCount(Drain(e).input) == 0
  {
  }

  /** The files played by a trace, in order. */
  function Prompts(t: seq<Effect>): (files: seq<string>)
    ensures |files| <= |t|
  {
    if |t| == 0 then []
    else (if t[0].Play? then [t[0].file] else []) + Prompts(t[1..])
  }

  lemma {:induction false} PromptsAppend(a: seq<Effect>, b: seq<Effect>)
    ensures Prompts(a + b) == Prompts(a) + Prompts(b)
    decreases |a|
  {
    if |a| == 0 {
      assert a + b == b;
    } else {
      assert (a + b)[1..] == a[1..] + b;
      PromptsAppend(a[1..], b);
    }
  }

  /** Every node of the trees rooted at `n` and at the main menu. */
  ghost function Universe(n: Node, main: Option<Node>): set<Node> {
    Subtrees(n) + (if main.Some? then Subtrees(main.value) else {})
  }

  /**
   * An effect that only involves the trees at hand: visits of their nodes, plays of their
   * prompts (or of a reserved prompt, blocking), and calls of their actions.
   */
  ghost predicate EffectIn(ef: Effect, u: set<Node>) {
    match ef
    case Visit(m) => m in u
    case Play(f, blocking) =>
      (exists m :: m in u && m.audioFile == f) || (blocking && (f == TimeoutPrompt || f == InvalidPrompt))
    case Stop => true
    case Invoke(tag) => exists m :: m in u && m.action == Some(tag)
  }

  ghost predicate TraceIn(t: seq<Effect>, u: set<Node>) {
    forall i :: 0 <= i < |t| ==> EffectIn(t[i], u)
  }

  lemma TraceInWiden(t: seq<Effect>, u: set<Node>, w: set<Node>)
    requires TraceIn(t, u) && u <= w
    ensures TraceIn(t, w)
  {
    forall i | 0 <= i < |t|
      ensures EffectIn(t[i], w)
    {
      match t[i]
      case Visit(m) =>
      case Play(f, b) =>
        if exists m :: m in u && m.audioFile == f {
          var m :| m in u && m.audioFile == f;
          assert m in w;
        }
      case Stop =>
      case Invoke(tag) =>
        var m :| m in u && m.action == Some(tag);
        assert m in w;
    }
  }

  lemma TraceInAppend(a: seq<Effect>, b: seq<Effect>, u: set<Node>)
    requires TraceIn(a, u) && TraceIn(b, u)
    ensures TraceIn(a + b, u)
  {
    forall i | 0 <= i < |a + b|
      ensures EffectIn((a + b)[i], u)
    {
      if i < |a| { assert (a + b)[i] == a[i]; } else { assert (a + b)[i] == b[i - |a|]; }
    }
  }

  /** The effects a navigator produces on entering `n` are effects of the trees at hand. */
  lemma EntryEffectsIn(n: Node, main: Option<Node>, blocking: bool)
    ensures TraceIn([Visit(n), Play(n.audioFile, blocking)], Universe(n, main))
    ensures n.action.Some? ==> TraceIn([Visit(n), Play(n.audioFile, blocking), Invoke(n.action.value)], Universe(n, main))
  {
    assert n in Universe(n, main);
  }

  /** A child's trees are inside its parent's; the main menu's trees are inside every node's. */
  lemma UniverseNesting(n: Node, main: Option<Node>)
    ensures forall k :: k in n.options ==> Universe(n.options[k], main) <= Universe(n, main)
    ensures main.Some? ==> Universe(main.value, main) <= Universe(n, main)
  {
    forall k | k in n.options
      ensures Universe(n.options[k], main) <= Universe(n, main)
    {
      ChildSubtrees(n, k);
    }
  }
}

=== FILE: extension_rules.dfy ===
/**
 * The extension and hybrid addressing rules of the live navigator, as far as its unit tests
 * pin them down: the constructor's settings and their defaults, the validation of a node's
 * option keys with one error kind per rule, the completion test of an extension buffer,
 * the initial hybrid navigation context and the queue clearing helper.
 *
 * A key of length 1 is a single-digit option; a longer key is an extension.
 */
module ExtensionRules {
  import opened Wrappers
  import opened TreeNode
  import opened Environment

  datatype Mode = SingleDigit | Extension | Hybrid

  /** The constructor flags: hybrid mode wins over extension mode. */
  function ModeOf(extensionMode: bool, hybridMode: bool): (m: Mode)
    ensures m == Hybrid <==> hybridMode
    ensures m == SingleDigit <==> !extensionMode && !hybridMode
  {
    if hybridMode then Hybrid else if extensionMode then Extension else SingleDigit
  }

  datatype ConfigError =
    | MixedKeyLength
    | LengthMismatch(length: nat)
    | TerminatorCollision(terminator: char)
    | PrefixCollision(prefix: char)
    | ReturnKeyCollision(returnKey: char)

  /** The extension settings of a node; the timeout is in milliseconds. */
  datatype Settings = Settings(length: Option<nat>, terminator: char, timeoutMs: nat,
                               prefix: char, returnKey: char, continuousDialing: bool)

  /** The constructor's settings, each argument defaulted as the constructor does. */
  function MakeSettings(length: Option<nat> := None, terminator: char := '#', timeoutMs: nat := 3000,
                        prefix: char := '*', returnKey: char := '0', continuousDialing: bool := true): (s: Settings)
    ensures s.length == length && s.terminator == terminator && s.timeoutMs == timeoutMs
    ensures s.prefix == prefix && s.returnKey == returnKey && s.continuousDialing == continuousDialing
  {
    Settings(length, terminator, timeoutMs, prefix, returnKey, continuousDialing)
  }

  /** Without arguments: no fixed length, terminator '#', 3 second timeout, prefix '*', return key '0'. */
  lemma SettingsDefaults()
    ensures MakeSettings().length == None && MakeSettings().terminator == '#'
    ensures MakeSettings().timeoutMs == 3000
    ensures MakeSettings().prefix == '*' && MakeSettings().returnKey == '0'
    ensures MakeSettings().continuousDialing
  {
  }

  // ----- the rules, one predicate each -----

  predicate HasSingle(keys: set<string>) { exists k :: k in keys && |k| == 1 }
  predicate HasMulti(keys: set<string>) { exists k :: k in keys && |k| > 1 }

  /** Every key (or, in hybrid mode, every multi-character key) has the fixed length, if any. */
  predicate LengthsFit(keys: set<string>, length: Option<nat>, multiOnly: bool) {
    length.Some? ==> forall k :: k in keys && (!multiOnly || |k| > 1) ==> |k| == length.value
  }

  predicate Avoids(keys: set<string>, c: char) {
    forall k :: k in keys ==> c !in k
  }

  /**
   * Validation of the option keys of a node. Nothing is checked in single-digit mode or
   * when there are no options. Extension mode checks, in this order, that single and
   * multi-character keys are not mixed, that every key has the fixed length, and that no
   * key holds the terminator. Hybrid mode checks that the prefix and the return key are not
   * keys themselves and that every multi-character key has the fixed length; it does not
   * check the terminator against the keys.
   */
  function Validate(keys: set<string>, mode: Mode, s: Settings): (r: Result<(), ConfigError>)
    ensures (|keys| == 0 || mode.SingleDigit?) ==> r.Ok?
    ensures r == Err(MixedKeyLength) ==> mode.Extension? && HasSingle(keys) && HasMulti(keys)
    ensures r.Err? && r.error.LengthMismatch? ==>
              s.length == Some(r.error.length) && exists k :: k in keys && |k| != r.error.length
    ensures r.Err? && r.error.TerminatorCollision? ==>
              mode.Extension? && r.error.terminator == s.terminator && exists k :: k in keys && s.terminator in k
    ensures r.Err? && r.error.PrefixCollision? ==> mode.Hybrid? && r.error.prefix == s.prefix && [s.prefix] in keys
    ensures r.Err? && r.error.ReturnKeyCollision? ==>
              mode.Hybrid? && r.error.returnKey == s.returnKey && [s.prefix] !in keys && [s.returnKey] in keys
  {
    if |keys| == 0 then Ok(())
    else match mode
      case SingleDigit => Ok(())
      case Extension =>
        if HasSingle(keys) && HasMulti(keys) then Err(MixedKeyLength)
        else if !LengthsFit(keys, s.length, false) then Err(LengthMismatch(s.length.value))
        else if !Avoids(keys, s.terminator) then Err(TerminatorCollision(s.terminator))
        else Ok(())
      case Hybrid =>
        if [s.prefix] in keys then Err(PrefixCollision(s.prefix))
        else if [s.returnKey] in keys then Err(ReturnKeyCollision(s.returnKey))
        else if !LengthsFit(keys, s.length, true) then Err(LengthMismatch(s.length.value))
        else Ok(())
  }

  /**
   * The key sets each mode admits, stated key by key: extension keys have one uniform
   * length class, the fixed length if any, and no terminator; hybrid keys avoid the prefix
   * and the return key, and extensions have the fixed length if any.
   */
  ghost predicate Admissible(keys: set<string>, mode: Mode, s: Settings): (ok: bool)
    ensures ok && mode.Extension? ==> !(HasSingle(keys) && HasMulti(keys)) && Avoids(keys, s.terminator)
    ensures ok && mode.Hybrid? ==> [s.prefix] !in keys && [s.returnKey] !in keys
  {
    match mode
    case SingleDigit => true
    case Extension =>
      && (forall k1, k2 :: k1 in keys && k2 in keys && |k1| == 1 ==> |k2| <= 1)
      && (forall k :: k in keys && s.length.Some? ==> |k| == s.length.value)
      && (forall k, i :: k in keys && 0 <= i < |k| ==> k[i] != s.terminator)
    case Hybrid =>
      && (forall k :: k in keys ==> k != [s.prefix] && k != [s.returnKey])
      && (forall k :: k in keys && |k| > 1 && s.length.Some? ==> |k| == s.length.value)
  }

  /** A node's keys are accepted exactly when they are admissible for its mode (or there are none). */
  lemma ValidateAcceptsAdmissible(keys: set<string>, mode: Mode, s: Settings)
    ensures Validate(keys, mode, s).Ok? <==> (|keys| == 0 || Admissible(keys, mode, s))
  {
    if |keys| > 0 && mode.Extension? {
      if HasSingle(keys) && HasMulti(keys) {
        var k1 :| k1 in keys && |k1| == 1;
        var k2 :| k2 in keys && |k2| > 1;
        assert !Admissible(keys, mode, s);
      }
      if !Avoids(keys, s.terminator) {
        var k :| k in keys && s.terminator in k;
        var i :| 0 <= i < |k| && k[i] == s.terminator;
        assert !Admissible(keys, mode, s);
      }
    }
  }

  /** Extension mode rejects a single-character key beside a multi-character one. */
  lemma ExtensionRejectsMixed(keys: set<string>, s: Settings, one: string, many: string)
    requires one in keys && |one| == 1 && many in keys && |many| > 1
    ensures Validate(keys, Extension, s) == Err(MixedKeyLength)
  {
  }

  /** With a fixed length and no mixing, a key of another length is a length mismatch. */
  lemma ExtensionRejectsWrongLength(keys: set<string>, s: Settings, k: string)
    requires s.length.Some? && k in keys && |k| != s.length.value && !(HasSingle(keys) && HasMulti(keys))
    ensures Validate(keys, Extension, s) == Err(LengthMismatch(s.length.value))
  {
  }

  /** The constructor cases of the extension tests: a terminator inside a key, a short key, uniform keys. */
  lemma ExtensionCases()
    ensures Validate({"10#"}, Extension, MakeSettings()) == Err(TerminatorCollision('#'))
    ensures Validate({"101", "10"}, Extension, MakeSettings(Some(3))) == Err(LengthMismatch(3))
    ensures Validate({"101", "102", "103", "999"}, Extension, MakeSettings(Some(3))) == Ok(())
    ensures Validate({"1", "101"}, Extension, MakeSettings()) == Err(MixedKeyLength)
  {
    assert "10#"[2] == '#';
    assert |"10"| != 3;
    assert "1" in {"1", "101"} && "101" in {"1", "101"};
  }

  /** Hybrid mode accepts single-digit options beside extensions, even one that starts an extension. */
  lemma HybridAcceptsOverlap(s: Settings)
    requires s.length == Some(3) && s.prefix == '*' && s.returnKey == '0'
    ensures Validate({"1", "101"}, Hybrid, s) == Ok(())
    ensures Validate({"1", "2", "101", "102"}, Hybrid, s) == Ok(())
  {
    assert ["*"[0]] != "1" && ["0"[0]] != "1";
  }

  /** Hybrid mode rejects a key equal to the prefix, then one equal to the return key. */
  lemma HybridRejectsReserved(keys: set<string>, s: Settings)
    requires [s.prefix] in keys || [s.returnKey] in keys
    ensures Validate(keys, Hybrid, s).Err?
    ensures [s.prefix] in keys ==> Validate(keys, Hybrid, s) == Err(PrefixCollision(s.prefix))
    ensures [s.prefix] !in keys ==> Validate(keys, Hybrid, s) == Err(ReturnKeyCollision(s.returnKey))
  {
  }

  /** In hybrid mode single-character keys are exempt from the fixed length. */
  lemma HybridLengthExemptsSingles(keys: set<string>, s: Settings)
    requires s.length.Some? && [s.prefix] !in keys && [s.returnKey] !in keys
    requires forall k :: k in keys ==> |k| == 1 || |k| == s.length.value
    ensures Validate(keys, Hybrid, s) == Ok(())
  {
  }

  /** A node of the extension-aware constructor: the plain node, its mode and its settings. */
  datatype Menu = Menu(node: Node, mode: Mode, settings: Settings)

  /**
   * The extension-aware constructor: missing options become an empty dictionary and are
   * never validated; otherwise the keys are validated for the mode and a violation is the
   * constructor's error.
   */
  function MakeMenu(audioFile: string, options: Option<map<string, Node>>, mode: Mode, s: Settings): (r: Result<Menu, ConfigError>)
    ensures options.None? ==> r.Ok? && r.value.node.options == map[]
    ensures r.Ok? <==> (options.None? || Validate(options.value.Keys, mode, s).Ok?)
    ensures r.Ok? ==> r.value.mode == mode && r.value.settings == s && r.value.node.audioFile == audioFile
    ensures r.Err? ==> options.Some? && Validate(options.value.Keys, mode, s) == Err(r.error)
  {
    var keys := if options.Some? then options.value.Keys else {};
    match Validate(keys, mode, s)
    case Err(err) => Err(err)
    case Ok(_) => Ok(Menu(MakeNode(audioFile, options), mode, s))
  }

  /** Single-digit mode ignores the extension settings: any options are accepted. */
  lemma SingleDigitIgnoresSettings(audioFile: string, options: Option<map<string, Node>>, s: Settings)
    ensures MakeMenu(audioFile, options, SingleDigit, s).Ok?
  {
  }

  // ----- extension collection -----

  /**
   * `_is_extension_complete(buffer, digit)`: the digit just pressed is the terminator, or
   * the buffer has reached the fixed length.
   */
  predicate IsExtensionComplete(s: Settings, buffer: seq<char>, digit: char): (done: bool)
    ensures s.length.None? ==> (done <==> digit == s.terminator)
    ensures digit != s.terminator && s.length.Some? ==> (done <==> |buffer| >= s.length.value)
  {
    digit == s.terminator || (s.length.Some? && |buffer| >= s.length.value)
  }

  /**
   * Completion depends on the buffer only through its length, and only monotonically: once a
   * buffer completes an extension, any buffer at least as long completes it with the same digit,
   * and a buffer that does not is shorter than the fixed length.
   */
  lemma CompletionMonotone(s: Settings, buffer: seq<char>, longer: seq<char>, digit: char)
    requires |longer| >= |buffer|
    ensures IsExtensionComplete(s, buffer, digit) ==> IsExtensionComplete(s, longer, digit)
    ensures !IsExtensionComplete(s, longer, digit) ==> s.length.None? || |buffer| < s.length.value
  {
  }

  /** With a fixed length of 3, a three-digit buffer is complete and a two-digit one is not. */
  lemma CompleteAtFixedLength(s: Settings)
    requires s.length == Some(3) && s.terminator == '#'
    ensures IsExtensionComplete(s, ['1', '0', '1'], '1')
    ensures !IsExtensionComplete(s, ['1', '0'], '0')
  {
  }

  /** Without a fixed length, completion is exactly the terminator. */
  lemma CompleteAtTerminator(s: Settings, buffer: seq<char>, digit: char)
    requires s.length.None?
    ensures IsExtensionComplete(s, buffer, digit) <==> digit == s.terminator
  {
  }

  datatype NavigationState = MenuPlaying | CollectingExtension

  /** The hybrid navigation context of one menu visit. */
  datatype HybridContext = HybridContext(state: NavigationState, inExtensionMode: bool, digitBuffer: seq<char>)

  /** A fresh context: the menu is playing, extension mode is off and the buffer is empty. */
  function FreshContext(): (c: HybridContext)
    ensures c.state == MenuPlaying && !c.inExtensionMode && |c.digitBuffer| == 0
  {
    HybridContext(MenuPlaying, false, [])
  }

  /** `_clear_queue`: takes every queued key, leaving a queue of size 0 and the rest of the script. */
  function ClearQueue(e: Env): (r: Env)
    ensures QueuedCount(r.input) == 0
    ensures r.input == e.input[QueuedCount(e.input)..]
    ensures r.hook == e.hook && r.playing == e.playing && r.now == e.now
  {
    Drain(e)
  }

  /** Three queued keys are all cleared. */
  lemma ClearThreeKeys(e: Env)
    requires e.input == Keys(["1", "2", "3"])
    ensures ClearQueue(e).input == []
  {
    assert QueuedCount(e.input) == 3 by {
      assert e.input[3..] == [];
      assert e.input[1..][1..][1..] == [];
    }
  }
}

=== FILE: hook_switch.dfy ===
/**
 * The GPIO hook switch: the pin configuration chosen at construction, the level-to-hook
 * interpretation of each mode, and the change detection that decides when the callback
 * runs. A pin level is an input; the callback is reported as the value it would receive.
 */
module HookSwitch {
  import opened Wrappers

  datatype Level = Low | High

  /** The constructor argument: a single pin number or a list of pin numbers. */
  datatype PinSpec = SinglePin(pin: int) | PinList(pins: seq<int>)

  /** One pin switched to ground, or a driven output pin and a read input pin. */
  datatype Mode = OnePin | TwoPin

  datatype HookError = WrongPinCount(count: nat)

  datatype Switch = Switch(pins: seq<int>, mode: Mode, hasCallback: bool, lastState: Option<Level>)

  /** The constructor: a list of exactly two pins selects two-pin mode, a single pin one-pin mode. */
  function MakeSwitch(spec: PinSpec, hasCallback: bool): (r: Result<Switch, HookError>)
    ensures spec.SinglePin? ==> r == Ok(Switch([spec.pin], OnePin, hasCallback, None))
    ensures spec.PinList? ==> (r.Ok? <==> |spec.pins| == 2)
    ensures spec.PinList? && r.Ok? ==> r.value == Switch(spec.pins, TwoPin, hasCallback, None)
    ensures r.Err? ==> r.error == WrongPinCount(|spec.pins|)
  {
    match spec
    case SinglePin(p) => Ok(Switch([p], OnePin, hasCallback, None))
    case PinList(ps) => if |ps| != 2 then Err(WrongPinCount(|ps|)) else Ok(Switch(ps, TwoPin, hasCallback, None))
  }

  /** `setup`: records the level read from the watched pin as the last state. */
  function Setup(sw: Switch, level: Level): (r: Switch)
    ensures r.lastState == Some(level) && r.mode == sw.mode && r.pins == sw.pins && r.hasCallback == sw.hasCallback
  {
    sw.(lastState := Some(level))
  }

  /** Off hook is LOW on the single pin, or HIGH on the input pin of the pair. */
  function OffHook(mode: Mode, level: Level): (off: bool)
    ensures off <==> (mode == OnePin <==> level == Low)
  {
    match mode
    case OnePin => level == Low
    case TwoPin => level == High
  }

  /** The two modes read the same level in opposite senses. */
  lemma ModesOpposite(level: Level)
    ensures OffHook(OnePin, level) != OffHook(TwoPin, level)
    ensures OffHook(OnePin, Low) && OffHook(TwoPin, High)
  {
  }

  /**
   * `_hook_changed`: when the watched pin's level differs from the last state, the last state
   * takes the new level and the callback, if one is set, receives the off-hook verdict;
   * the same level again does nothing.
   */
  function HookChanged(sw: Switch, level: Level): (r: (Switch, Option<bool>))
    ensures r.0.lastState == Some(level)
    ensures r.0.mode == sw.mode && r.0.pins == sw.pins && r.0.hasCallback == sw.hasCallback
    ensures r.1.Some? <==> sw.lastState != Some(level) && sw.hasCallback
    ensures r.1.Some? ==> r.1.value == OffHook(sw.mode, level)
  {
    if sw.lastState != Some(level) then
      (sw.(lastState := Some(level)), if sw.hasCallback then Some(OffHook(sw.mode, level)) else None)
    else (sw, None)
  }

  /** `get_state`: the off-hook verdict of the watched pin's current level. */
  function GetState(sw: Switch, level: Level): (off: bool)
    ensures off <==> (sw.mode == OnePin <==> level == Low)
  {
    OffHook(sw.mode, level)
  }

  /** `get_state` agrees with the verdict `_hook_changed` passes on for the same level. */
  lemma GetStateAgrees(sw: Switch, level: Level)
    requires sw.lastState != Some(level) && sw.hasCallback
    ensures HookChanged(sw, level).1 == Some(GetState(sw, level))
  {
  }

  /** The callback values of a sequence of edge interrupts, in order, and the final switch. */
  function Edges(sw: Switch, levels: seq<Level>): (r: (seq<bool>, Switch))
    ensures |r.0| <= |levels|
    ensures r.1.mode == sw.mode && r.1.hasCallback == sw.hasCallback
    ensures |levels| > 0 ==> r.1.lastState == Some(levels[|levels| - 1])
    ensures |levels| == 0 ==> r.1 == sw
    decreases |levels|
  {
    if |levels| == 0 then ([], sw)
    else
      var (sw1, note) := HookChanged(sw, levels[0]);
      var (rest, fin) := Edges(sw1, levels[1..]);
      ((if note.Some? then [note.value] else []) + rest, fin)
  }

  /** Without a callback the state still follows the pin, but nothing is ever reported. */
  lemma {:induction false} NoCallbackNoReports(sw: Switch, levels: seq<Level>)
    requires !sw.hasCallback
    ensures Edges(sw, levels).0 == []
    decreases |levels|
  {
    if |levels| > 0 {
      NoCallbackNoReports(HookChanged(sw, levels[0]).0, levels[1..]);
    }
  }

  /**
   * The reported verdicts alternate between off hook and on hook, and the first one differs
   * from the verdict of the state the switch started in: a level repeated is never reported twice.
   */
  lemma {:induction false} ReportsAlternate(sw: Switch, levels: seq<Level>)
    ensures var ns := Edges(sw, levels).0;
      forall i :: 0 <= i < |ns| - 1 ==> ns[i] != ns[i + 1]
    ensures var ns := Edges(sw, levels).0;
      |ns| > 0 && sw.lastState.Some? ==> ns[0] != OffHook(sw.mode, sw.lastState.value)
    decreases |levels|
  {
    if |levels| > 0 {
      var (sw1, note) := HookChanged(sw, levels[0]);
      var rest := Edges(sw1, levels[1..]).0;
      ReportsAlternate(sw1, levels[1..]);
      if note.Some? {
        var ns := [note.value] + rest;
        assert Edges(sw, levels).0 == ns;
        forall i | 0 <= i < |ns| - 1
          ensures ns[i] != ns[i + 1]
        {
          if i > 0 { assert ns[i] == rest[i - 1] && ns[i + 1] == rest[i]; }
        }
      } else {
        assert Edges(sw, levels).0 == rest;
        if sw1.lastState != sw.lastState {
          assert !sw.hasCallback;
          NoCallbackNoReports(sw1, levels[1..]);
        }
      }
    }
  }
}

=== FILE: information_booth.dfy ===
/**
 * The menu of the information booth phone system, used as a concrete tree: a main menu
 * with an information sub-menu (weather, time) and two leaves (jokes, music).
 */
module InformationBooth {
  import opened Wrappers
  import opened TreeNode
  import opened Environment
  import CoreNavigator

  function Weather(): Node { MakeNode("menu/weather_info.mp3") }
  function TimeInfo(): Node { MakeNode("menu/time_info.mp3") }

  function InfoMenu(): Node {
    MakeNode("menu/info_menu.mp3", Some(map["1" := Weather(), "2" := TimeInfo()]))
  }

  /** The root, which is also the main menu of every call. */
  function MainMenu(): (root: Node)
    ensures root.options.Keys == {"1", "2", "3"}
  {
    MakeNode("menu/main_menu.mp3",
             Some(map["1" := InfoMenu(), "2" := MakeNode("menu/jokes.mp3"), "3" := MakeNode("menu/music.mp3")]))
  }

  /** Every path of two keys or fewer from the root that ends at a leaf is one of these four. */
  lemma PlainPaths(ks: seq<string>)
    requires |ks| <= 2 && PlainPath(MainMenu(), ks)
    ensures ks in {["1", "1"], ["1", "2"], ["2"], ["3"]}
  {
    if |ks| == 2 {
      assert ks == [ks[0], ks[1]];
    } else if |ks| == 1 {
      assert ks == [ks[0]];
    }
  }

  /**
   * A caller who presses 1 then 1 and stays on the line for five hook checks hears the main
   * menu, the information menu and the weather report, whatever the clock says; the weather
   * leaf then returns to the main menu, which finds the caller gone.
   */
  lemma WeatherCall(e: Env)
    requires e.hook == [true, true, true, true, true] && e.input == Keys(["1", "1"]) && e.playing == []
    ensures Prompts(CoreNavigator.Navigate(MainMenu(), Some(MainMenu()), e).trace) ==
      ["menu/main_menu.mp3", "menu/info_menu.mp3", "menu/weather_info.mp3"]
  {
    var ks := ["1", "1"];
    assert ks[1..] == ["1"] && ks[1..][1..] == [];
    assert MainMenu().options["1"] == InfoMenu() && InfoMenu().options["1"] == Weather();
    assert PlainPath(Weather(), []);
    assert PlainPath(InfoMenu(), ["1"]);
    assert PlainPath(MainMenu(), ks);
    CoreNavigator.PathPlaysPrompts(MainMenu(), Some(MainMenu()), ks, e);
    assert PathPrompts(MainMenu(), ks) == ["menu/main_menu.mp3", "menu/info_menu.mp3", "menu/weather_info.mp3"];
  }

}

=== FILE: keyboard_simulator.dfy ===
/**
 * The keyboard stand-in for the keypad in the desktop test harness: typed lines are
 * filtered into keypad keys for the input queue, `q` quits, and an accepted key sounds its
 * DTMF tone when an audio player is attached.
 */
module KeyboardSimulator {
  import ConfigStore
  import Dtmf

  /** The characters the filter tests a line against. */
  const KeypadChars: string := "0123456789*#"

  /** `filename_map` of `play_dtmf_tone`. */
  const PlayerFiles: map<string, string> := map[
    "0" := "0.wav", "1" := "1.wav", "2" := "2.wav", "3" := "3.wav",
    "4" := "4.wav", "5" := "5.wav", "6" := "6.wav", "7" := "7.wav",
    "8" := "8.wav", "9" := "9.wav", "*" := "star.wav", "#" := "pound.wav"
  ]

  /** The player looks up exactly the generator's keys, under the generator's file names. */
  lemma PlayerAgreesWithGenerator()
    ensures PlayerFiles.Keys == Dtmf.Frequencies.Keys
    ensures forall k :: k in PlayerFiles ==> PlayerFiles[k] == Dtmf.ToneFile(k)
  {
  }

  /**
   * `play_dtmf_tone(key)`: true only for one of the twelve keys whose tone file exists
   * (`fileExists` of its name in the tone directory) and whose playback does not raise.
   */
  function PlayDtmfTone(key: string, fileExists: string -> bool, playRaises: bool): (played: bool)
    ensures played <==> key in Dtmf.Frequencies && fileExists(Dtmf.ToneFile(key)) && !playRaises
  {
    PlayerAgreesWithGenerator();
    key in PlayerFiles && fileExists(PlayerFiles[key]) && !playRaises
  }

  /** `key.lower() == 'q'`: the only strings that lower-case to `q`. */
  predicate IsQuit(line: string) {
    line == "q" || line == "Q"
  }

  /** What the input loop does with one typed line. */
  datatype LineOutcome = Quit | Accept(key: string) | Reject(line: string)

  /**
   * A line that lower-cases to `q` quits; a line that occurs in `0123456789*#` is a key
   * (so `12`, `9*#` and the empty line are accepted); anything else is rejected.
   */
  function Classify(line: string): (o: LineOutcome)
    ensures o.Quit? <==> IsQuit(line)
    ensures o.Accept? <==> !o.Quit? && ConfigStore.IsSubstring(line, KeypadChars)
    ensures o.Accept? ==> o.key == line
  {
    if IsQuit(line) then Quit
    else if ConfigStore.IsSubstring(line, KeypadChars) then Accept(line)
    else Reject(line)
  }

  /** Every single keypad key is accepted, and an accepted one-character line is a keypad key. */
  lemma SingleKeysAccepted(line: string)
    requires |line| == 1
    ensures Classify(line).Accept? <==> line in Dtmf.Frequencies
  {
    assert line == [line[0]];
    SingleCharIff(line[0], KeypadChars);
    assert line in Dtmf.Frequencies <==> line[0] in KeypadChars by {
      KeysAreKeypadChars(line[0]);
    }
  }

  /** The one-character strings the tone table has keys for are those of `KeypadChars`. */
  lemma KeysAreKeypadChars(c: char)
    ensures [c] in Dtmf.Frequencies <==> c in KeypadChars
  {
    assert Dtmf.Frequencies.Keys == {"0", "1", "2", "3", "4", "5", "6", "7", "8", "9", "*", "#"};
    assert c in KeypadChars <==> c in {'0', '1', '2', '3', '4', '5', '6', '7', '8', '9', '*', '#'};
  }

  /** A one-character string occurs in `s` exactly when its character does. */
  lemma SingleCharIff(c: char, s: string)
    ensures ConfigStore.IsSubstring([c], s) <==> c in s
  {
    if c in s {
      var i :| 0 <= i < |s| && s[i] == c;
      assert s[i..i + 1] == [c];
      assert ConfigStore.OccursAt([c], s, i);
    }
    if ConfigStore.IsSubstring([c], s) {
      var i :| 0 <= i <= |s| && ConfigStore.OccursAt([c], s, i);
      assert s[i..i + 1][0] == s[i];
    }
  }

  /** The filter accepts the multi-key and empty lines the test harness documents. */
  lemma AcceptExamples()
    ensures Classify("12") == Accept("12") && Classify("9*#") == Accept("9*#") && Classify("") == Accept("")
  {
    assert ConfigStore.OccursAt("12", KeypadChars, 1);
    assert ConfigStore.OccursAt("9*#", KeypadChars, 9);
    assert ConfigStore.OccursAt("", KeypadChars, 0);
  }

  /** The filter rejects keys typed out of order. */
  lemma RejectOutOfOrder()
    ensures Classify("21") == Reject("21")
  {
    forall i | 0 <= i && i + 2 <= |KeypadChars|
      ensures !ConfigStore.OccursAt("21", KeypadChars, i)
    {
      assert KeypadChars[i..i + 2][0] == KeypadChars[i];
      assert KeypadChars[i..i + 2][1] == KeypadChars[i + 1];
    }
  }

  /** The filter rejects a foreign character, and the upper-case `Q` quits like `q`. */
  lemma RejectForeign()
    ensures Classify("x") == Reject("x")
    ensures Classify("Q") == Quit
  {
    SingleCharIff('x', KeypadChars);
    assert "x" == ['x'];
  }

  /**
   * The filter the warning text asks for ("use 0-9, *, or #"): a line is a key only when it
   * is exactly one keypad key, so an empty line and a run of keys are rejected.
   */
  function ClassifyIntended(line: string): (o: LineOutcome)
    ensures o.Quit? <==> IsQuit(line)
    ensures o.Accept? <==> !IsQuit(line) && line in Dtmf.Frequencies
    ensures o.Accept? ==> o.key == line && |line| == 1 && line[0] in KeypadChars
  {
    if IsQuit(line) then Quit
    else if line in PlayerFiles then
      PlayerAgreesWithGenerator();
      assert line in Dtmf.Frequencies;
      assert |line| == 1 && line[0] in KeypadChars by {
        assert line == [line[0]];
        KeysAreKeypadChars(line[0]);
      }
      Accept(line)
    else
      PlayerAgreesWithGenerator();
      Reject(line)
  }

  /**
   * The intended filter accepts exactly the one-character lines the written one accepts,
   * and quits on the same lines.
   */
  lemma IntendedNarrowsFilter(line: string)
    ensures ClassifyIntended(line).Quit? <==> Classify(line).Quit?
    ensures ClassifyIntended(line).Accept? <==> Classify(line).Accept? && |line| == 1
  {
    if |line| == 1 {
      SingleKeysAccepted(line);
    }
  }

  /** The written filter queues the empty line and a run of keys, which the intended one rejects. */
  lemma WrittenFilterAcceptsNonKeys()
    ensures Classify("").Accept? && ClassifyIntended("") == Reject("")
    ensures Classify("12").Accept? && ClassifyIntended("12") == Reject("12")
  {
    AcceptExamples();
    IntendedNarrowsFilter("");
    IntendedNarrowsFilter("12");
  }

  /**
   * What the input loop did: the keys it queued, the keys it asked the audio player to
   * sound (`play_dtmf_tone` may still sound nothing, see `PlayDtmfTone`), whether `q` ended it.
   */
  datatype Session = Session(queued: seq<string>, tones: seq<string>, quit: bool)

  /**
   * `_input_loop` over the typed lines: accepted lines are queued in order, each after a
   * request for its tone when an audio player is attached; `q` stops the loop, and so does the end of input.
   */
  function InputLoop(lines: seq<string>, audio: bool): (s: Session)
    ensures |s.queued| <= |lines|
    ensures forall k :: k in s.queued ==> ConfigStore.IsSubstring(k, KeypadChars) && k != "q" && k != "Q"
    ensures s.tones == if audio then s.queued else []
  {
    if |lines| == 0 then Session([], [], false)
    else
      var rest := InputLoop(lines[1..], audio);
      match Classify(lines[0])
      case Quit => Session([], [], true)
      case Accept(k) => Session([k] + rest.queued, (if audio then [k] else []) + rest.tones, rest.quit)
      case Reject(_) => rest
  }

  /** Nothing typed after `q` reaches the queue. */
  lemma {:induction false} NothingAfterQuit(before: seq<string>, after: seq<string>, audio: bool)
    requires forall i :: 0 <= i < |before| ==> !IsQuit(before[i])
    ensures InputLoop(before + ["q"] + after, audio).queued == InputLoop(before, audio).queued
  {
    if |before| == 0 {
      assert before + ["q"] + after == ["q"] + after;
    } else {
      assert (before + ["q"] + after)[1..] == before[1..] + ["q"] + after;
      assert (before + ["q"] + after)[0] == before[0];
      NothingAfterQuit(before[1..], after, audio);
    }
  }

  /** The loop reports a quit exactly when some line is `q` or `Q`. */
  lemma {:induction false} QuitIff(lines: seq<string>, audio: bool)
    ensures InputLoop(lines, audio).quit <==> exists i :: 0 <= i < |lines| && IsQuit(lines[i])
  {
    if |lines| > 0 {
      var rest := lines[1..];
      QuitIff(rest, audio);
      if IsQuit(lines[0]) {
        assert InputLoop(lines, audio).quit;
      } else {
        assert InputLoop(lines, audio).quit == InputLoop(rest, audio).quit;
        if InputLoop(rest, audio).quit {
          var i :| 0 <= i < |rest| && IsQuit(rest[i]);
          assert lines[i + 1] == rest[i];
        }
        if exists i :: 0 <= i < |lines| && IsQuit(lines[i]) {
          var i :| 0 <= i < |lines| && IsQuit(lines[i]);
          assert i != 0;
          assert rest[i - 1] == lines[i];
        }
      }
    }
  }

  /** Without a quit, every accepted line is queued, and nothing but typed lines is. */
  lemma {:induction false} QueueHoldsAcceptedLines(lines: seq<string>, audio: bool)
    requires forall i :: 0 <= i < |lines| ==> !IsQuit(lines[i])
    ensures forall i :: 0 <= i < |lines| && Classify(lines[i]).Accept? ==> lines[i] in InputLoop(lines, audio).queued
    ensures forall k :: k in InputLoop(lines, audio).queued ==> k in lines
  {
    if |lines| > 0 {
      var rest := lines[1..];
      QueueHoldsAcceptedLines(rest, audio);
      var q := InputLoop(lines, audio).queued;
      var qr := InputLoop(rest, audio).queued;
      assert q == (if Classify(lines[0]).Accept? then [lines[0]] + qr else qr);
      forall i | 0 <= i < |lines| && Classify(lines[i]).Accept?
        ensures lines[i] in q
      {
        if i > 0 {
          assert rest[i - 1] == lines[i];
        }
      }
      forall k | k in q
        ensures k in lines
      {
        if k in qr {
          assert k in rest;
        }
      }
    }
  }
}

=== FILE: keypad.dfy ===
/**
 * The matrix keypad: the layout chosen from the number of row pins, one scan of the
 * matrix, and the debounce filter of the scanning loop. A scan is given as the column
 * levels read while each row is driven LOW (`low[r][c]` is true when column `c` reads LOW
 * during row `r`). Times are integer milliseconds.
 */
module Keypad {
  import opened Wrappers

  datatype KeypadError = WrongRowCount(rows: nat) | KeyOutsideLayout(row: nat, col: nat)

  const FourRows: seq<seq<string>> := [["1", "2", "3"], ["4", "5", "6"], ["7", "8", "9"], ["*", "0", "#"]]
  const ThreeRows: seq<seq<string>> := [["4", "5", "6"], ["7", "8", "9"], ["*", "0", "#"]]

  /** The key layout for a number of row pins: 4 rows, or the lower 3 rows of it; any other count is an error. */
  function LayoutFor(rows: nat): (r: Result<seq<seq<string>>, KeypadError>)
    ensures r.Ok? <==> rows == 3 || rows == 4
    ensures r.Ok? ==> |r.value| == rows && forall i :: 0 <= i < rows ==> |r.value[i]| == 3
    ensures r.Err? ==> r.error == WrongRowCount(rows)
  {
    if rows == 4 then Ok(FourRows)
    else if rows == 3 then Ok(ThreeRows)
    else Err(WrongRowCount(rows))
  }

  /** The three-row layout is the four-row one without its top row `1 2 3`. */
  lemma ThreeRowsDropTopRow()
    ensures LayoutFor(3).value == LayoutFor(4).value[1..]
    ensures forall i :: 0 <= i < 3 ==> "1" !in LayoutFor(3).value[i] && "2" !in LayoutFor(3).value[i]
  {
  }

  /** Cell `(i, j)` reads LOW. */
  predicate IsLow(low: seq<seq<bool>>, i: int, j: int) {
    0 <= i < |low| && 0 <= j < |low[i]| && low[i][j]
  }

  /** `(i, j)` is the last LOW cell in row-major order, and it lies inside the layout. */
  ghost predicate LastLowCell(keys: seq<seq<string>>, low: seq<seq<bool>>, i: int, j: int) {
    && IsLow(low, i, j) && i < |keys| && j < |keys[i]|
    && forall a, b :: IsLow(low, a, b) ==> a < i || (a == i && b <= j)
  }

  /**
   * `scan_keypad`: drives each row LOW in turn and reads every column; the key of the last
   * LOW cell wins, no LOW cell gives no key, and a LOW cell beyond the layout's columns is
   * the indexing error the source raises.
   */
  method ScanKeypad(keys: seq<seq<string>>, low: seq<seq<bool>>) returns (r: Result<Option<string>, KeypadError>)
    requires |low| == |keys|
    ensures r.Err? <==> exists i, j :: IsLow(low, i, j) && j >= |keys[i]|
    ensures r == Ok(None) <==> forall i, j :: !IsLow(low, i, j)
    ensures r.Ok? && r.value.Some? ==> exists i, j :: LastLowCell(keys, low, i, j) && r.value.value == keys[i][j]
  {
    var key: Option<string> := None;
    ghost var ki, kj := 0, 0;
    var i := 0;
    while i < |low|
      invariant 0 <= i <= |low|
      invariant forall a, b :: IsLow(low, a, b) && a < i ==> b < |keys[a]|
      invariant key.None? <==> forall a, b :: a < i ==> !IsLow(low, a, b)
      invariant key.Some? ==> IsLow(low, ki, kj) && ki < i && kj < |keys[ki]| && key.value == keys[ki][kj]
      invariant key.Some? ==> forall a, b :: IsLow(low, a, b) && a < i ==> a < ki || (a == ki && b <= kj)
    {
      var j := 0;
      while j < |low[i]|
        invariant 0 <= j <= |low[i]|
        invariant forall a, b :: IsLow(low, a, b) && (a < i || (a == i && b < j)) ==> b < |keys[a]|
        invariant key.None? <==> forall a, b :: (a < i || (a == i && b < j)) ==> !IsLow(low, a, b)
        invariant key.Some? ==> IsLow(low, ki, kj) && ki <= i && kj < |keys[ki]| && key.value == keys[ki][kj]
        invariant key.Some? ==> (ki < i || kj < j)
        invariant key.Some? ==> forall a, b :: IsLow(low, a, b) && (a < i || (a == i && b < j)) ==> a < ki || (a == ki && b <= kj)
      {
        if low[i][j] {
          if j >= |keys[i]| {
            assert IsLow(low, i, j);
            return Err(KeyOutsideLayout(i, j));
          }
          key := Some(keys[i][j]);
          ki, kj := i, j;
        } else {
          assert !IsLow(low, i, j);
        }
        assert key.Some? ==> IsLow(low, ki, kj) && (ki < i || kj <= j);
        j := j + 1;
      }
      i := i + 1;
    }
    if key.Some? {
      assert LastLowCell(keys, low, ki, kj);
    }
    return Ok(key);
  }

  // ----- the debounce filter of the scanning loop -----

  /** The debounce interval: 0.3 s. */
  const DebounceMs: int := 300

  /** One scan of the loop: the key it found, if any, and the clock when it was taken. */
  datatype Scan = Scan(key: Option<string>, ms: int)

  /** The loop's memory: the previous scan's key and the time of the last enqueued key. */
  datatype ScanState = ScanState(lastKey: Option<string>, lastKeyMs: int)

  /** A scan emits nothing, or enqueues a key, after playing its tone when an audio handler is present. */
  datatype Outcome = Quiet | Pressed(key: string, tone: bool)

  /** The loop starts with no previous key and a last enqueue at time 0. */
  const InitialState := ScanState(None, 0)

  /**
   * One pass of the loop: a key that is present, non-empty and differs from the previous
   * scan's key is enqueued when more than the debounce interval has passed since the last
   * enqueue; the previous key is then set to this scan's key whatever happened.
   */
  function Step(st: ScanState, s: Scan, audio: bool): (r: (Outcome, ScanState))
    ensures r.1.lastKey == s.key
    ensures r.0.Pressed? <==> s.key.Some? && s.key.value != "" && s.key != st.lastKey && s.ms - st.lastKeyMs > DebounceMs
    ensures r.0.Pressed? ==> s.key == Some(r.0.key) && r.0.tone == audio && r.1.lastKeyMs == s.ms
    ensures r.0.Quiet? ==> r.1.lastKeyMs == st.lastKeyMs
  {
    if s.key.Some? && s.key.value != "" && s.key != st.lastKey && s.ms - st.lastKeyMs > DebounceMs then
      (Pressed(s.key.value, audio), ScanState(s.key, s.ms))
    else (Quiet, st.(lastKey := s.key))
  }

  /** The loop over a sequence of scans: one outcome per scan and the final state. */
  function Debounce(st: ScanState, scans: seq<Scan>, audio: bool): (r: (seq<Outcome>, ScanState))
    ensures |r.0| == |scans|
    ensures |scans| > 0 ==> r.1.lastKey == scans[|scans| - 1].key
    ensures |scans| == 0 ==> r.1 == st
    decreases |scans|
  {
    if |scans| == 0 then ([], st)
    else
      var (o, st1) := Step(st, scans[0], audio);
      var (rest, fin) := Debounce(st1, scans[1..], audio);
      ([o] + rest, fin)
  }

  /** The key the scan before `i` found (the loop's `last_key` when scan `i` is handled). */
  function PreviousKey(st: ScanState, scans: seq<Scan>, i: nat): Option<string>
    requires i < |scans|
  {
    if i == 0 then st.lastKey else scans[i - 1].key
  }

  /**
   * A key is enqueued only by a scan that found it, non-empty, when the previous scan found
   * something else.
   */
  lemma {:induction false} PressNeedsChange(st: ScanState, scans: seq<Scan>, audio: bool, i: nat)
    requires i < |scans| && Debounce(st, scans, audio).0[i].Pressed?
    ensures scans[i].key == Some(Debounce(st, scans, audio).0[i].key)
    ensures Debounce(st, scans, audio).0[i].key != ""
    ensures scans[i].key != PreviousKey(st, scans, i)
    decreases i
  {
    var (o, st1) := Step(st, scans[0], audio);
    if i > 0 {
      assert Debounce(st, scans, audio).0[i] == Debounce(st1, scans[1..], audio).0[i - 1];
      PressNeedsChange(st1, scans[1..], audio, i - 1);
    }
  }

  /** While a key is held, every scan after the first is quiet: a held key is enqueued at most once. */
  lemma HeldKeyQuiet(st: ScanState, scans: seq<Scan>, audio: bool, i: nat)
    requires 0 < i < |scans| && scans[i - 1].key == scans[i].key
    ensures Debounce(st, scans, audio).0[i].Quiet?
  {
    if Debounce(st, scans, audio).0[i].Pressed? {
      PressNeedsChange(st, scans, audio, i);
    }
  }

  /** With no key enqueued before scan `j`, scan `j` enqueues only beyond the debounce interval of the starting state. */
  lemma {:induction false} FirstPressGap(st: ScanState, scans: seq<Scan>, audio: bool, j: nat)
    requires j < |scans| && Debounce(st, scans, audio).0[j].Pressed?
    requires forall k :: 0 <= k < j ==> Debounce(st, scans, audio).0[k].Quiet?
    ensures scans[j].ms - st.lastKeyMs > DebounceMs
    decreases j
  {
    var (o, st1) := Step(st, scans[0], audio);
    if j > 0 {
      assert o == Debounce(st, scans, audio).0[0];
      forall k | 0 <= k < j - 1
        ensures Debounce(st1, scans[1..], audio).0[k].Quiet?
      {
        assert Debounce(st1, scans[1..], audio).0[k] == Debounce(st, scans, audio).0[k + 1];
      }
      assert Debounce(st1, scans[1..], audio).0[j - 1] == Debounce(st, scans, audio).0[j];
      FirstPressGap(st1, scans[1..], audio, j - 1);
    }
  }

  /** Two consecutive enqueues lie more than the debounce interval apart. */
  lemma {:induction false} PressesSpaced(st: ScanState, scans: seq<Scan>, audio: bool, i: nat, j: nat)
    requires i < j < |scans|
    requires Debounce(st, scans, audio).0[i].Pressed? && Debounce(st, scans, audio).0[j].Pressed?
    requires forall k :: i < k < j ==> Debounce(st, scans, audio).0[k].Quiet?
    ensures scans[j].ms - scans[i].ms > DebounceMs
    decreases i
  {
    var (o, st1) := Step(st, scans[0], audio);
    var outs := Debounce(st, scans, audio).0;
    var tail := Debounce(st1, scans[1..], audio).0;
    assert outs == [o] + tail;
    assert tail[j - 1] == outs[j] && scans[1..][j - 1] == scans[j];
    if i == 0 {
      assert st1.lastKeyMs == scans[0].ms;
      assert forall k :: 0 <= k < j - 1 ==> tail[k] == outs[k + 1];
      FirstPressGap(st1, scans[1..], audio, j - 1);
    } else {
      assert tail[i - 1] == outs[i] && scans[1..][i - 1] == scans[i];
      assert forall k :: i - 1 < k < j - 1 ==> tail[k] == outs[k + 1];
      PressesSpaced(st1, scans[1..], audio, i - 1, j - 1);
    }
  }

  /** Every enqueued key is a key of the layout, when every scan found either nothing or a layout key. */
  lemma PressesFromLayout(st: ScanState, scans: seq<Scan>, audio: bool, keys: seq<seq<string>>)
    requires forall i :: 0 <= i < |scans| && scans[i].key.Some? ==>
      exists r, c :: 0 <= r < |keys| && 0 <= c < |keys[r]| && keys[r][c] == scans[i].key.value
    ensures forall i :: 0 <= i < |scans| && Debounce(st, scans, audio).0[i].Pressed? ==>
      exists r, c :: 0 <= r < |keys| && 0 <= c < |keys[r]| && keys[r][c] == Debounce(st, scans, audio).0[i].key
  {
    forall i | 0 <= i < |scans| && Debounce(st, scans, audio).0[i].Pressed?
      ensures exists r, c :: 0 <= r < |keys| && 0 <= c < |keys[r]| && keys[r][c] == Debounce(st, scans, audio).0[i].key
    {
      PressNeedsChange(st, scans, audio, i);
    }
  }

  /** A tone precedes an enqueue exactly when an audio handler is present. */
  lemma {:induction false} TonesFollowAudio(st: ScanState, scans: seq<Scan>, audio: bool, i: nat)
    requires i < |scans| && Debounce(st, scans, audio).0[i].Pressed?
    ensures Debounce(st, scans, audio).0[i].tone == audio
    decreases i
  {
    var (o, st1) := Step(st, scans[0], audio);
    if i > 0 {
      assert Debounce(st, scans, audio).0[i] == Debounce(st1, scans[1..], audio).0[i - 1];
      TonesFollowAudio(st1, scans[1..], audio, i - 1);
    }
  }
}

=== FILE: legacy_navigator.dfy ===
/**
 * The legacy navigator of `payphone/PhoneTree.py`. Its node carries a message instead of an
 * audio file and its own input queue; it has no hook check and no timeout, plays by
 * announcing the message, and spins on its queue until a valid choice arrives.
 *
 * Queues are named by `QueueId` and their contents live in the navigation state, so that
 * handing a queue to a child (`update_input_queue`) is a change of name. The Python loop
 * waits forever on an empty queue; the model stops there with `AwaitingInput`. Each
 * `navigate` call spends one unit of `fuel`, which bounds the otherwise unbounded
 * re-entries of the main menu.
 */
module LegacyNavigator {
  import opened Wrappers
  import opened TreeNode

  type QueueId = nat

  datatype LegacyNode = LegacyNode(message: string, options: map<string, LegacyNode>,
                                   action: Option<ActionTag>, queue: QueueId)

  /** The contents of every queue, and the scripted results of the actions called. */
  datatype State = State(queues: map<QueueId, seq<string>>, results: seq<bool>)

  datatype Event = Announce(message: string) | Invoke(tag: ActionTag) | Rejected(choice: string)

  /** How a navigation stops: the call ended, it waits on an empty queue, or the fuel ran out. */
  datatype Ending = Finished | AwaitingInput | OutOfFuel

  datatype LegacyRun = LegacyRun(events: seq<Event>, ending: Ending, state: State)

  function Prefix(events: seq<Event>, r: LegacyRun): LegacyRun {
    LegacyRun(events + r.events, r.ending, r.state)
  }

  /** The queued choices of `q`; a queue never written to is empty. */
  function Queued(st: State, q: QueueId): seq<string> {
    if q in st.queues then st.queues[q] else []
  }

  /**
   * The constructor: a missing or empty options dictionary becomes a new empty one, and a
   * node given no queue gets the new queue `newQueue`, which no other node uses.
   */
  function MakeLegacy(message: string, options: map<string, LegacyNode>, action: Option<ActionTag>,
                      queue: Option<QueueId>, newQueue: QueueId): (n: LegacyNode)
    ensures n.message == message && n.options == options && n.action == action
    ensures n.queue == (if queue.Some? then queue.value else newQueue)
  {
    LegacyNode(message, options, action, queue.GetOr(newQueue))
  }

  /** `add_option(key, child)`. */
  function AddOption(n: LegacyNode, key: string, child: LegacyNode): (r: LegacyNode)
    ensures key in r.options && r.options[key] == child
    ensures forall k :: k != key ==> (k in r.options <==> k in n.options)
    ensures forall k :: k != key && k in n.options ==> r.options[k] == n.options[k]
    ensures r.message == n.message && r.action == n.action && r.queue == n.queue
  {
    n.(options := n.options[key := child])
  }

  /** `execute_action()`: the action's result, or true when the node has none. */
  function ExecuteAction(n: LegacyNode, st: State): (r: (bool, State))
    ensures n.action.None? ==> r == (true, st)
    ensures n.action.Some? ==> r.0 == (|st.results| > 0 && st.results[0])
    ensures r.1.queues == st.queues
    ensures n.action.Some? && |st.results| > 0 ==> r.1.results == st.results[1..]
  {
    if n.action.None? then (true, st)
    else if |st.results| == 0 then (false, st)
    else (st.results[0], st.(results := st.results[1..]))
  }

  function ActionEvents(n: LegacyNode): seq<Event> {
    if n.action.Some? then [Invoke(n.action.value)] else []
  }

  /** `navigate(main_menu)` on node `n`. */
  function Navigate(n: LegacyNode, main: Option<LegacyNode>, st: State, fuel: nat): (r: LegacyRun)
    ensures fuel == 0 ==> r == LegacyRun([], OutOfFuel, st)
    ensures fuel > 0 ==> |r.events| > 0 && r.events[0] == Announce(n.message)
    decreases fuel, 0, 0
  {
    if fuel == 0 then LegacyRun([], OutOfFuel, st)
    else
      var (ok, st1) := ExecuteAction(n, st);
      var pre := [Announce(n.message)] + ActionEvents(n);
      if !ok || |n.options| == 0 then
        Prefix(pre, if main.Some? then Navigate(main.value, main, st1, fuel - 1) else LegacyRun([], Finished, st1))
      else Prefix(pre, WaitChoice(n, main, st1, fuel - 1))
  }

  /** The `while True` loop: take a queued choice; descend on a valid one, discard any other. */
  function WaitChoice(n: LegacyNode, main: Option<LegacyNode>, st: State, fuel: nat): (r: LegacyRun)
    ensures |Queued(st, n.queue)| == 0 ==> r == LegacyRun([], AwaitingInput, st)
    ensures |Queued(st, n.queue)| > 0 && Queued(st, n.queue)[0] !in n.options ==>
      |r.events| > 0 && r.events[0] == Rejected(Queued(st, n.queue)[0])
    ensures |Queued(st, n.queue)| > 0 && Queued(st, n.queue)[0] in n.options && fuel > 0 ==>
      |r.events| > 0 && r.events[0] == Announce(n.options[Queued(st, n.queue)[0]].message)
    decreases fuel, 1, |Queued(st, n.queue)|
  {
    var q := Queued(st, n.queue);
    if |q| == 0 then LegacyRun([], AwaitingInput, st)
    else
      var st1 := st.(queues := st.queues[n.queue := q[1..]]);
      if q[0] in n.options then Navigate(n.options[q[0]].(queue := n.queue), main, st1, fuel)
      else Prefix([Rejected(q[0])], WaitChoice(n, main, st1, fuel))
  }

  /**
   * A falsy action result announces, calls the action and re-enters the main menu with
   * itself as the main menu, or ends the call when there is none; nothing is read from the queue.
   */
  lemma FalsyActionReentersMain(n: LegacyNode, main: Option<LegacyNode>, st: State, fuel: nat)
    requires fuel > 0 && n.action.Some? && (|st.results| == 0 || !st.results[0])
    ensures var st1 := ExecuteAction(n, st).1;
      st1.queues == st.queues &&
      Navigate(n, main, st, fuel) ==
        Prefix([Announce(n.message), Invoke(n.action.value)],
               if main.Some? then Navigate(main.value, main, st1, fuel - 1) else LegacyRun([], Finished, st1))
  {
  }

  /** A node with no options re-enters the main menu, or the call ends there. */
  lemma LeafReentersMain(n: LegacyNode, main: Option<LegacyNode>, st: State, fuel: nat)
    requires fuel > 0 && n.action.None? && |n.options| == 0
    ensures Navigate(n, main, st, fuel) ==
      Prefix([Announce(n.message)],
             if main.Some? then Navigate(main.value, main, st, fuel - 1) else LegacyRun([], Finished, st))
  {
  }

  /** A valid choice gives the child this node's queue, then descends with the same main menu. */
  lemma ValidChoiceHandsQueue(n: LegacyNode, main: Option<LegacyNode>, st: State, fuel: nat)
    requires |Queued(st, n.queue)| > 0 && Queued(st, n.queue)[0] in n.options
    ensures var q := Queued(st, n.queue);
      WaitChoice(n, main, st, fuel) ==
        Navigate(n.options[q[0]].(queue := n.queue), main, st.(queues := st.queues[n.queue := q[1..]]), fuel)
  {
  }

  /** An invalid choice is taken off the queue and reported; nothing is replayed and the wait goes on. */
  lemma InvalidChoiceDiscarded(n: LegacyNode, main: Option<LegacyNode>, st: State, fuel: nat)
    requires |Queued(st, n.queue)| > 0 && Queued(st, n.queue)[0] !in n.options
    ensures var q := Queued(st, n.queue);
      WaitChoice(n, main, st, fuel) ==
        Prefix([Rejected(q[0])], WaitChoice(n, main, st.(queues := st.queues[n.queue := q[1..]]), fuel))
  {
  }

  /**
   * With no hook and no timeout, a menu whose queue holds only invalid choices never gives
   * up: it rejects each of them in order, empties its queue and keeps waiting.
   */
  lemma {:induction false} InvalidChoicesKeepWaiting(n: LegacyNode, main: Option<LegacyNode>, st: State, fuel: nat)
    requires forall i :: 0 <= i < |Queued(st, n.queue)| ==> Queued(st, n.queue)[i] !in n.options
    ensures WaitChoice(n, main, st, fuel).ending == AwaitingInput
    ensures |WaitChoice(n, main, st, fuel).events| == |Queued(st, n.queue)|
    ensures forall i :: 0 <= i < |Queued(st, n.queue)| ==>
      WaitChoice(n, main, st, fuel).events[i] == Rejected(Queued(st, n.queue)[i])
    ensures Queued(WaitChoice(n, main, st, fuel).state, n.queue) == []
    decreases |Queued(st, n.queue)|
  {
    var q := Queued(st, n.queue);
    if |q| > 0 {
      var st1 := st.(queues := st.queues[n.queue := q[1..]]);
      assert Queued(st1, n.queue) == q[1..];
      InvalidChoicesKeepWaiting(n, main, st1, fuel);
    }
  }

  /** The rejections of the invalid choices `cs`, in queue order. */
  function Rejections(cs: seq<string>): (r: seq<Event>)
    ensures |r| == |cs| && forall i {:trigger r[i]} :: 0 <= i < |cs| ==> r[i] == Rejected(cs[i])
  {
    if |cs| == 0 then [] else [Rejected(cs[0])] + Rejections(cs[1..])
  }

  /**
   * Choices are consumed in the order they were queued: the invalid ones ahead of the first
   * valid choice are rejected one by one, then the menu navigates to that choice's child,
   * and the choices queued after it are left, untouched, for the child.
   */
  lemma {:induction false} FirstValidChoiceWins(n: LegacyNode, main: Option<LegacyNode>, st: State, fuel: nat,
                                               bad: seq<string>, good: string, rest: seq<string>)
    requires Queued(st, n.queue) == bad + [good] + rest
    requires forall i :: 0 <= i < |bad| ==> bad[i] !in n.options
    requires good in n.options
    ensures WaitChoice(n, main, st, fuel) ==
      Prefix(Rejections(bad),
             Navigate(n.options[good].(queue := n.queue), main, st.(queues := st.queues[n.queue := rest]), fuel))
    decreases |bad|
  {
    if |bad| == 0 {
      assert Queued(st, n.queue) == [good] + rest by {
        assert bad == [];
      }
      ValidHeadWins(n, main, st, fuel, good, rest);
      assert Rejections(bad) == [];
    } else {
      var later := bad[1..] + [good] + rest;
      var st1 := st.(queues := st.queues[n.queue := later]);
      assert Queued(st, n.queue) == [bad[0]] + later;
      InvalidHeadStep(n, main, st, fuel, bad[0], later);
      FirstValidChoiceWins(n, main, st1, fuel, bad[1..], good, rest);
      var target := st.(queues := st.queues[n.queue := rest]);
      assert st1.(queues := st1.queues[n.queue := rest]) == target;
      PrefixRejections(bad, Navigate(n.options[good].(queue := n.queue), main, target, fuel));
    }
  }

  /** Rejecting the first choice, then the others, is rejecting them all. */
  lemma PrefixRejections(bad: seq<string>, r: LegacyRun)
    requires |bad| > 0
    ensures Prefix([Rejected(bad[0])], Prefix(Rejections(bad[1..]), r)) == Prefix(Rejections(bad), r)
  {
    assert Rejections(bad) == [Rejected(bad[0])] + Rejections(bad[1..]);
    PrefixAssoc([Rejected(bad[0])], Rejections(bad[1..]), r);
  }

  /** Prefixing twice is prefixing once with both event lists, in order. */
  lemma PrefixAssoc(a: seq<Event>, b: seq<Event>, r: LegacyRun)
    ensures Prefix(a, Prefix(b, r)) == Prefix(a + b, r)
  {
    assert a + (b + r.events) == (a + b) + r.events;
  }

  /** An invalid choice at the head of the queue is rejected, and the wait goes on with the rest. */
  lemma InvalidHeadStep(n: LegacyNode, main: Option<LegacyNode>, st: State, fuel: nat, choice: string, later: seq<string>)
    requires Queued(st, n.queue) == [choice] + later && choice !in n.options
    ensures WaitChoice(n, main, st, fuel) ==
      Prefix([Rejected(choice)], WaitChoice(n, main, st.(queues := st.queues[n.queue := later]), fuel))
  {
    var q := Queued(st, n.queue);
    assert q[0] == choice && q[1..] == later;
    InvalidChoiceDiscarded(n, main, st, fuel);
  }

  /** A valid choice at the head of the queue is taken at once; the choices after it stay queued. */
  lemma ValidHeadWins(n: LegacyNode, main: Option<LegacyNode>, st: State, fuel: nat, good: string, rest: seq<string>)
    requires Queued(st, n.queue) == [good] + rest && good in n.options
    ensures WaitChoice(n, main, st, fuel) ==
      Navigate(n.options[good].(queue := n.queue), main, st.(queues := st.queues[n.queue := rest]), fuel)
  {
    var q := Queued(st, n.queue);
    assert q[0] == good && q[1..] == rest;
    ValidChoiceHandsQueue(n, main, st, fuel);
  }
}

=== FILE: pin_connectivity.dfy ===
/**
 * The connectivity test's analysis: which row and column pins a 4x3 keypad uses, deduced
 * from the pin pairs that buttons 2, 4, 6, 8 and 0 connect, and which connections appear
 * when the handset is lifted.
 */
module PinConnectivity {
  import opened Wrappers
  import opened PinLists
  import Keypad

  /** What driving each pin showed while one button was held: pin to the pins it reached. */
  type Connections = PinDict<seq<int>>

  /** Every pin a button's connections involve, driven or reached, with repeats. */
  function Involved(c: Connections): (pins: seq<int>)
    ensures forall x :: x in pins <==> exists i :: 0 <= i < |c| && (x == c[i].0 || x in c[i].1)
  {
    if |c| == 0 then []
    else
      var rest := Involved(c[1..]);
      assert forall x :: x in rest <==> exists i :: 1 <= i < |c| && (x == c[i].0 || x in c[i].1) by {
        forall x
          ensures x in rest <==> exists i :: 1 <= i < |c| && (x == c[i].0 || x in c[i].1)
        {
          if x in rest {
            var i :| 0 <= i < |c[1..]| && (x == c[1..][i].0 || x in c[1..][i].1);
            assert c[i + 1] == c[1..][i];
          }
          if exists i :: 1 <= i < |c| && (x == c[i].0 || x in c[i].1) {
            var i :| 1 <= i < |c| && (x == c[i].0 || x in c[i].1);
            assert c[1..][i - 1] == c[i];
          }
        }
      }
      [c[0].0] + c[0].1 + rest
  }

  /** `pins` holds exactly the two pins `lo < hi`. */
  ghost predicate IsPair(pins: seq<int>, lo: int, hi: int) {
    lo < hi && forall x :: x in pins <==> x == lo || x == hi
  }

  /** The first pin of `pins` other than `a`, if any. */
  function OtherThan(pins: seq<int>, a: int): (r: Option<int>)
    ensures r.Some? ==> r.value in pins && r.value != a
    ensures r.None? ==> forall i :: 0 <= i < |pins| ==> pins[i] == a
  {
    if |pins| == 0 then None
    else if pins[0] != a then Some(pins[0])
    else OtherThan(pins[1..], a)
  }

  /** `tuple(sorted(pins_involved))` when exactly two pins are involved. */
  function PinPair(c: Connections): (r: Option<(int, int)>)
    ensures r.Some? ==> IsPair(Involved(c), r.value.0, r.value.1)
    ensures r.None? ==> forall lo, hi :: !IsPair(Involved(c), lo, hi)
  {
    var pins := Involved(c);
    if |pins| == 0 then
      assert forall lo, hi :: !IsPair(pins, lo, hi) by {
        forall lo, hi | lo < hi
          ensures !IsPair(pins, lo, hi)
        {
          assert lo !in pins;
        }
      }
      None
    else
      var a := pins[0];
      match OtherThan(pins, a)
      case None =>
        assert forall lo, hi :: !IsPair(pins, lo, hi) by {
          forall lo, hi | lo < hi
            ensures !IsPair(pins, lo, hi)
          {
            if lo != a {
              assert lo !in pins;
            } else {
              assert hi !in pins;
            }
          }
        }
        None
      case Some(b) =>
        if forall i :: 0 <= i < |pins| ==> pins[i] == a || pins[i] == b then
          Some(if a < b then (a, b) else (b, a))
        else
          assert forall lo, hi :: !IsPair(pins, lo, hi) by {
            var k :| 0 <= k < |pins| && pins[k] != a && pins[k] != b;
            forall lo, hi | lo < hi
              ensures !IsPair(pins, lo, hi)
            {
              if !(a == lo || a == hi) {
                assert a in pins;
              } else if !(b == lo || b == hi) {
                assert b in pins;
              } else {
                assert pins[k] in pins;
              }
            }
          }
          None
  }

  /** The usable buttons: those whose connections involve exactly two pins, as their sorted pair. */
  function ButtonPairs(tests: map<string, Connections>): (pairs: map<string, (int, int)>)
    ensures forall b :: b in pairs <==> b in tests && PinPair(tests[b]).Some?
    ensures forall b :: b in pairs ==> pairs[b] == PinPair(tests[b]).value
  {
    map b | b in tests && PinPair(tests[b]).Some? :: PinPair(tests[b]).value
  }

  /** The pin of a pair that is not `c`. */
  function Other(pair: (int, int), c: int): int {
    if pair.0 == c then pair.1 else pair.0
  }

  predicate InPair(pair: (int, int), x: int) {
    x == pair.0 || x == pair.1
  }

  /** The pin three pairs share, when they share exactly one. */
  function Common3(p: (int, int), q: (int, int), r: (int, int)): (c: Option<int>)
    requires p.0 < p.1
    ensures c.Some? <==> (InPair(q, p.0) && InPair(r, p.0)) != (InPair(q, p.1) && InPair(r, p.1))
    ensures c.Some? ==> InPair(p, c.value) && InPair(q, c.value) && InPair(r, c.value)
  {
    var first := InPair(q, p.0) && InPair(r, p.0);
    var second := InPair(q, p.1) && InPair(r, p.1);
    if first && !second then Some(p.0)
    else if second && !first then Some(p.1)
    else None
  }

  /** The pin two pairs share, when they share exactly one. */
  function Common2(p: (int, int), q: (int, int)): (c: Option<int>)
    requires p.0 < p.1
    ensures c.Some? <==> InPair(q, p.0) != InPair(q, p.1)
    ensures c.Some? ==> InPair(p, c.value) && InPair(q, c.value)
  {
    Common3(p, q, q)
  }

  /**
   * The present entries of a list of optional pins, in order. Its ensures, `PresentKeepsEvery`
   * and `PresentAppend` pin it down: an entry contributes its value exactly when it is
   * present, and the pieces of a list contribute in the order they come.
   */
  function Present(s: seq<Option<int>>): (r: seq<int>)
    ensures |r| <= |s|
    ensures forall k :: 0 <= k < |r| ==> Some(r[k]) in s
    ensures (forall i :: 0 <= i < |s| ==> s[i].Some?) ==> |r| == |s| && forall i :: 0 <= i < |s| ==> r[i] == s[i].value
    ensures (forall i :: 0 <= i < |s| ==> s[i].None?) ==> r == []
  {
    if |s| == 0 then []
    else (if s[0].Some? then [s[0].value] else []) + Present(s[1..])
  }

  /** No present entry is dropped. */
  lemma {:induction false} PresentKeepsEvery(s: seq<Option<int>>)
    ensures forall i :: 0 <= i < |s| && s[i].Some? ==> s[i].value in Present(s)
  {
    if |s| > 0 {
      PresentKeepsEvery(s[1..]);
      assert forall i :: 1 <= i < |s| ==> s[i] == s[1..][i - 1];
    }
  }

  /** Filtering a concatenation filters each part and keeps them in order. */
  lemma {:induction false} PresentAppend(a: seq<Option<int>>, b: seq<Option<int>>)
    ensures Present(a + b) == Present(a) + Present(b)
  {
    if |a| > 0 {
      var head := if a[0].Some? then [a[0].value] else [];
      assert (a + b)[0] == a[0];
      assert (a + b)[1..] == a[1..] + b;
      assert Present(a + b) == head + Present(a[1..] + b);
      PresentAppend(a[1..], b);
      assert head + (Present(a[1..]) + Present(b)) == (head + Present(a[1..])) + Present(b);
    } else {
      assert a + b == b;
    }
  }

  /** A single entry contributes its value when present and nothing otherwise. */
  lemma PresentSingle(o: Option<int>)
    ensures o.Some? ==> Present([o]) == [o.value]
    ensures o.None? ==> Present([o]) == []
  {
  }

  /** With every entry present, nothing is skipped. */
  lemma {:induction false} PresentAll(s: seq<Option<int>>)
    requires forall i :: 0 <= i < |s| ==> s[i].Some?
    ensures Present(s) == seq(|s|, i requires 0 <= i < |s| => s[i].value)
  {
    if |s| > 0 {
      PresentAll(s[1..]);
    }
  }

  /** Rows and columns all fixed list every pin. */
  lemma RecoveredLists(rows: seq<int>, cols: seq<int>)
    requires |rows| == 4 && |cols| == 3
    ensures Present([Some(rows[0]), Some(rows[1]), Some(rows[2]), Some(rows[3])]) == rows
    ensures Present([Some(cols[0]), Some(cols[1]), Some(cols[2])]) == cols
  {
    WrappedPresent([Some(rows[0]), Some(rows[1]), Some(rows[2]), Some(rows[3])], rows);
    WrappedPresent([Some(cols[0]), Some(cols[1]), Some(cols[2])], cols);
  }

  /** Filtering a list that wraps every pin gives the pins back. */
  lemma WrappedPresent(s: seq<Option<int>>, pins: seq<int>)
    requires |s| == |pins| && forall i :: 0 <= i < |s| ==> s[i] == Some(pins[i])
    ensures Present(s) == pins
  {
    PresentAll(s);
  }

  /** What the two deduction steps found: the rows and columns each fixed. */
  datatype Deduction = Deduction(rows: seq<Option<int>>, cols: seq<Option<int>>)

  /**
   * Step 1 of `analyze_keypad_matrix`: buttons 2, 8 and 0 share column 1, and their other
   * pins are rows 0, 2 and 3. Step 2: buttons 4 and 6 share row 1, and their other pins
   * are columns 0 and 2.
   */
  function Deduce(pairs: map<string, (int, int)>): (d: Deduction)
    requires forall b :: b in pairs ==> pairs[b].0 < pairs[b].1
    ensures |d.rows| == 4 && |d.cols| == 3
  {
    var step1 := if "2" in pairs && "8" in pairs && "0" in pairs then Common3(pairs["2"], pairs["8"], pairs["0"]) else None;
    var step2 := if "4" in pairs && "6" in pairs then Common2(pairs["4"], pairs["6"]) else None;
    var r0 := if step1.Some? then Some(Other(pairs["2"], step1.value)) else None;
    var r2 := if step1.Some? then Some(Other(pairs["8"], step1.value)) else None;
    var r3 := if step1.Some? then Some(Other(pairs["0"], step1.value)) else None;
    var c1 := step1;
    var r1 := step2;
    var c0 := if step2.Some? then Some(Other(pairs["4"], step2.value)) else None;
    var c2 := if step2.Some? then Some(Other(pairs["6"], step2.value)) else None;
    Deduction([r0, r1, r2, r3], [c0, c1, c2])
  }

  /**
   * Each deduction step fixes a row and a column together, so rows are found exactly when
   * columns are: the test for both at the end never separates them.
   */
  lemma DeduceFindsBoth(pairs: map<string, (int, int)>)
    requires forall b :: b in pairs ==> pairs[b].0 < pairs[b].1
    ensures Present(Deduce(pairs).rows) == [] <==> Present(Deduce(pairs).cols) == []
  {
    var d := Deduce(pairs);
    if d.rows[0].Some? {
      assert d.rows[0].value in Present(d.rows) && d.cols[1].value in Present(d.cols);
    } else if d.rows[1].Some? {
      assert d.rows[1].value in Present(d.rows) && d.cols[0].value in Present(d.cols);
    } else {
      assert forall x :: Some(x) !in d.rows && Some(x) !in d.cols;
    }
  }

  /**
   * `analyze_keypad_matrix(button_tests)`: the row pins and column pins in index order,
   * skipping undetermined indices, or nothing when no button is usable or no row and
   * column were found.
   */
  function AnalyzeKeypadMatrix(tests: map<string, Connections>): (r: Option<(seq<int>, seq<int>)>)
    ensures ButtonPairs(tests) == map[] ==> r.None?
    ensures r.Some? <==>
      ButtonPairs(tests) != map[] && Present(Deduce(ButtonPairs(tests)).rows) != [] && Present(Deduce(ButtonPairs(tests)).cols) != []
    ensures r.Some? ==>
      r.value == (Present(Deduce(ButtonPairs(tests)).rows), Present(Deduce(ButtonPairs(tests)).cols))
  {
    var pairs := ButtonPairs(tests);
    if pairs == map[] then None
    else
      var d := Deduce(pairs);
      var rows := Present(d.rows);
      var cols := Present(d.cols);
      if rows != [] && cols != [] then Some((rows, cols)) else None
  }

  /** The expected (row, column) of the buttons the test presses. */
  const ExpectedPositions: map<string, (nat, nat)> :=
    map["2" := (0, 1), "4" := (1, 0), "6" := (1, 2), "8" := (2, 1), "0" := (3, 1)]

  /** The grid the test prints against, the same as the keypad driver's four-row layout. */
  const KeypadKeys: seq<seq<string>> := [["1", "2", "3"], ["4", "5", "6"], ["7", "8", "9"], ["*", "0", "#"]]

  /** Each expected position names its own button on the grid, and the grid is the driver's layout. */
  lemma ExpectedPositionsOnGrid()
    ensures KeypadKeys == Keypad.FourRows
    ensures forall b :: b in ExpectedPositions ==>
      ExpectedPositions[b].0 < |KeypadKeys| && ExpectedPositions[b].1 < |KeypadKeys[ExpectedPositions[b].0]|
      && KeypadKeys[ExpectedPositions[b].0][ExpectedPositions[b].1] == b
  {
  }

  /** A keypad wired as a matrix: four distinct row pins and three distinct column pins, none shared. */
  predicate Wiring(rows: seq<int>, cols: seq<int>) {
    && |rows| == 4 && |cols| == 3
    && Distinct(rows) && Distinct(cols)
    && forall i, j :: 0 <= i < 4 && 0 <= j < 3 ==> rows[i] != cols[j]
  }

  /** What holding a button shows on such a keypad: its row pin reaches its column pin. */
  function Press(rows: seq<int>, cols: seq<int>, b: string): Connections
    requires Wiring(rows, cols) && b in ExpectedPositions
  {
    var (r, c) := ExpectedPositions[b];
    [(rows[r], [cols[c]])]
  }

  /** Two distinct pins as a sorted pair. */
  function SortedPair(x: int, y: int): (p: (int, int))
    requires x != y
    ensures p.0 < p.1
    ensures forall z :: InPair(p, z) <==> z == x || z == y
    ensures Other(p, x) == y && Other(p, y) == x
  {
    if x < y then (x, y) else (y, x)
  }

  /** A single-connection test involves exactly its two pins. */
  lemma OneConnectionPair(x: int, y: int)
    requires x != y
    ensures PinPair([(x, [y])]) == Some(SortedPair(x, y))
  {
    var c := [(x, [y])];
    assert c[1..] == [];
    assert Involved(c) == [x, y];
    assert [x, y][1..] == [y];
    assert OtherThan([x, y], x) == Some(y);
  }

  /** Three pairs through a common pin and three other distinct pins share just that pin. */
  lemma SharedColumn(x1: int, x2: int, x3: int, c: int)
    requires x1 != c && x2 != c && x3 != c && x1 != x2
    ensures Common3(SortedPair(x1, c), SortedPair(x2, c), SortedPair(x3, c)) == Some(c)
  {
    var p := SortedPair(x1, c);
    assert !InPair(SortedPair(x2, c), x1);
  }

  /** The expected buttons after the deduction steps, on a wired keypad. */
  lemma DeductionRecovers(rows: seq<int>, cols: seq<int>, pairs: map<string, (int, int)>)
    requires Wiring(rows, cols)
    requires pairs.Keys == ExpectedPositions.Keys
    requires forall b :: b in pairs ==> pairs[b].0 < pairs[b].1
    requires pairs["2"] == SortedPair(rows[0], cols[1]) && pairs["8"] == SortedPair(rows[2], cols[1])
    requires pairs["0"] == SortedPair(rows[3], cols[1])
    requires pairs["4"] == SortedPair(rows[1], cols[0]) && pairs["6"] == SortedPair(rows[1], cols[2])
    ensures Deduce(pairs) == Deduction([Some(rows[0]), Some(rows[1]), Some(rows[2]), Some(rows[3])],
                                       [Some(cols[0]), Some(cols[1]), Some(cols[2])])
  {
    assert rows[0] != rows[2] && cols[0] != cols[2];
    SharedColumn(rows[0], rows[2], rows[3], cols[1]);
    SharedColumn(cols[0], cols[2], cols[2], rows[1]);
  }

  /** The tests of the five buttons on a wired keypad. */
  function WiredTests(rows: seq<int>, cols: seq<int>): (tests: map<string, Connections>)
    requires Wiring(rows, cols)
    ensures tests.Keys == ExpectedPositions.Keys
  {
    map b | b in ExpectedPositions :: Press(rows, cols, b)
  }

  /** On a wired keypad a test button is usable, as its row pin and column pin. */
  lemma PressedPair(rows: seq<int>, cols: seq<int>, b: string)
    requires Wiring(rows, cols) && b in ExpectedPositions
    ensures var (r, c) := ExpectedPositions[b];
      && r < 4 && c < 3
      && b in ButtonPairs(WiredTests(rows, cols))
      && ButtonPairs(WiredTests(rows, cols))[b] == SortedPair(rows[r], cols[c])
  {
    ExpectedPositionsOnGrid();
    var (r, c) := ExpectedPositions[b];
    OneConnectionPair(rows[r], cols[c]);
  }

  /** On a wired keypad every test button is usable, as its row pin and column pin. */
  lemma WiredPairs(rows: seq<int>, cols: seq<int>)
    requires Wiring(rows, cols)
    ensures var pairs := ButtonPairs(WiredTests(rows, cols));
      && pairs.Keys == ExpectedPositions.Keys
      && pairs["2"] == SortedPair(rows[0], cols[1]) && pairs["8"] == SortedPair(rows[2], cols[1])
      && pairs["0"] == SortedPair(rows[3], cols[1])
      && pairs["4"] == SortedPair(rows[1], cols[0]) && pairs["6"] == SortedPair(rows[1], cols[2])
  {
    forall b | b in ExpectedPositions
      ensures b in ButtonPairs(WiredTests(rows, cols))
    {
      PressedPair(rows, cols, b);
    }
    PressedPair(rows, cols, "2");
    PressedPair(rows, cols, "8");
    PressedPair(rows, cols, "0");
    PressedPair(rows, cols, "4");
    PressedPair(rows, cols, "6");
  }

  /**
   * On a keypad wired as a matrix, the five test buttons recover every row pin and every
   * column pin, in index order.
   */
  lemma MatrixRecovered(rows: seq<int>, cols: seq<int>)
    requires Wiring(rows, cols)
    ensures AnalyzeKeypadMatrix(WiredTests(rows, cols)) == Some((rows, cols))
  {
    var pairs := ButtonPairs(WiredTests(rows, cols));
    WiredPairs(rows, cols);
    DeductionRecovers(rows, cols, pairs);
    assert "2" in pairs;
    var d := Deduce(pairs);
    RecoveredLists(rows, cols);
  }

  // ----- the hook switch -----

  /** The pins of `cs` not already in `before`, in order. */
  function NewPins(cs: seq<int>, before: seq<int>): (r: seq<int>)
    ensures forall x :: x in r <==> x in cs && x !in before
  {
    Filter(cs, c => c !in before)
  }

  /**
   * The connections that appeared when the handset was lifted: a pin not connected on-hook
   * brings all of its connections, a pin that was brings only the new ones, and a pin with
   * nothing new is dropped.
   */
  function NewConnections(offHook: map<int, seq<int>>, onHook: map<int, seq<int>>): (r: map<int, seq<int>>)
    ensures forall p :: p in r <==> p in offHook && (p !in onHook || NewPins(offHook[p], onHook[p]) != [])
    ensures forall p :: p in r && p !in onHook ==> r[p] == offHook[p]
    ensures forall p :: p in r && p in onHook ==> r[p] == NewPins(offHook[p], onHook[p])
  {
    map p | p in offHook && (p !in onHook || NewPins(offHook[p], onHook[p]) != []) ::
      if p !in onHook then offHook[p] else NewPins(offHook[p], onHook[p])
  }

  /** Every reported connection is new: its pin or the connection itself was absent on-hook. */
  lemma OnlyNewConnections(offHook: map<int, seq<int>>, onHook: map<int, seq<int>>)
    ensures forall p, c :: p in NewConnections(offHook, onHook) && c in NewConnections(offHook, onHook)[p] ==>
      c in offHook[p] && (p !in onHook || c !in onHook[p])
  {
  }

  /** Lifting the handset without any change in the connections reports nothing. */
  lemma NothingNewWhenUnchanged(conns: map<int, seq<int>>)
    ensures NewConnections(conns, conns) == map[]
  {
    forall p | p in conns
      ensures NewPins(conns[p], conns[p]) == []
    {
      FilterNone(conns[p], c => c !in conns[p]);
    }
  }
}

=== FILE: pin_diagnostic.dfy ===
/**
 * The pin diagnostic's analysis: snapshots are dictionaries of readings keyed by pin, a
 * comparison walks the pins of the first snapshot in ascending order, the hook test tries
 * three resistor modes in a fixed order and keeps the first that shows a change, and the
 * keypad test gives up when holding '5' changes nothing.
 */
module PinDiagnostic {
  import opened Wrappers
  import opened PinLists

  type Snapshot = PinDict<Reading>

  /** A pin that reads an integer level in both snapshots, with different levels. */
  predicate LevelChanged(before: Snapshot, after: Snapshot, p: int) {
    && Lookup(before, p).Some? && Lookup(after, p).Some?
    && Lookup(before, p).value.Level? && Lookup(after, p).value.Level?
    && Lookup(before, p).value.v != Lookup(after, p).value.v
  }

  /**
   * `compare_states(before, after)`: over `sorted(before.keys())`, the pins present in
   * `after` whose integer levels differ.
   */
  function CompareStates(before: Snapshot, after: Snapshot): (changes: seq<int>)
    requires Distinct(KeysOf(before))
    ensures Increasing(changes)
    ensures forall p :: p in changes <==> LevelChanged(before, after, p)
  {
    Filter(Sort(KeysOf(before)), p => LevelChanged(before, after, p))
  }

  /** A pin missing from `after` is never reported, whatever `before` says. */
  lemma MissingPinNeverChanges(before: Snapshot, after: Snapshot, p: int)
    requires Distinct(KeysOf(before))
    requires p !in KeysOf(after)
    ensures p !in CompareStates(before, after)
  {
  }

  /** The resistor modes the hook test tries. */
  datatype PullMode = InputPullup | InputPulldown | InputFloating

  /** The order in which the hook test tries the modes. */
  const ModeOrder: seq<PullMode> := [InputPullup, InputPulldown, InputFloating]

  /**
   * The search of `test_hook_switch` over a list of modes: `readings(m)` is the on-hook and
   * off-hook snapshot pair taken in mode `m`; the first mode with a change wins.
   */
  function FirstChange(modes: seq<PullMode>, readings: PullMode -> (Snapshot, Snapshot)): (r: Option<(seq<int>, PullMode)>)
    requires forall m :: Distinct(KeysOf(readings(m).0))
    ensures r.Some? ==> r.value.1 in modes && r.value.0 != []
    ensures r.Some? ==> r.value.0 == CompareStates(readings(r.value.1).0, readings(r.value.1).1)
    ensures r.None? <==> forall i :: 0 <= i < |modes| ==> CompareStates(readings(modes[i]).0, readings(modes[i]).1) == []
  {
    if |modes| == 0 then None
    else
      var changes := CompareStates(readings(modes[0]).0, readings(modes[0]).1);
      if changes != [] then Some((changes, modes[0]))
      else
        var r := FirstChange(modes[1..], readings);
        assert r.None? <==> forall i :: 0 <= i < |modes| ==> CompareStates(readings(modes[i]).0, readings(modes[i]).1) == [] by {
          assert forall i :: 1 <= i < |modes| ==> modes[i] == modes[1..][i - 1];
        }
        r
  }

  /** `test_hook_switch()`: the changed pins and the mode of the first mode that shows any, else nothing. */
  function HookSwitchTest(readings: PullMode -> (Snapshot, Snapshot)): (r: Option<(seq<int>, PullMode)>)
    requires forall m :: Distinct(KeysOf(readings(m).0))
    ensures r.Some? ==> r.value.0 != [] && r.value.0 == CompareStates(readings(r.value.1).0, readings(r.value.1).1)
    ensures r.None? <==> && CompareStates(readings(InputPullup).0, readings(InputPullup).1) == []
                         && CompareStates(readings(InputPulldown).0, readings(InputPulldown).1) == []
                         && CompareStates(readings(InputFloating).0, readings(InputFloating).1) == []
  {
    FirstChange(ModeOrder, readings)
  }

  /**
   * Pull-up wins whenever it shows a change; pull-down is reported only when pull-up shows
   * none; floating only when both others show none; and no change anywhere gives nothing.
   */
  lemma HookModePriority(readings: PullMode -> (Snapshot, Snapshot))
    requires forall m :: Distinct(KeysOf(readings(m).0))
    ensures var up := CompareStates(readings(InputPullup).0, readings(InputPullup).1);
      var down := CompareStates(readings(InputPulldown).0, readings(InputPulldown).1);
      var floating := CompareStates(readings(InputFloating).0, readings(InputFloating).1);
      && (up != [] ==> HookSwitchTest(readings) == Some((up, InputPullup)))
      && (up == [] && down != [] ==> HookSwitchTest(readings) == Some((down, InputPulldown)))
      && (up == [] && down == [] && floating != [] ==> HookSwitchTest(readings) == Some((floating, InputFloating)))
      && (up == [] && down == [] && floating == [] <==> HookSwitchTest(readings).None?)
  {
    assert ModeOrder[1..] == [InputPulldown, InputFloating];
    assert ModeOrder[1..][1..] == [InputFloating];
  }

  /** The buttons the keypad test presses after '5'. */
  const ExtraButtons: seq<string> := ["1", "9", "0"]

  /**
   * `test_keypad()`: `pressed(b)` is the snapshot taken while holding button `b`. When
   * holding '5' changes nothing the test gives up; otherwise it records, for '1', '9' and
   * '0', the pins that differ from the baseline.
   */
  function KeypadTest(baseline: Snapshot, pressed: string -> Snapshot): (r: Option<map<string, seq<int>>>)
    requires Distinct(KeysOf(baseline))
    ensures r.None? <==> CompareStates(baseline, pressed("5")) == []
    ensures r.Some? ==> forall b :: b in r.value <==> b in ExtraButtons
    ensures r.Some? ==> forall b :: b in r.value ==> r.value[b] == CompareStates(baseline, pressed(b))
  {
    if CompareStates(baseline, pressed("5")) == [] then None
    else Some(map b | b in ExtraButtons :: CompareStates(baseline, pressed(b)))
  }
}

=== FILE: pin_lists.dfy ===
/**
 * Lists of GPIO pin numbers shared by the wiring scripts: the pins the viewer and the
 * monitor read, ascending order, order-preserving filters and `sorted()`.
 */
module PinLists {
  import opened Wrappers

  /** One pin read: the level `GPIO.input` returned, or the text of the exception it raised. */
  datatype Reading = Level(v: int) | Failed(message: string)

  /** A Python dictionary keyed by pin, as its items in insertion order. */
  type PinDict<V> = seq<(int, V)>

  /** The keys of a dictionary, in insertion order. */
  function KeysOf<V>(d: PinDict<V>): (ks: seq<int>)
    ensures |ks| == |d|
    ensures forall i :: 0 <= i < |d| ==> ks[i] == d[i].0
  {
    if |d| == 0 then [] else [d[0].0] + KeysOf(d[1..])
  }

  /** `d.get(pin)`: the value stored under the pin, if any. */
  function Lookup<V>(d: PinDict<V>, pin: int): (r: Option<V>)
    ensures r.None? <==> pin !in KeysOf(d)
    ensures r.Some? ==> exists i :: 0 <= i < |d| && d[i] == (pin, r.value)
  {
    if |d| == 0 then None
    else if d[0].0 == pin then Some(d[0].1)
    else
      var r := Lookup(d[1..], pin);
      assert r.Some? ==> exists i :: 0 <= i < |d| && d[i] == (pin, r.value) by {
        if r.Some? {
          var i :| 0 <= i < |d[1..]| && d[1..][i] == (pin, r.value);
          assert d[i + 1] == (pin, r.value);
        }
      }
      assert pin in KeysOf(d) <==> pin in KeysOf(d[1..]) by {
        assert KeysOf(d) == [d[0].0] + KeysOf(d[1..]);
      }
      r
  }

  /** The fifteen pins the pin viewer and the raw monitor read, in the scripts' own order. */
  const WiredPins: seq<int> := [17, 18, 27, 22, 23, 24, 25, 5, 6, 12, 13, 16, 19, 20, 21]

  predicate Increasing(s: seq<int>) {
    forall i, j :: 0 <= i < j < |s| ==> s[i] < s[j]
  }

  predicate Distinct(s: seq<int>) {
    forall i, j :: 0 <= i < j < |s| ==> s[i] != s[j]
  }

  /** An ascending list stays ascending with a smaller head in front. */
  lemma ConsIncreasing(a: int, t: seq<int>)
    requires Increasing(t)
    requires forall x :: x in t ==> a < x
    ensures Increasing([a] + t)
  {
    var r := [a] + t;
    forall i, j | 0 <= i < j < |r|
      ensures r[i] < r[j]
    {
      assert r[j] == t[j - 1] && t[j - 1] in t;
      if i > 0 {
        assert r[i] == t[i - 1];
      }
    }
  }

  /** `a` occurs before `b` in `s`. */
  predicate Precedes(s: seq<int>, a: int, b: int) {
    exists p, q :: 0 <= p < q < |s| && s[p] == a && s[q] == b
  }

  /** `[p for p in s if keep(p)]`. */
  function Filter(s: seq<int>, keep: int -> bool): (r: seq<int>)
    ensures |r| <= |s|
    ensures forall x :: x in r <==> x in s && keep(x)
    ensures Increasing(s) ==> Increasing(r)
  {
    if |s| == 0 then []
    else
      assert Increasing(s) ==> Increasing(s[1..]);
      var rest := Filter(s[1..], keep);
      assert Increasing(s) ==> forall x :: x in rest ==> s[0] < x by {
        if Increasing(s) {
          forall x | x in rest
            ensures s[0] < x
          {
            var k :| 0 <= k < |s[1..]| && s[1..][k] == x;
            assert s[k + 1] == x;
          }
        }
      }
      assert Increasing(s) ==> Increasing([s[0]] + rest) by {
        if Increasing(s) { ConsIncreasing(s[0], rest); }
      }
      if keep(s[0]) then [s[0]] + rest else rest
  }

  /** A filter that keeps nothing of a list gives the empty list. */
  lemma {:induction false} FilterNone(s: seq<int>, keep: int -> bool)
    requires forall i :: 0 <= i < |s| ==> !keep(s[i])
    ensures Filter(s, keep) == []
  {
    if |s| > 0 {
      assert !keep(s[0]);
      FilterNone(s[1..], keep);
      assert Filter(s, keep) == Filter(s[1..], keep);
    }
  }

  /** Filters that agree on every element give the same list. */
  lemma {:induction false} FilterSame(s: seq<int>, f: int -> bool, g: int -> bool)
    requires forall i :: 0 <= i < |s| ==> f(s[i]) == g(s[i])
    ensures Filter(s, f) == Filter(s, g)
  {
    if |s| > 0 {
      FilterSame(s[1..], f, g);
      assert f(s[0]) == g(s[0]);
    }
  }

  /** A filter keeps the relative order of what it keeps. */
  lemma {:induction false} FilterKeepsOrder(s: seq<int>, keep: int -> bool)
    ensures forall i, j :: 0 <= i < j < |Filter(s, keep)| ==> Precedes(s, Filter(s, keep)[i], Filter(s, keep)[j])
  {
    if |s| > 0 {
      var r := Filter(s, keep);
      var rest := Filter(s[1..], keep);
      FilterKeepsOrder(s[1..], keep);
      if keep(s[0]) {
        assert r == [s[0]] + rest;
        forall i, j | 0 <= i < j < |r|
          ensures Precedes(s, r[i], r[j])
        {
          assert r[j] == rest[j - 1] && r[j] in s[1..];
          if i == 0 {
            var q :| 0 <= q < |s[1..]| && s[1..][q] == r[j];
            assert s[0] == r[i] && s[q + 1] == r[j];
          } else {
            assert Precedes(s[1..], rest[i - 1], rest[j - 1]);
            var p', q' :| 0 <= p' < q' < |s[1..]| && s[1..][p'] == rest[i - 1] && s[1..][q'] == rest[j - 1];
            assert s[p' + 1] == r[i] && s[q' + 1] == r[j];
          }
        }
      } else {
        assert r == rest;
        forall i, j | 0 <= i < j < |r|
          ensures Precedes(s, r[i], r[j])
        {
          assert Precedes(s[1..], rest[i], rest[j]);
          var p', q' :| 0 <= p' < q' < |s[1..]| && s[1..][p'] == rest[i] && s[1..][q'] == rest[j];
          assert s[p' + 1] == r[i] && s[q' + 1] == r[j];
        }
      }
    }
  }

  /** `x` put into place in an ascending list. */
  function Insert(x: int, s: seq<int>): (r: seq<int>)
    ensures |r| == |s| + 1
    ensures forall y :: y in r <==> y == x || y in s
    ensures Increasing(s) && x !in s ==> Increasing(r)
  {
    if |s| == 0 || x <= s[0] then [x] + s
    else
      assert Increasing(s) ==> Increasing(s[1..]);
      var rest := Insert(x, s[1..]);
      assert forall y :: y in s[1..] ==> y in s;
      assert Increasing(s) && x !in s ==> Increasing([s[0]] + rest) by {
        if Increasing(s) && x !in s {
          forall y | y in rest
            ensures s[0] < y
          {
            if y != x {
              var k :| 0 <= k < |s[1..]| && s[1..][k] == y;
              assert s[k + 1] == y;
            }
          }
          ConsIncreasing(s[0], rest);
        }
      }
      [s[0]] + rest
  }

  /** `sorted(keys)` for the keys of a dictionary: the same pins, ascending. */
  function Sort(s: seq<int>): (r: seq<int>)
    ensures |r| == |s|
    ensures forall y :: y in r <==> y in s
    ensures Distinct(s) ==> Increasing(r)
  {
    if |s| == 0 then []
    else
      assert Distinct(s) ==> Distinct(s[1..]) && s[0] !in s[1..];
      Insert(s[0], Sort(s[1..]))
  }

  /** The wired pins are distinct. */
  lemma WiredPinsDistinct()
    ensures Distinct(WiredPins)
  {
  }

  /** `sorted(PINS)`: the wired pins, ascending. */
  const SortedWiredPins: seq<int> := [5, 6, 12, 13, 16, 17, 18, 19, 20, 21, 22, 23, 24, 25, 27]

  /** The ascending list holds exactly the wired pins, so it is their sorted order (see `SortedUnique`). */
  lemma SortedWiredPinsSorted()
    ensures Increasing(SortedWiredPins)
    ensures forall p :: p in SortedWiredPins <==> p in WiredPins
  {
  }

  /** Two ascending lists with the same members are equal: `sorted()` has one possible result. */
  lemma {:induction false} SortedUnique(a: seq<int>, b: seq<int>)
    requires Increasing(a) && Increasing(b)
    requires forall x :: x in a <==> x in b
    ensures a == b
    decreases |a|
  {
    assert |a| > 0 ==> a[0] in a && a[0] in b;
    assert |b| > 0 ==> b[0] in b && b[0] in a;
    if |a| > 0 && |b| > 0 {
      SortedHeads(a, b);
      SortedTails(a, b);
      SortedUnique(a[1..], b[1..]);
      assert a == [a[0]] + a[1..] && b == [b[0]] + b[1..];
    }
  }

  /** Ascending lists holding each other's first element start alike. */
  lemma SortedHeads(a: seq<int>, b: seq<int>)
    requires Increasing(a) && Increasing(b) && |a| > 0 && |b| > 0
    requires a[0] in b && b[0] in a
    ensures a[0] == b[0]
  {
    var j :| 0 <= j < |b| && b[j] == a[0];
    var k :| 0 <= k < |a| && a[k] == b[0];
    assert b[0] <= b[j] && a[0] <= a[k];
  }

  /** Ascending lists with the same members and the same head have tails with the same members. */
  lemma SortedTails(a: seq<int>, b: seq<int>)
    requires Increasing(a) && Increasing(b) && |a| > 0 && |b| > 0 && a[0] == b[0]
    requires forall x :: x in a <==> x in b
    ensures Increasing(a[1..]) && Increasing(b[1..])
    ensures forall x :: x in a[1..] <==> x in b[1..]
  {
    forall x | x in a[1..]
      ensures x in b[1..]
    {
      var i :| 0 <= i < |a[1..]| && a[1..][i] == x;
      assert a[i + 1] == x && x in a && x in b;
      var j :| 0 <= j < |b| && b[j] == x;
      assert j != 0;
      assert b[1..][j - 1] == x;
    }
    forall x | x in b[1..]
      ensures x in a[1..]
    {
      var i :| 0 <= i < |b[1..]| && b[1..][i] == x;
      assert b[i + 1] == x && x in b && x in a;
      var j :| 0 <= j < |a| && a[j] == x;
      assert j != 0;
      assert a[1..][j - 1] == x;
    }
  }

  /** Sorting distinct pins gives the one ascending list of them. */
  lemma SortIsSortedOrder(s: seq<int>, r: seq<int>)
    requires Distinct(s) && Increasing(r)
    requires forall x :: x in r <==> x in s
    ensures Sort(s) == r
  {
    SortedUnique(Sort(s), r);
  }
}

=== FILE: pin_viewer.dfy ===
/**
 * The pin viewer's analysis: each pin is read several times and classified as stable,
 * unstable (with its majority level) or in error, and the pins whose level changed
 * between the on-hook and the off-hook classification are listed in ascending order.
 */
module PinViewer {
  import opened Wrappers
  import opened PinLists

  /** `('STABLE', v)`, `('UNSTABLE', v)` or `('ERROR', None)`. */
  datatype Stability = Stable(value: int) | Unstable(value: int) | Error

  /** The level a classification reports, `None` for an error. */
  function LevelOf(c: Stability): Option<int> {
    if c.Error? then None else Some(c.value)
  }

  /** `readings.count(v)`. */
  function Count(rs: seq<Option<int>>, v: int): (n: nat)
    ensures n <= |rs|
    ensures n == 0 <==> Some(v) !in rs
  {
    if |rs| == 0 then 0
    else (if rs[0] == Some(v) then 1 else 0) + Count(rs[1..], v)
  }

  /**
   * A pin's readings: an empty list or a failed first read is an error; all readings equal
   * to the first is stable; anything else is unstable at 1 when 1s strictly outnumber 0s,
   * and at 0 otherwise.
   */
  function Classify(readings: seq<Option<int>>): (c: Stability)
    ensures c.Error? <==> |readings| == 0 || readings[0].None?
    ensures c.Stable? <==> |readings| > 0 && readings[0].Some? && forall i :: 0 <= i < |readings| ==> readings[i] == readings[0]
    ensures c.Stable? ==> c.value == readings[0].value
    ensures c.Unstable? ==> (c.value == 1 <==> Count(readings, 1) > Count(readings, 0))
    ensures c.Unstable? ==> c.value == 0 || c.value == 1
  {
    if |readings| == 0 || readings[0].None? then Error
    else if forall i :: 0 <= i < |readings| ==> readings[i] == readings[0] then Stable(readings[0].value)
    else Unstable(if Count(readings, 1) > Count(readings, 0) then 1 else 0)
  }

  /** A failed first read is an error whatever follows it. */
  lemma FailedFirstReadIsError(rest: seq<Option<int>>)
    ensures Classify([None] + rest) == Error
  {
  }

  /** Readings that are all the same level are stable at that level. */
  lemma SteadyIsStable(n: nat, v: int)
    requires n > 0
    ensures Classify(seq(n, _ => Some(v))) == Stable(v)
  {
  }

  /** A tie between HIGH and LOW among mixed readings counts as LOW. */
  lemma TieIsLow(rest: seq<Option<int>>)
    ensures Classify([Some(1), Some(0)] + rest + [Some(1), Some(0)]) ==
      Unstable(if Count(rest, 1) > Count(rest, 0) then 1 else 0)
  {
    var pair: seq<Option<int>> := [Some(1), Some(0)];
    var rs := pair + rest + pair;
    assert rs == pair + (rest + pair);
    assert rs[1] != rs[0];
    assert Count(pair, 1) == 1 && Count(pair, 0) == 1 by {
      assert pair[1..][1..] == [];
    }
    CountSplit(pair, rest + pair, 1);
    CountSplit(pair, rest + pair, 0);
    CountSplit(rest, pair, 1);
    CountSplit(rest, pair, 0);
    assert Count(rs, 1) == Count(rest, 1) + 2 && Count(rs, 0) == Count(rest, 0) + 2;
    var c := Classify(rs);
    assert c.Unstable?;
    assert c.value == if Count(rest, 1) > Count(rest, 0) then 1 else 0;
  }

  /** Counting distributes over concatenation. */
  lemma {:induction false} CountSplit(a: seq<Option<int>>, b: seq<Option<int>>, v: int)
    ensures Count(a + b, v) == Count(a, v) + Count(b, v)
  {
    if |a| > 0 {
      assert (a + b)[0] == a[0] && (a + b)[1..] == a[1..] + b;
      CountSplit(a[1..], b, v);
      assert Count(a + b, v) == (if a[0] == Some(v) then 1 else 0) + Count(a[1..] + b, v);
      assert Count(a, v) == (if a[0] == Some(v) then 1 else 0) + Count(a[1..], v);
    } else {
      assert a + b == b;
    }
  }

  /** The reads of one pin, in order. */
  function ReadsOf(sample: (int, nat) -> Option<int>, p: int, numReads: nat): (rs: seq<Option<int>>)
    ensures |rs| == numReads
    ensures forall i :: 0 <= i < numReads ==> rs[i] == sample(p, i)
  {
    seq(numReads, i requires 0 <= i => sample(p, i))
  }

  /**
   * `read_pins_multiple_times(n)`: `sample(pin, i)` is the i-th read of a pin (`None` when
   * it raised); every wired pin gets exactly one classification of its own reads.
   */
  function ReadPins(sample: (int, nat) -> Option<int>, numReads: nat): (m: map<int, Stability>)
    ensures forall p :: p in m <==> p in WiredPins
    ensures forall p :: p in m ==> m[p] == Classify(ReadsOf(sample, p, numReads))
  {
    map p | p in WiredPins :: Classify(ReadsOf(sample, p, numReads))
  }

  /** A pin that changed: classified with a level both times, and the levels differ. */
  predicate Changed(onHook: map<int, Stability>, offHook: map<int, Stability>, p: int) {
    && p in onHook && p in offHook
    && LevelOf(onHook[p]).Some? && LevelOf(offHook[p]).Some?
    && LevelOf(onHook[p]) != LevelOf(offHook[p])
  }

  /** The changed-pin list of the viewer's summary: the wired pins that changed, ascending. */
  function ChangedPins(onHook: map<int, Stability>, offHook: map<int, Stability>): (r: seq<int>)
    requires forall p :: p in WiredPins ==> p in offHook
    ensures Increasing(r)
    ensures forall p :: p in r <==> p in WiredPins && Changed(onHook, offHook, p)
  {
    SortedWiredPinsSorted();
    Filter(SortedWiredPins, p => Changed(onHook, offHook, p))
  }

  /** A classification compared with itself reports no change. */
  lemma SameReadsNoChange(m: map<int, Stability>)
    requires forall p :: p in WiredPins ==> p in m
    ensures ChangedPins(m, m) == []
  {
    var s := SortedWiredPins;
    forall i | 0 <= i < |s|
      ensures !Changed(m, m, s[i])
    {
    }
    FilterNone(s, p => Changed(m, m, p));
  }

  /** An error on either side hides a pin from the changed list. */
  lemma ErrorNeverChanged(onHook: map<int, Stability>, offHook: map<int, Stability>, p: int)
    requires forall q :: q in WiredPins ==> q in offHook
    requires p in offHook && p in onHook
    requires onHook[p].Error? || offHook[p].Error?
    ensures p !in ChangedPins(onHook, offHook)
  {
  }
}

=== FILE: raw_pin_monitor.dfy ===
/**
 * The raw pin monitor's analysis of two snapshots of the wired pins: the pins whose
 * integer level changed, the partition of the current snapshot into LOW and HIGH pins,
 * and the pins that read LOW while a button is held.
 */
module RawPinMonitor {
  import opened PinLists

  /** A snapshot: each pin read, with its level or the error text. */
  type Snapshot = map<int, Reading>

  /** A pin read as an integer level in both snapshots, with different levels. */
  predicate LevelChanged(before: Snapshot, after: Snapshot, p: int) {
    && p in before && p in after
    && before[p].Level? && after[p].Level?
    && before[p].v != after[p].v
  }

  /** `compare_states(before, after)`: the wired pins whose level changed, ascending. */
  function CompareStates(before: Snapshot, after: Snapshot): (changes: seq<int>)
    ensures Increasing(changes)
    ensures forall p :: p in changes <==> p in WiredPins && LevelChanged(before, after, p)
  {
    SortedWiredPinsSorted();
    Filter(SortedWiredPins, p => LevelChanged(before, after, p))
  }

  /** A pin whose read failed on either side is never a change. */
  lemma ErrorNeverChanges(before: Snapshot, after: Snapshot, p: int)
    requires (p in before && before[p].Failed?) || (p in after && after[p].Failed?)
    ensures p !in CompareStates(before, after)
  {
  }

  /** Comparing is symmetric: the same pins change from `after` back to `before`. */
  lemma CompareSymmetric(before: Snapshot, after: Snapshot)
    ensures CompareStates(before, after) == CompareStates(after, before)
  {
    var s := SortedWiredPins;
    var f := p => LevelChanged(before, after, p);
    var g := p => LevelChanged(after, before, p);
    forall i | 0 <= i < |s|
      ensures f(s[i]) == g(s[i])
    {
    }
    FilterSame(s, f, g);
  }

  /** A snapshot compared with itself shows no change. */
  lemma NoChangeWithoutAction(snap: Snapshot)
    ensures CompareStates(snap, snap) == []
  {
    var s := SortedWiredPins;
    FilterNone(s, p => LevelChanged(snap, snap, p));
  }

  /**
   * The LOW and HIGH lists printed after a comparison: the wired pins of `after` with an
   * integer level, ascending, split by whether the level is 0.
   */
  function LowHigh(after: Snapshot): (r: (seq<int>, seq<int>))
    ensures Increasing(r.0) && Increasing(r.1)
    ensures forall p :: p in r.0 <==> p in WiredPins && p in after && after[p] == Level(0)
    ensures forall p :: p in r.1 <==> p in WiredPins && p in after && after[p].Level? && after[p].v != 0
  {
    SortedWiredPinsSorted();
    var s := SortedWiredPins;
    (Filter(s, p => p in after && after[p] == Level(0)),
     Filter(s, p => p in after && after[p].Level? && after[p].v != 0))
  }

  /** LOW and HIGH never share a pin, and together they are exactly the integer-valued wired pins. */
  lemma LowHighPartition(after: Snapshot)
    ensures forall p :: !(p in LowHigh(after).0 && p in LowHigh(after).1)
    ensures forall p :: (p in LowHigh(after).0 || p in LowHigh(after).1) <==> p in WiredPins && p in after && after[p].Level?
  {
  }

  /** The pins that read LOW while a button is held, in the wired order (not sorted). */
  function LowPinsWhenPressed(pressed: Snapshot): (low: seq<int>)
    ensures forall p :: p in low <==> p in WiredPins && p in pressed && pressed[p] == Level(0)
    ensures forall i, j :: 0 <= i < j < |low| ==> Precedes(WiredPins, low[i], low[j])
  {
    FilterKeepsOrder(WiredPins, p => p in pressed && pressed[p] == Level(0));
    Filter(WiredPins, p => p in pressed && pressed[p] == Level(0))
  }

  /** The held-button LOW pins are the LOW list of the same snapshot, in another order. */
  lemma PressedLowMatchesLowList(pressed: Snapshot)
    ensures forall p :: p in LowPinsWhenPressed(pressed) <==> p in LowHigh(pressed).0
  {
  }
}

=== FILE: scenarios.dfy ===
/**
 * Concrete calls that set the navigators side by side: the fixed-count paths of the older
 * navigator, and the differing treatment of an invalid key pressed during a prompt.
 */
module Scenarios {
  import opened Wrappers
  import opened TreeNode
  import opened Environment
  import CoreNavigator
  import BlockingNavigator

  function Parent(): Node {
    MakeNode("menu/parent.wav", Some(map["1" := MakeNode("menu/child.wav")]))
  }

  function Level1(): Node {
    MakeNode("menu/level1.wav", Some(map["1" := MakeNode("menu/level2.wav", Some(map["1" := MakeNode("menu/level3.wav")]))]))
  }

  /** A two-level walk of the older navigator plays exactly two files, parent then child. */
  lemma TwoLevelPlaysTwo(hooks: nat)
    requires hooks > 2
    ensures var e := Env(seq(hooks, _ => true), Keys(["1"]), [], [], 0);
      Prompts(BlockingNavigator.Navigate(Parent(), None, e).trace) == ["menu/parent.wav", "menu/child.wav"]
  {
    var e := Env(seq(hooks, _ => true), Keys(["1"]), [], [], 0);
    BlockingNavigator.PathPlaysPrompts(Parent(), ["1"], e);
  }

  /** A three-level walk of the older navigator plays exactly three files. */
  lemma ThreeLevelPlaysThree(hooks: nat)
    requires hooks > 4
    ensures var e := Env(seq(hooks, _ => true), Keys(["1", "1"]), [], [], 0);
      |Prompts(BlockingNavigator.Navigate(Level1(), None, e).trace)| == 3
  {
    var e := Env(seq(hooks, _ => true), Keys(["1", "1"]), [], [], 0);
    BlockingNavigator.PathPlaysPrompts(Level1(), ["1", "1"], e);
  }

  /**
   * Pressing an unknown key while the parent's prompt still plays: the live navigator stops
   * the prompt and restarts it with no error message; the older one, whose prompt has
   * already finished, plays the error message and then the prompt again.
   */
  lemma InvalidKeyDuringPrompt()
    ensures var e := Env([true, true, true], Keys(["9"]), [true], [], 0);
      && CoreNavigator.Navigate(Parent(), None, e).trace ==
           [Visit(Parent()), Play("menu/parent.wav", false), Stop, Play("menu/parent.wav", false)]
      && BlockingNavigator.Navigate(Parent(), None, e).trace ==
           [Visit(Parent()), Play("menu/parent.wav", true), Play(InvalidPrompt, true), Play("menu/parent.wav", true)]
  {
    var e := Env([true, true, true], Keys(["9"]), [true], [], 0);
    var e1 := e.(hook := [true, true]);
    CoreNavigator.InvalidKeyReplays(Parent(), None, 0, e1, "9");
    BlockingNavigator.InvalidKeyReplays(Parent(), None, 0, e1, "9");
  }
}

=== FILE: serial_protocol.dfy ===
/**
 * The line protocol of the serial keypad and hook controller: `KEY:<k>` queues a key,
 * `HOOK:<status>` reports the hook to the callback, `READY` announces the controller.
 * Fields are taken as Python's `str.split(":")` cuts them.
 */
module SerialProtocol {

  const Sep: char := ':'

  /** `s.split(sep)`: the pieces between the separators, at least one, possibly empty. */
  function Split(s: string, sep: char): (parts: seq<string>)
    ensures |parts| >= 1
    ensures forall i :: 0 <= i < |parts| ==> sep !in parts[i]
    decreases |s|
  {
    if |s| == 0 then [""]
    else
      var rest := Split(s[1..], sep);
      if s[0] == sep then [""] + rest
      else [[s[0]] + rest[0]] + rest[1..]
  }

  /** `sep.join(parts)`. */
  function Join(parts: seq<string>, sep: char): string
    requires |parts| >= 1
    decreases |parts|
  {
    if |parts| == 1 then parts[0] else parts[0] + [sep] + Join(parts[1..], sep)
  }

  /** Joining the pieces again gives back the line. */
  lemma {:induction false} JoinSplit(s: string, sep: char)
    ensures Join(Split(s, sep), sep) == s
    decreases |s|
  {
    if |s| > 0 {
      var rest := Split(s[1..], sep);
      JoinSplit(s[1..], sep);
      if s[0] == sep {
        assert Split(s, sep)[1..] == rest;
        assert s == [s[0]] + s[1..];
      } else {
        var parts := Split(s, sep);
        if |rest| == 1 {
          assert parts == [[s[0]] + rest[0]];
        } else {
          assert parts[1..] == rest[1..];
          assert Join(rest, sep) == rest[0] + [sep] + Join(rest[1..], sep);
          assert Join(parts, sep) == ([s[0]] + rest[0]) + [sep] + Join(rest[1..], sep);
        }
      }
    }
  }

  /** A piece that holds no separator splits into itself. */
  lemma {:induction false} SplitWhole(s: string, sep: char)
    requires sep !in s
    ensures Split(s, sep) == [s]
    decreases |s|
  {
    if |s| > 0 {
      assert sep !in s[1..];
      SplitWhole(s[1..], sep);
      assert s[0] != sep && [s[0]] + s[1..] == s;
    }
  }

  /** A separator after a separator-free piece cuts exactly there. */
  lemma {:induction false} SplitAfter(a: string, b: string, sep: char)
    requires sep !in a
    ensures Split(a + [sep] + b, sep) == [a] + Split(b, sep)
    decreases |a|
  {
    if |a| == 0 {
      assert a + [sep] + b == [sep] + b;
      assert ([sep] + b)[1..] == b;
    } else {
      assert (a + [sep] + b)[1..] == a[1..] + [sep] + b;
      SplitAfter(a[1..], b, sep);
      assert [a[0]] + a[1..] == a;
    }
  }

  /** Splitting the join of separator-free pieces gives the pieces back. */
  lemma {:induction false} SplitJoin(parts: seq<string>, sep: char)
    requires |parts| >= 1 && forall i :: 0 <= i < |parts| ==> sep !in parts[i]
    ensures Split(Join(parts, sep), sep) == parts
    decreases |parts|
  {
    if |parts| == 1 {
      SplitWhole(parts[0], sep);
    } else {
      SplitJoin(parts[1..], sep);
      SplitAfter(parts[0], Join(parts[1..], sep), sep);
      assert [parts[0]] + parts[1..] == parts;
    }
  }

  predicate StartsWith(s: string, prefix: string) {
    |prefix| <= |s| && s[..|prefix|] == prefix
  }

  /**
   * What a line does: queue a key, call the hook callback, or nothing. The callback's
   * argument is the off-hook flag the hook handlers take, `True` meaning off hook.
   */
  datatype Outcome = Enqueue(key: string) | HookSignal(offHook: bool) | Ignored

  /**
   * `_process_data`: a `KEY:` line queues its second field, a `HOOK:` line tells the
   * callback, when one is set, that the phone is off hook exactly when its second field is `ON`, and every other line, `READY`
   * included, changes nothing.
   */
  function ProcessData(line: string, hasCallback: bool): (r: Outcome)
    ensures r.Enqueue? <==> StartsWith(line, "KEY:")
    ensures r.HookSignal? <==> !StartsWith(line, "KEY:") && StartsWith(line, "HOOK:") && hasCallback
    ensures r.Enqueue? ==> |Split(line, Sep)| >= 2 && r.key == Split(line, Sep)[1]
    ensures r.HookSignal? ==> |Split(line, Sep)| >= 2 && r.offHook == (Split(line, Sep)[1] == "ON")
  {
    if StartsWith(line, "KEY:") then
      SplitAfter("KEY", line[4..], Sep);
      assert line == "KEY" + [Sep] + line[4..];
      Enqueue(Split(line, Sep)[1])
    else if StartsWith(line, "HOOK:") then
      SplitAfter("HOOK", line[5..], Sep);
      assert line == "HOOK" + [Sep] + line[5..];
      if hasCallback then HookSignal(Split(line, Sep)[1] == "ON") else Ignored
    else Ignored
  }

  /** A key without a separator travels through the protocol unchanged. */
  lemma KeyRoundTrip(k: string, hasCallback: bool)
    requires Sep !in k
    ensures ProcessData("KEY:" + k, hasCallback) == Enqueue(k)
  {
    assert "KEY:" + k == "KEY" + [Sep] + k;
    SplitAfter("KEY", k, Sep);
    SplitWhole(k, Sep);
  }

  /** Only the field between the first and second separator is queued; an empty key is queued as such. */
  lemma KeyFieldCases()
    ensures ProcessData("KEY:1:2", false) == Enqueue("1")
    ensures ProcessData("KEY:", false) == Enqueue("")
  {
    KeyRoundTrip("", false);
    assert "KEY:1:2" == "KEY" + [Sep] + ("1" + [Sep] + "2");
    SplitAfter("KEY", "1" + [Sep] + "2", Sep);
    SplitAfter("1", "2", Sep);
  }

  /** `HOOK:ON` reports off hook (`True`), any other status on hook (`False`), and only to a set callback. */
  lemma HookCases(status: string)
    requires Sep !in status
    ensures ProcessData("HOOK:" + status, true) == HookSignal(status == "ON")
    ensures ProcessData("HOOK:" + status, false) == Ignored
  {
    assert "HOOK:" + status == "HOOK" + [Sep] + status;
    assert !StartsWith("HOOK:" + status, "KEY:") by {
      assert ("HOOK:" + status)[0] == 'H';
    }
    SplitAfter("HOOK", status, Sep);
    SplitWhole(status, Sep);
  }

  /** `READY` changes neither the queue nor the hook. */
  lemma ReadyIgnored(hasCallback: bool)
    ensures ProcessData("READY", hasCallback) == Ignored
  {
    assert "READY"[0] == 'R';
  }
}

=== FILE: system_registry.dfy ===
/**
 * The phone-system registry of the BIOS: the description record of a discovered system and
 * its dictionary form, the metadata taken from a system class, the discovered systems in
 * discovery order, and the not-found guard of loading. Discovery and importing themselves
 * are foreign machinery; loading consults them as an oracle.
 */
module SystemRegistry {
  import opened Wrappers
  import SerialProtocol

  datatype SystemInfo = SystemInfo(id: string, name: string, modulePath: string, className: string,
                                   description: string, version: string)

  const DefaultDescription: string := ""
  const DefaultVersion: string := "1.0.0"

  /** The constructor, with description "" and version "1.0.0" unless given. */
  function MakeInfo(id: string, name: string, modulePath: string, className: string,
                    description: string := DefaultDescription, version: string := DefaultVersion): (s: SystemInfo)
    ensures s.id == id && s.name == name && s.modulePath == modulePath && s.className == className
    ensures s.description == description && s.version == version
  {
    SystemInfo(id, name, modulePath, className, description, version)
  }

  lemma ConstructorDefaults(id: string, name: string, modulePath: string, className: string)
    ensures MakeInfo(id, name, modulePath, className).description == ""
    ensures MakeInfo(id, name, modulePath, className).version == "1.0.0"
  {
  }

  /** `to_dict`: the six fields under their serialised names. */
  function ToDict(s: SystemInfo): (d: map<string, string>)
    ensures d.Keys == {"id", "name", "module_path", "class_name", "description", "version"}
  {
    map["id" := s.id, "name" := s.name, "module_path" := s.modulePath, "class_name" := s.className,
        "description" := s.description, "version" := s.version]
  }

  datatype DictError = MissingKey(key: string)

  /**
   * `from_dict`: the four required keys are looked up in order (the first one missing is the
   * error); a missing description or version takes its default.
   */
  function FromDict(d: map<string, string>): (r: Result<SystemInfo, DictError>)
    ensures r.Ok? <==> "id" in d && "name" in d && "module_path" in d && "class_name" in d
    ensures r.Ok? ==> r.value.description == (if "description" in d then d["description"] else "")
    ensures r.Ok? ==> r.value.version == (if "version" in d then d["version"] else "1.0.0")
  {
    if "id" !in d then Err(MissingKey("id"))
    else if "name" !in d then Err(MissingKey("name"))
    else if "module_path" !in d then Err(MissingKey("module_path"))
    else if "class_name" !in d then Err(MissingKey("class_name"))
    else Ok(MakeInfo(d["id"], d["name"], d["module_path"], d["class_name"],
                     if "description" in d then d["description"] else DefaultDescription,
                     if "version" in d then d["version"] else DefaultVersion))
  }

  /** Every record survives its dictionary form unchanged. */
  lemma DictRoundTrip(s: SystemInfo)
    ensures FromDict(ToDict(s)) == Ok(s)
  {
  }

  /** A dictionary with the four required keys and no others reads back with the defaults. */
  lemma FromDictDefaults(id: string, name: string, modulePath: string, className: string)
    ensures FromDict(map["id" := id, "name" := name, "module_path" := modulePath, "class_name" := className])
      == Ok(SystemInfo(id, name, modulePath, className, "", "1.0.0"))
  {
  }

  // ----- metadata of a system class -----

  /** What `get_metadata()` did: absent, raised, returned a dictionary, or returned something else. */
  datatype MetadataCall = NoMethod | Raised | ReturnedDict(entries: map<string, string>) | ReturnedOther

  datatype MetadataError = NotADict

  predicate IsSpace(c: char) {
    c == ' ' || c == '\t' || c == '\n' || c == '\r' || c == '\U{B}' || c == '\U{C}'
  }

  /** `r` is `s[i..j]`, and everything of `s` before `i` and from `j` on is whitespace. */
  predicate TrimmedAt(s: string, r: string, i: int, j: int) {
    && 0 <= i <= j <= |s| && r == s[i..j]
    && (forall k :: 0 <= k < i ==> IsSpace(s[k]))
    && (forall k :: j <= k < |s| ==> IsSpace(s[k]))
  }

  /**
   * `str.strip()`: drops leading and trailing whitespace. The result is the middle of `s`
   * with only whitespace cut from either end, and it neither starts nor ends with whitespace.
   */
  function Strip(s: string): (r: string)
    ensures exists i, j :: TrimmedAt(s, r, i, j)
    ensures |r| <= |s|
    ensures |r| > 0 ==> !IsSpace(r[0]) && !IsSpace(r[|r| - 1])
    decreases |s|
  {
    if |s| > 0 && IsSpace(s[0]) then
      var r := Strip(s[1..]);
      assert exists i, j :: TrimmedAt(s, r, i, j) by {
        var i, j :| TrimmedAt(s[1..], r, i, j);
        TrimmedAfterLeading(s, r, i, j);
      }
      r
    else if |s| > 0 && IsSpace(s[|s| - 1]) then
      var r := Strip(s[..|s| - 1]);
      assert exists i, j :: TrimmedAt(s, r, i, j) by {
        var i, j :| TrimmedAt(s[..|s| - 1], r, i, j);
        TrimmedBeforeTrailing(s, r, i, j);
      }
      r
    else
      assert TrimmedAt(s, s, 0, |s|);
      s
  }

  /** A trim of `s` without its leading space is a trim of `s`. */
  lemma TrimmedAfterLeading(s: string, r: string, i: int, j: int)
    requires |s| > 0 && IsSpace(s[0]) && TrimmedAt(s[1..], r, i, j)
    ensures TrimmedAt(s, r, i + 1, j + 1)
  {
    assert s[1..][i..j] == s[i + 1..j + 1];
    forall k | 0 <= k < i + 1
      ensures IsSpace(s[k])
    {
      if k > 0 { assert s[k] == s[1..][k - 1]; }
    }
    forall k | j + 1 <= k < |s|
      ensures IsSpace(s[k])
    {
      assert s[k] == s[1..][k - 1];
    }
  }

  /** A trim of `s` without its trailing space is a trim of `s`. */
  lemma TrimmedBeforeTrailing(s: string, r: string, i: int, j: int)
    requires |s| > 0 && IsSpace(s[|s| - 1]) && TrimmedAt(s[..|s| - 1], r, i, j)
    ensures TrimmedAt(s, r, i, j)
  {
    assert s[..|s| - 1][i..j] == s[i..j];
    forall k | 0 <= k < i
      ensures IsSpace(s[k])
    {
      assert s[k] == s[..|s| - 1][k];
    }
    forall k | j <= k < |s|
      ensures IsSpace(s[k])
    {
      if k < |s| - 1 { assert s[k] == s[..|s| - 1][k]; }
    }
  }

  /** The first line of the stripped docstring. */
  function DocSummary(doc: string): (r: string)
    ensures '\n' !in r
  {
    SerialProtocol.Split(Strip(doc), '\n')[0]
  }

  /**
   * `_get_system_metadata`: a dictionary from `get_metadata()` is the metadata; otherwise
   * (no method, or it raised) a non-empty docstring gives a description made of its first
   * stripped line. A non-dictionary result cannot take the description, nor serve as
   * metadata, and is an error.
   */
  function Metadata(call: MetadataCall, doc: Option<string>): (r: Result<map<string, string>, MetadataError>)
    ensures call.ReturnedDict? ==> r == Ok(call.entries)
    ensures (call.NoMethod? || call.Raised?) ==> r.Ok?
    ensures (call.NoMethod? || call.Raised?) && doc.Some? && doc.value != "" ==>
      r.value == map["description" := DocSummary(doc.value)]
    ensures (call.NoMethod? || call.Raised?) && (doc.None? || doc.value == "") ==> r.value == map[]
  {
    match call
    case ReturnedDict(entries) => Ok(entries)
    case ReturnedOther => Err(NotADict)
    case _ => if doc.Some? && doc.value != "" then Ok(map["description" := DocSummary(doc.value)]) else Ok(map[])
  }

  /** A docstring whose first line follows blank space yields that line. */
  lemma DocSummaryFirstLine(lead: string, line: string, rest: string)
    requires forall i :: 0 <= i < |lead| ==> IsSpace(lead[i])
    requires |line| > 0 && !IsSpace(line[0]) && '\n' !in line
    requires |rest| > 0 ==> !IsSpace(rest[|rest| - 1])
    requires |rest| == 0 ==> !IsSpace(line[|line| - 1])
    ensures DocSummary(lead + line + rest) == (if |rest| > 0 && rest[0] == '\n' then line else DocSummary(line + rest))
  {
    var body := line + rest;
    assert lead + line + rest == lead + body;
    LineThenRest(line, rest);
    SummarySkipsLead(lead, body);
    if |rest| > 0 && rest[0] == '\n' {
      assert line + ['\n'] + rest[1..] == body by {
        assert rest == ['\n'] + rest[1..];
      }
      SummaryStopsAtNewline(line, rest[1..]);
    }
  }

  /** The ends of a line followed by the rest of a docstring. */
  lemma LineThenRest(line: string, rest: string)
    requires |line| > 0 && !IsSpace(line[0])
    requires |rest| > 0 ==> !IsSpace(rest[|rest| - 1])
    requires |rest| == 0 ==> !IsSpace(line[|line| - 1])
    ensures |line + rest| > 0 && !IsSpace((line + rest)[0]) && !IsSpace((line + rest)[|line + rest| - 1])
  {
    var body := line + rest;
    assert body[0] == line[0];
    assert body[|body| - 1] == if |rest| > 0 then rest[|rest| - 1] else line[|line| - 1];
  }

  /** Blank space ahead of a body with non-space ends does not change the summary. */
  lemma SummarySkipsLead(lead: string, body: string)
    requires forall i :: 0 <= i < |lead| ==> IsSpace(lead[i])
    requires |body| > 0 && !IsSpace(body[0]) && !IsSpace(body[|body| - 1])
    ensures DocSummary(lead + body) == DocSummary(body)
  {
    StripToBody(lead, body);
    StripClean(body);
  }

  /** A clean line followed by a newline and more text summarises to the line. */
  lemma SummaryStopsAtNewline(line: string, after: string)
    requires |line| > 0 && !IsSpace(line[0]) && '\n' !in line
    requires |after| > 0 && !IsSpace(after[|after| - 1])
    ensures DocSummary(line + ['\n'] + after) == line
  {
    var body := line + ['\n'] + after;
    assert body[0] == line[0] && body[|body| - 1] == after[|after| - 1];
    StripClean(body);
    SerialProtocol.SplitAfter(line, after, '\n');
  }

  /** Stripping blank space ahead of a body that starts and ends with non-space gives the body. */
  lemma StripToBody(lead: string, s: string)
    requires forall i :: 0 <= i < |lead| ==> IsSpace(lead[i])
    requires |s| > 0 && !IsSpace(s[0]) && !IsSpace(s[|s| - 1])
    ensures Strip(lead + s) == s
  {
    StripLeading(lead, s);
    StripClean(s);
  }

  lemma {:induction false} StripLeading(lead: string, s: string)
    requires forall i :: 0 <= i < |lead| ==> IsSpace(lead[i])
    requires |s| > 0 && !IsSpace(s[0])
    ensures Strip(lead + s) == Strip(s)
    decreases |lead|
  {
    if |lead| > 0 {
      assert (lead + s)[1..] == lead[1..] + s;
      StripLeading(lead[1..], s);
    } else {
      assert lead + s == s;
    }
  }

  lemma StripClean(s: string)
    requires |s| > 0 && !IsSpace(s[0]) && !IsSpace(s[|s| - 1])
    ensures Strip(s) == s
  {
  }

  /** The record `_scan_system_dir` builds from a class's metadata, defaulting the name to the class name. */
  function InfoFromClass(id: string, modulePath: string, className: string, meta: map<string, string>): (s: SystemInfo)
    ensures s.id == id && s.modulePath == modulePath && s.className == className
    ensures s.name == (if "name" in meta then meta["name"] else className)
    ensures s.description == (if "description" in meta then meta["description"] else "")
    ensures s.version == (if "version" in meta then meta["version"] else "1.0.0")
  {
    MakeInfo(id, if "name" in meta then meta["name"] else className, modulePath, className,
             if "description" in meta then meta["description"] else DefaultDescription,
             if "version" in meta then meta["version"] else DefaultVersion)
  }

  // ----- the registry -----

  /** The discovered systems by id, with the ids in discovery order (Python dict order). */
  datatype Registry = Registry(order: seq<string>, systems: map<string, SystemInfo>)

  ghost predicate Valid(reg: Registry) {
    && (forall i, j :: 0 <= i < j < |reg.order| ==> reg.order[i] != reg.order[j])
    && (forall id :: id in reg.systems <==> id in reg.order)
  }

  const Empty: Registry := Registry([], map[])

  /** `discovered_systems[id] = info`: a new id goes last, a known id keeps its place and takes the new record. */
  function Register(reg: Registry, info: SystemInfo): (r: Registry)
    requires Valid(reg)
    ensures Valid(r)
    ensures info.id in r.systems && r.systems[info.id] == info
    ensures forall id :: id != info.id ==> (id in r.systems <==> id in reg.systems)
    ensures forall id :: id != info.id && id in reg.systems ==> r.systems[id] == reg.systems[id]
    ensures info.id in reg.systems ==> r.order == reg.order
    ensures info.id !in reg.systems ==> r.order == reg.order + [info.id]
  {
    if info.id in reg.systems then Registry(reg.order, reg.systems[info.id := info])
    else Registry(reg.order + [info.id], reg.systems[info.id := info])
  }

  /** `get_system_info(id)`: `None` exactly for an id that was not discovered. */
  function GetSystemInfo(reg: Registry, id: string): (r: Option<SystemInfo>)
    ensures r.None? <==> id !in reg.systems
    ensures r.Some? ==> r.value == reg.systems[id]
  {
    if id in reg.systems then Some(reg.systems[id]) else None
  }

  /** `list_systems()`: the discovered records, each once, in discovery order. */
  function ListSystems(reg: Registry): (r: seq<SystemInfo>)
    requires Valid(reg)
    ensures |r| == |reg.order|
    ensures forall i :: 0 <= i < |r| ==> r[i] == reg.systems[reg.order[i]]
    ensures forall id :: id in reg.systems ==> reg.systems[id] in r
  {
    var r := seq(|reg.order|, i requires 0 <= i < |reg.order| => reg.systems[reg.order[i]]);
    assert forall id :: id in reg.systems ==> reg.systems[id] in r by {
      forall id | id in reg.systems
        ensures reg.systems[id] in r
      {
        var i :| 0 <= i < |reg.order| && reg.order[i] == id;
        assert r[i] == reg.systems[id];
      }
    }
    r
  }

  /** What importing a module and fetching a class from it gave: a phone-system class, another class, or an error. */
  datatype LoadOutcome<C> = Loaded(cls: C) | NotPhoneSystem | ImportFailed

  /**
   * `load_system(id)`: an id never discovered gives `None` before anything is imported;
   * otherwise the recorded module and class are imported, and only a phone-system class is returned.
   */
  function LoadSystem<C>(reg: Registry, id: string, load: (string, string) -> LoadOutcome<C>): (r: Option<C>)
    ensures id !in reg.systems ==> r.None?
    ensures id in reg.systems ==>
      (r.Some? <==> load(reg.systems[id].modulePath, reg.systems[id].className).Loaded?)
    ensures r.Some? ==> r.value == load(reg.systems[id].modulePath, reg.systems[id].className).cls
  {
    if id !in reg.systems then None
    else
      match load(reg.systems[id].modulePath, reg.systems[id].className)
      case Loaded(c) => Some(c)
      case _ => None
  }

  /** The not-found guard does not depend on the importer: no importer can make an unknown id load. */
  lemma UnknownIdNeverLoads<C>(reg: Registry, id: string, load1: (string, string) -> LoadOutcome<C>, load2: (string, string) -> LoadOutcome<C>)
    requires id !in reg.systems
    ensures LoadSystem(reg, id, load1) == LoadSystem(reg, id, load2) == None
  {
  }
}

=== FILE: tree_node.dfy ===
/**
 * The menu node shared by the three navigators of the payphone: the live one in
 * `payphone/core/phone_tree.py`, the older blocking one in
 * `payphone/phone_system/phone_tree.py` and the legacy one in `payphone/PhoneTree.py`.
 * A node is an immutable value: an audio prompt, a map from key to child, an optional
 * action and an inactivity timeout in whole seconds.
 */
module TreeNode {
  import opened Wrappers

  /** Names the callback attached to a node; what the callback returns is supplied by the environment. */
  type ActionTag = string

  datatype Node = Node(audioFile: string, options: map<string, Node>, action: Option<ActionTag>, timeout: int)

  /** The constructor's default inactivity timeout, in seconds. */
  const DefaultTimeout: int := 30

  /**
   * The constructor: a missing (or empty) options dictionary becomes a fresh empty one,
   * and the action and timeout default to none and 30 seconds.
   */
  function MakeNode(audioFile: string, options: Option<map<string, Node>> := None,
                    action: Option<ActionTag> := None, timeout: int := DefaultTimeout): (n: Node)
    ensures n.audioFile == audioFile && n.action == action && n.timeout == timeout
    ensures options.None? ==> n.options == map[]
    ensures options.Some? ==> n.options == options.value
  {
    Node(audioFile, options.GetOr(map[]), action, timeout)
  }

  /** A node without options (`not self.options`). */
  predicate IsLeaf(n: Node) {
    |n.options| == 0
  }

  /** A node built with every default is a leaf with no action and a 30 second timeout. */
  lemma ConstructorDefaults(audioFile: string)
    ensures MakeNode(audioFile).options == map[]
    ensures MakeNode(audioFile).action == None
    ensures MakeNode(audioFile).timeout == 30
    ensures IsLeaf(MakeNode(audioFile))
  {
  }

  /** Every node of the tree rooted at `n`, `n` included. */
  ghost function Subtrees(n: Node): (s: set<Node>)
    ensures n in s
    decreases n
  {
    {n} + set k, m | k in n.options && m in Subtrees(n.options[k]) :: m
  }

  /** The subtree of a child is part of the subtree of its parent. */
  lemma ChildSubtrees(n: Node, k: string)
    requires k in n.options
    ensures Subtrees(n.options[k]) <= Subtrees(n)
  {
    forall m | m in Subtrees(n.options[k])
      ensures m in Subtrees(n)
    {
      assert k in n.options && m in Subtrees(n.options[k]);
    }
  }

  /**
   * A path of single keys from `n` that ends at a leaf and passes only nodes without an
   * action and with a non-negative timeout.
   */
  predicate PlainPath(n: Node, keys: seq<string>)
    decreases |keys|
  {
    && n.action.None?
    && n.timeout >= 0
    && if |keys| == 0 then IsLeaf(n)
       else keys[0] in n.options && PlainPath(n.options[keys[0]], keys[1..])
  }

  /** The prompts of the nodes met along a plain path, root first. */
  function PathPrompts(n: Node, keys: seq<string>): (prompts: seq<string>)
    requires PlainPath(n, keys)
    ensures |prompts| == |keys| + 1
    ensures prompts[0] == n.audioFile
    decreases |keys|
  {
    if |keys| == 0 then [n.audioFile]
    else [n.audioFile] + PathPrompts(n.options[keys[0]], keys[1..])
  }
}

=== FILE: wrappers.dfy ===
/** Failure-compatible helper datatypes shared by every module of the model. */
module Wrappers {

  /** A value that may be absent: Python's `None` versus a present value. */
  datatype Option<+T> = None | Some(value: T) {

    /** The present value, or `default` when absent (Python's `x if x is not None else default`). */
    function GetOr(default: T): T {
      match this
      case Some(v) => v
      case None => default
    }
  }

  /** The outcome of an operation that raises in the source: `Err` carries what was raised. */
  datatype Result<+R, +E> = Ok(value: R) | Err(error: E)
}
